=== FILE: README.md ===
# rust-to-mermaid, modelled in Dafny

rust-to-mermaid reads every Rust source file below a directory and draws
Mermaid class diagrams of what it finds. Each struct and enum becomes a
class. Its fields become class members. Field types that name other local
types become edges. Named functions are listed per file, with a test group
and a main group. This project models the heart of that pipeline:

- the first pass, which collects every struct, enum and trait name
  (`collect_type_names`);
- the second pass, which builds the class map and the function groups
  (`extract_items`) from:
  - the type-identifier scan;
  - the edge kind and label rules;
  - the two backward sibling scans (`has_test_attribute`, `leading_doc_comment`);
  - the parameter and return-type rendering;
- `parse_project`, which runs both passes over the walked files and files
  each one under its module name;
- the diagram builder's half:
  - its duplicate copy of the extraction;
  - `is_test_file` and the split of classes between the main and test diagrams;
  - `Class::render` and the namespace blocks;
  - the edge and trait lines, with the sorted, duplicate-free sets they are
    collected into.

The syntax tree is a datatype: a `Node` has a kind, a text, the field name
it sits under in its parent, and ordered children. A sibling is the
parent's child sequence plus an index. Every pass is a pure function that
threads the model through as an accumulator; no shared map is mutated. The
properties are stated against independent reference definitions:

- the pre-order list of a tree's descendants (`SyntaxTree.Descendants`);
- the run of siblings a scan may walk past;
- the set of names a list of nodes declares;
- the lines a rendered block splits back into.

Modules, one per file:

- `Wrappers`, `Strings`, `SyntaxTree`: options, Rust's string operations, the tree.
- `TypeUniverse`: `collect_type_names`.
- `Scans`: `has_test_attribute` and `leading_doc_comment`.
- `Signatures`: `extract_type_identifiers`, `extract_function_params`,
  `extract_function_return_type`.
- `ClassModel`: the records (`Class`, `Relationship`, `FunctionInfo`, the
  project) and the invariants the extractor keeps.
- `Extract`, `ExtractProps`: `extract_items` and what is proved about it.
- `Paths`, `ProjectParser`: the `.rs` filter, module naming, `parse_project`.
- `DiagramExtract`: the diagram builder's copy of both passes.
  The builder's own copies of `collect_type_names`
  (src/build_diagram.rs:356-369), `has_test_attribute` (371-404),
  `extract_type_identifiers` (594-604) and `leading_doc_comment` (606-638)
  match the parser's text for text. The model defines each of them once,
  in `TypeUniverse`, `Scans` and `Signatures`.
- `Routing`, `Rendering`: test-file routing and the emitted text.

Behaviours of the code that are easy to misread:

- **Doc summary.** The doc summary is the topmost `///` line of the run
  above an item, not the nearest one. The scan keeps overwriting its result
  as it walks upward.
- **Bare field type.** A field whose type is a bare name (`b: B`) produces
  no edge. `extract_type_identifiers` looks only at proper descendants of
  the type node.
- **Methods inside `impl` blocks.** These are recorded as functions of the
  file, because `extract_items` descends into every child.
- **Repeated names.** A repeated struct or enum name appends its fields and
  edges to the first entry. The first entry's file, stereotype and doc are
  kept.
- **Missing name.** A struct or enum without a name field makes the program
  panic rather than being skipped. The model makes a name a precondition
  (`Extract.WellNamed`).
- **Never filled.** `methods` and `trait_impls` are never filled, so no
  method rows or trait lines reach the diagram.

## Model

| member | source | states |
|---|---|---|
| TypeUniverse.CollectTypeNamesSpec | src/parse.rs:108-121 | a name is collected exactly when some struct, enum or trait node at any depth below the root has it as its `name` field; nothing else is collected |
| TypeUniverse.CollectFromSpec | src/parse.rs:110-120 | the loop from any child index onward collects exactly the names declared among the descendants from that child on |
| Signatures.TypeIdentifiersPreOrder | src/parse.rs:350-360 | the scan returns the texts of the `type_identifier` nodes among the proper descendants, in pre-order including generic arguments; a name is reported exactly when such a descendant carries it |
| Signatures.IdentsFromPreOrder | src/parse.rs:353-358 | the loop from child `i` on yields the `type_identifier` texts of the descendants from child `i` on, in pre-order |
| Signatures.BareTypeYieldsNothing | src/parse.rs:350-360 | a type node that is itself a bare `type_identifier` yields no identifiers |
| Signatures.RenderParameter | src/parse.rs:370-397 | a child renders exactly when it is a `self_parameter`, or a `parameter` with a pattern or a type; a parameter with only a pattern renders as the trimmed pattern, one with only a type as the trimmed type, and one with both as the trimmed pattern, `: ` and the trimmed type |
| Signatures.RenderParamsSpec | src/parse.rs:368-399 | one string per renderable child and no other: the rendering of the j-th child sits at the index that counts the renderable children before it, so order is kept |
| Signatures.FunctionParamsSpec | src/parse.rs:363-403 | the same, for the children of the function's `parameters` field |
| Signatures.ParameterRoundTrip | src/parse.rs:372-388 | a parameter with pattern and type renders as `n: t`; the trimmed pattern is read back before the first colon and the trimmed type after `: ` |
| Signatures.SelfParameterRendersTrimmed | src/parse.rs:391-395 | a receiver renders as its own text, trimmed |
| Signatures.ExtractFunctionReturnType | src/parse.rs:406-421 | a return type, when present, is non-empty and trimmed; no `return_type` field gives none |
| Signatures.ReturnTypeArrowRoundTrip | src/parse.rs:411-420 | `-> T` with any whitespace around the arrow and the type gives exactly `T` |
| Signatures.ReturnTypeBareRoundTrip | src/parse.rs:411-420 | a padded type without an arrow gives the type itself |
| Signatures.ReturnTypeEmptyIsNone | src/parse.rs:411-420 | a return type that is blank, or a bare arrow, gives none rather than an empty string |
| Scans.HasTestAttributeSpec | src/parse.rs:123-156 | no previous sibling gives false; otherwise true exactly when a test attribute precedes the function and everything between them is another attribute, a comment or a blank node |
| Scans.TestScanSpec | src/parse.rs:131-153 | the backward loop from sibling `j` finds a test attribute exactly when one can be reached walking back past attributes, comments and blank nodes only |
| Scans.TestAttributeBehindComment | src/parse.rs:131-153 | any comment between a test attribute and the function is stepped over, and the function is a test |
| Scans.TestAttributeBehindStatement | src/parse.rs:131-153 | any non-blank sibling between a test attribute and the function that is neither an attribute nor a comment ends the scan, and the function is not a test |
| Scans.LeadingDocCommentSpec | src/parse.rs:424-455 | none exactly when no `///` line heads an unbroken run of doc lines and blank nodes reaching the item; otherwise the stripped, trimmed text of the topmost doc line of that run |
| Scans.TopmostDocLineWins | src/parse.rs:424-455 | for any two `///` lines directly above an item, the summary is the upper line's text, trimmed |
| Scans.PlainCommentBreaksDoc | src/parse.rs:424-455 | any plain `//` comment between a doc line and the item ends the scan, and the item has no summary |
| Scans.AttributeBreaksDoc | src/parse.rs:424-455 | any non-blank attribute between a doc line and the item ends the scan, and the item has no summary |
| ExtractProps.FieldEdgesSpec | src/parse.rs:203-221 | a field's edges are exactly the relationships from the class to a local type whose name is a `type_identifier` under the field type; the kind is `o--` exactly when the type node is a `reference_type`, else `*--`; the label follows the field's site |
| ExtractProps.EdgesForSpec | src/parse.rs:204-221 | an edge is produced for an identifier exactly when it is local, with the given source, kind and label |
| ExtractProps.FieldEdgesLocal | src/parse.rs:205-221 | every produced edge starts at the class and ends at a local type, so foreign types never produce edges |
| ExtractProps.LabelSpec | src/parse.rs:279-287 | a struct field's label exists exactly when the field is named, and is `ty f`; a variant field's label exists exactly when the variant is named, and is `ty V::f` or `ty V`; the part before the first space is the type |
| ExtractProps.StructMemberSpec | src/parse.rs:193-225 | one struct member appends its name when it is a named field, and adds exactly the edges of its type labelled with its name, nothing else |
| ExtractProps.StructBodySpec | src/parse.rs:190-226 | a struct body appends the names of its named fields in order and adds exactly the union of its fields' edges; name, file, stereotype and doc are untouched |
| ExtractProps.StructEdgesMember | src/parse.rs:192-225 | an edge comes from a struct body exactly when it comes from one of its fields |
| ExtractProps.VariantBodySpec | src/parse.rs:261-300 | the fields inside a variant add no member names and exactly the union of their edges, labelled with the variant |
| ExtractProps.EnumMemberSpec | src/parse.rs:251-301 | one enum member appends the variant's name when named, and adds exactly the edges of the variant's fields |
| ExtractProps.EnumBodySpec | src/parse.rs:248-303 | an enum body appends the names of its named variants in order and adds exactly the union of every variant's field edges |
| ExtractProps.EnumEdgesMember | src/parse.rs:250-301 | an edge comes from an enum body exactly when it comes from one of its variants |
| ExtractProps.DeclareBodySpec | src/parse.rs:190-303 | walking a declaration's body extends its class by exactly the body's member names and edges |
| ExtractProps.AddClassSpec | src/parse.rs:172-303 | the name becomes a key and no other entry changes; a new entry holds exactly this declaration's file, stereotype, doc, member names and edges; an existing entry keeps its file, stereotype and doc and gains exactly this body's names after its own and this body's edges; the class invariant is kept |
| ExtractProps.FunctionRouting | src/parse.rs:320-330 | a named function's record is pushed under its module onto the tests group exactly when a test attribute precedes it, onto the main group otherwise, never both; no class and no other module changes |
| ExtractProps.FunctionRecordSpec | src/parse.rs:307-318 | the record carries the function's name; its doc is the topmost `///` line of the run above it, none without such a run; its parameters are one rendering per renderable child of the parameter list in order, none without a list; its return type is non-empty and trimmed when present and absent without a `return_type` field |
| ExtractProps.VisitItemSpec | src/parse.rs:171-335 | a struct or enum changes only its own class entry, as `AddClassSpec` states, and no function record; a named function files exactly its record in its group and changes no class; any other child leaves the model unchanged |
| ExtractProps.VisitClassItem | src/parse.rs:172-303 | a named struct or enum changes only its own class entry, with the doc found above it, and no function record |
| ExtractProps.WalkClasses | src/parse.rs:170-347 | the walk from child `i` on adds exactly the struct and enum names among the descendants from child `i` on, keeps existing entries' metadata, and files new entries under the module |
| ExtractProps.WalkFunctions | src/parse.rs:170-347 | under the module, the walk from child `i` on appends to the test group exactly the records of the test functions among those positions in pre-order, and to the main group those of the other named functions; no other module changes |
| ExtractProps.WalkFirstDecl | src/parse.rs:182-188 | every struct or enum name met by the walk is a key, and every new entry carries the module and the stereotype and doc of the first declaration of its name in pre-order |
| ExtractProps.RecordsConcat | src/parse.rs:337-346 | the records of two stretches of positions are those of each in turn |
| ExtractProps.FirstDeclConcat | src/parse.rs:182-188 | the first declaration in two stretches is the first stretch's when it has one, the second's otherwise |
| ExtractProps.DeclaredNamesConcat | src/parse.rs:182-188 | the member names declared for a name over two stretches of positions are those of the first stretch followed by those of the second |
| ExtractProps.DeclaredEdgesConcat | src/parse.rs:182-188 | the edges declared for a name over two stretches are the union of each stretch's |
| ExtractProps.DeclaredContents | src/parse.rs:172-303 | one struct or enum declaration adds exactly its body's member names and edges to the entry of its own name, and leaves every other entry as it was |
| ExtractProps.VisitContents | src/parse.rs:160-188 | visiting one child changes the fields and edges of an entry only when the child declares that entry's name, and then by exactly the declaration's body |
| ExtractProps.ChainContents | src/parse.rs:182-188 | walking one stretch of positions and then another adds to each entry what walking both together adds, in the same order |
| ExtractProps.WalkContents | src/parse.rs:182-188 | walking a subtree adds to each entry exactly the member names of the declarations of its name in it, in pre-order, and exactly their edges, from the entry's own name |
| ExtractProps.WalkOk | src/parse.rs:170-347 | the walk keeps the model invariant: each entry is named by its key, a struct or enum, has no methods or trait implementations, and all its edges are local |
| ExtractProps.ExtractItemsSpec | src/parse.rs:158-348 | existing entries keep their metadata and only gain; the keys become the old keys plus every struct and enum name at any depth; each new entry is filed under the module with the stereotype and doc of the first declaration of its name in pre-order; every entry gains exactly the member names of the declarations of its name in the tree, in pre-order, and exactly their edges; the invariant is kept; the test group gains exactly the records of the test functions at any depth (methods in `impl` blocks included) in pre-order, the main group those of the other named functions |
| ExtractProps.ExtractedClassesAreCollected | src/parse.rs:108-121 | every class the second pass creates is a name the first pass collects |
| ExtractProps.VecOfBEdges | src/parse.rs:203-221 | `v: Vec<B>` with `B` local gives exactly one composition edge to `B` labelled `B v` |
| ExtractProps.BareFieldHasNoEdge | src/parse.rs:190-226 | `struct A { b: B, v: Vec<B> }` gets members `b`, `v` and only the edge from `v` |
| ExtractProps.ImplMethodIsRecordedAsFunction | src/parse.rs:306-346 | a method inside an `impl` block is recorded as a function of its file |
| ClassModel.Push | src/parse.rs:320-329 | pushing under a key adds the key, appends the record to that key's list and leaves every other key's list alone |
| Paths.ExtensionSpec | src/parse.rs:99-106 | an extension, when there is one, ends the path, contains no dot and no separator and is preceded by a dot; there is none exactly when the file name is `..`, empty, or has no dot after its first character |
| Paths.NameExtensionNone | src/parse.rs:99-106 | a file name has no extension exactly when it is `..`, empty, or has no dot after its first character |
| Paths.FileModuleSpec | src/parse.rs:75-78 | the module name followed by a dot and the extension gives back the path; a path without an extension is its own module name |
| Paths.RelPath | src/parse.rs:69-73 | a file below the directory loses the directory and its separator; any other file is kept whole |
| Paths.ModuleRoundTrip | src/parse.rs:75-78 | `m.rs` is a Rust file and is filed under `m` |
| Paths.ModuleInjective | src/parse.rs:75-78 | distinct Rust files are filed under distinct modules |
| Paths.WalkedFileModule | src/parse.rs:64-78 | the walked file `dir/m.rs` is a Rust file filed under `m` |
| ProjectParser.RustFiles | src/parse.rs:99-106 | an entry is kept exactly when its extension is `rs` |
| ProjectParser.RustFilesPlaces | src/parse.rs:99-106 | the Rust file at walk position `i` sits in the filtered list at the count of Rust files before it, so walk order is kept |
| ProjectParser.RustBeforeOrder | src/parse.rs:99-106 | an earlier Rust file gets a strictly earlier place |
| ProjectParser.RustFilesLength | src/parse.rs:99-106 | the filtered list holds as many entries as the walk holds Rust files |
| ProjectParser.RustFilesConcat | src/parse.rs:99-106 | filtering two stretches of the walk is filtering each in turn |
| ProjectParser.ParseProject | src/parse.rs:48-97 | the parse fails exactly when some Rust file of the walk cannot be read |
| ProjectParser.LocalTypesSpec | src/parse.rs:57-62 | a name is in the type universe exactly when some file declares a struct, enum or trait of that name |
| ProjectParser.LocalTypesOrderFree | src/parse.rs:57-62 | the type universe does not depend on the order the files are walked in |
| ProjectParser.ExtractFilesClasses | src/parse.rs:64-90 | across files, each new entry carries the module, stereotype and doc of the first declaration of its name, in walk order and then pre-order; the keys are exactly the names declared in any file |
| ProjectParser.ExtractFilesContents | src/parse.rs:64-90 | across files, every entry gains exactly the member names of the declarations of its name, in walk order and then pre-order, and exactly their edges |
| ProjectParser.ExtractFilesFunctions | src/parse.rs:64-90 | under each module, the test group gains exactly the records of the test functions of the files filed there, in walk order and pre-order, and the main group those of the other named functions |
| ProjectParser.ParseProjectSpec | src/parse.rs:48-97 | a successful parse gives a model where every class obeys the invariant, the keys are exactly the declared struct and enum names (all in the type universe), each class carries the module, stereotype and doc of the first declaration of its name, its fields are the member names of every declaration of its name in walk order and then pre-order and its edges exactly theirs, and each module's test and main groups are exactly the records of its files' test and other named functions, in order |
| DiagramExtract.DiagramModel | src/build_diagram.rs:129-167 | the diagram builder's passes fail exactly when some Rust file cannot be read |
| DiagramExtract.SummarizePush | src/build_diagram.rs:564-574 | cutting records down to name and doc commutes with filing one more record |
| DiagramExtract.DiagramVisitAgrees | src/build_diagram.rs:418-579 | one step of the diagram builder's walk is the parser's step with the record cut down to name and doc |
| DiagramExtract.DiagramWalkAgrees | src/build_diagram.rs:406-592 | the diagram builder's walk is the parser's walk with every record cut down |
| DiagramExtract.DiagramModelAgrees | src/build_diagram.rs:134-167 | the diagram builder's model is the parser's model with every function record cut down: same classes, same functions in the same order and the same group |
| Routing.IsTestFileSpec | src/build_diagram.rs:640-645 | a module is a test module exactly when it starts with `tests`, contains `/tests/`, or ends with `_test` or `_tests` |
| Routing.TestFileShapes | src/build_diagram.rs:640-645 | any module starting with `tests` (so `testsuite` too), any module with a `tests` directory inside it, and any module ending in `_test` or `_tests` is a test module |
| Routing.ContestIsNotTest | src/build_diagram.rs:640-645 | `contest` is not a test module: a `test` suffix without an underscore is not enough |
| Routing.NestedTestsFileIsNotTest | src/build_diagram.rs:640-645 | `parse/tests` is not a test module: a file named `tests.rs` is not a `tests` directory |
| Routing.RouteMain | src/build_diagram.rs:172-184 | after the loop, a module's main group is what it held plus, unless the module is a test module, that module's classes in enumeration order |
| Routing.RouteTest | src/build_diagram.rs:172-184 | after the loop, a module's test group is what it held plus, when the module is a test module, that module's classes in enumeration order |
| Routing.RouteKeys | src/build_diagram.rs:172-184 | a module has a group exactly when it had one or some enumerated class of a matching module is filed under it |
| Routing.RouteClassesSpec | src/build_diagram.rs:172-184 | every class lands in exactly one diagram, the test one exactly when its file is a test module, keyed by its file; each group holds exactly its file's classes |
| Rendering.RenderClass | src/build_diagram.rs:38-65 | the note is present exactly when the class has a doc |
| Rendering.RenderClassLines | src/build_diagram.rs:38-65 | the block reads back as the header, the stereotype line only when there is one, the file line, one line per field and per method in order, and the closing brace |
| Rendering.ClassBlockJoin | src/build_diagram.rs:41-57 | the block is those lines, each followed by a newline |
| Rendering.NamespaceLines | src/build_diagram.rs:237-248 | a namespace reads back as its opening line, the lines of each class block in order, and the closing brace |
| Rendering.NotesSpec | src/build_diagram.rs:240-246 | one note per documented class, in class order, naming the class and quoting its doc |
| Rendering.EdgeLineInjective | src/build_diagram.rs:200-216 | when names and edge kinds are words, two relationships share a line only when they are equal, so the set merges exactly the identical edges |
| Rendering.CollectEdgesSpec | src/build_diagram.rs:192-222 | a line is in a set after the loop exactly when it was there or an enumerated class of that diagram contributes it |
| Rendering.EdgeSetsSpec | src/build_diagram.rs:189-222 | a line is in a diagram's edge set exactly when some class of that diagram contributes it |
| Rendering.EdgeSetsOrderFree | src/build_diagram.rs:189-222 | the edge sets do not depend on the order the class map is enumerated in |
| Rendering.ExtractedEdgeLines | src/build_diagram.rs:192-222 | for extracted classes, every line is the line of one of their relationships, an aggregation or a composition; no trait line occurs |
| Rendering.Least | src/build_diagram.rs:265-267 | the least line of a non-empty set, in Rust's string order |
| Rendering.SortedLines | src/build_diagram.rs:265-267 | a set's lines come out strictly ascending in Rust's string order, each line once, all of them |

## Left out

- The directory walk, the file reads, the tree-sitter parser and UTF-8
  decoding are not modelled. The walk's entries arrive as a sequence, each
  with its tree or with no tree when the file cannot be read. Node texts are
  given, and UTF-8 failures do not occur.
- Paths are plain strings with `/` as separator. Trailing separators, `.`
  components and non-UTF-8 names are not normalised.
- The front-matter config text and the `CARGO_MANIFEST_DIR` fallback are
  not modelled. They are pass-through formatting and environment lookup.
  The same goes for `generate_diagrams`, writing the two files, and
  `src/main.rs`.
- The function namespaces are not modelled. They are emitted by iterating a
  hash map in an order the program does not fix.
- The order of classes inside a namespace is modelled as an arbitrary
  enumeration. No property depends on it.
- The concatenation of the whole diagram is not modelled: front matter,
  class namespaces, function namespaces, edges, notes. Each part that is
  deterministic is modelled on its own.
- Extract.ExtractItems: a struct or enum without a `name` field makes the
  program panic. The model makes a name a precondition instead of modelling
  the panic.
- Rendering.EdgeLineInjective: proved only for names and edge kinds without
  spaces or line breaks. Those are what the extractor produces; other
  strings could make two edges print the same line.

=== FILE: class_model.dfy ===
/**
 The records the extractor builds: `Class` (one per struct or enum name),
 `Relationship` (a directed, kind-tagged, optionally labelled edge),
 `FunctionInfo` (one per named function), and the project model that holds
 them: classes by name and function records by file module, split into
 test and main groups. The project is generic in its function record so
 that the diagram builder's slimmer record can share it.
 */
module ClassModel {
  import opened Wrappers

  datatype Relationship = Relationship(source: string, target: string, edgeType: string, edgeLabel: Option<string>)

  datatype Class = Class(
    name: string,
    file: string,
    stereotype: Option<string>,
    doc: Option<string>,
    fields: seq<string>,
    methods: seq<string>,
    relationships: set<Relationship>,
    traitImpls: set<string>)

  datatype FunctionInfo = FunctionInfo(name: string, doc: Option<string>, params: seq<string>, ret: Option<string>)

  datatype Project<F> = Project(classes: map<string, Class>, main: map<string, seq<F>>, tests: map<string, seq<F>>)

  type ParsedProject = Project<FunctionInfo>

  function EmptyProject<F>(): Project<F> {
    Project(map[], map[], map[])
  }

  /** `Class { name, file, stereotype, doc, ..Default::default() }` */
  function NewClass(name: string, file: string, stereotype: string, doc: Option<string>): Class {
    Class(name, file, Some(stereotype), doc, [], [], {}, {})
  }

  /** The records filed under `k`, or none yet. */
  function Get<F>(m: map<string, seq<F>>, k: string): seq<F> {
    if k in m then m[k] else []
  }

  /** `entry(k).or_default().push(x)` */
  function Push<F>(m: map<string, seq<F>>, k: string, x: F): (r: map<string, seq<F>>)
    ensures r.Keys == m.Keys + {k}
    ensures Get(r, k) == Get(m, k) + [x]
    ensures forall k' :: k' != k ==> Get(r, k') == Get(m, k')
  {
    m[k := Get(m, k) + [x]]
  }

  // ---------------------------------------------------------------------------
  // Invariants of the extracted model
  // ---------------------------------------------------------------------------

  /** An edge of class `k` starts at `k` and ends at a local type. */
  predicate RelOk(r: Relationship, k: string, local: set<string>) {
    && r.source == k
    && r.target in local
    && (r.edgeType == "o--" || r.edgeType == "*--")
  }

  /** The entry stored under `k`: named `k`, a struct or an enum, every edge
      local, and no methods or trait implementations (the extractor never
      records any). */
  predicate ClassOk(k: string, c: Class, local: set<string>) {
    && c.name == k
    && c.methods == []
    && c.traitImpls == {}
    && (c.stereotype == Some("struct") || c.stereotype == Some("enum"))
    && forall r :: r in c.relationships ==> RelOk(r, k, local)
  }

  predicate ModelOk<F>(p: Project<F>, local: set<string>) {
    forall k :: k in p.classes ==> ClassOk(k, p.classes[k], local)
  }

  /** `c'` is `c` after more declarations of the same name: identity,
      file, stereotype and doc untouched, fields only appended, edges only
      added, and every added edge starts at the class and ends at a local
      type with one of the two edge kinds. */
  predicate Extends(c: Class, c': Class, local: set<string>) {
    && c'.name == c.name
    && c'.file == c.file
    && c'.stereotype == c.stereotype
    && c'.doc == c.doc
    && c'.methods == c.methods
    && c'.traitImpls == c.traitImpls
    && c.fields <= c'.fields
    && c.relationships <= c'.relationships
    && forall r :: r in c'.relationships && r !in c.relationships ==> RelOk(r, c.name, local)
  }

  lemma ExtendsTransitive(a: Class, b: Class, c: Class, local: set<string>)
    requires Extends(a, b, local) && Extends(b, c, local)
    ensures Extends(a, c, local)
  {
  }

  /** Every class already in `p` is still in `p'`, extended (first insertion wins). */
  predicate FirstWins<F>(p: Project<F>, p': Project<F>, local: set<string>) {
    forall k :: k in p.classes ==> k in p'.classes && Extends(p.classes[k], p'.classes[k], local)
  }

  lemma FirstWinsTransitive<F>(a: Project<F>, b: Project<F>, c: Project<F>, local: set<string>)
    requires FirstWins(a, b, local) && FirstWins(b, c, local)
    ensures FirstWins(a, c, local)
  {
    forall k | k in a.classes
      ensures k in c.classes && Extends(a.classes[k], c.classes[k], local)
    {
      ExtendsTransitive(a.classes[k], b.classes[k], c.classes[k], local);
    }
  }
}

=== FILE: diagram_extract.dfy ===
/**
 The diagram builder's own copy of the two passes. Its walk treats structs
 and enums exactly as the project parser's does, and classifies functions by
 the same test-attribute scan, but its function record keeps only the name
 and the doc summary. The lemmas below show the copy computes the parser's
 model with every function record cut down to those two parts, so every
 property proved of the parser's model carries over.
 */
module DiagramExtract {
  import opened Wrappers
  import opened SyntaxTree
  import opened Scans
  import opened ClassModel
  import opened Extract
  import opened Paths
  import opened ProjectParser

  /** The diagram builder's `FunctionInfo`: name and doc summary only. */
  datatype FunctionSummary = FunctionSummary(name: string, doc: Option<string>)

  type DiagramProject = Project<FunctionSummary>

  /** The diagram builder's `extract_items` step for the child at `sibs[i]`. */
  function DiagramVisit(sibs: seq<Node>, i: nat, fm: string, local: set<string>, acc: DiagramProject): DiagramProject
    requires i < |sibs| && ClassItemNamed(sibs[i])
  {
    var c := sibs[i];
    if IsClassItem(c) then
      acc.(classes := AddClass(acc.classes, c, LeadingDocComment(sibs, i), fm, local))
    else if c.kind == "function_item" && NameOf(c).Some? then
      var info := FunctionSummary(NameOf(c).value, LeadingDocComment(sibs, i));
      if HasTestAttribute(sibs, i) then acc.(tests := Push(acc.tests, fm, info))
      else acc.(main := Push(acc.main, fm, info))
    else acc
  }

  /** The diagram builder's `extract_items` over child `i` onward of `n`. */
  function DiagramWalk(n: Node, i: nat, fm: string, local: set<string>, acc: DiagramProject): DiagramProject
    requires i <= |n.children| && NamedFrom(n, i)
    decreases n, |n.children| - i
  {
    if i == |n.children| then acc
    else
      var acc1 := DiagramVisit(n.children, i, fm, local, acc);
      var acc2 := DiagramWalk(n.children[i], 0, fm, local, acc1);
      DiagramWalk(n, i + 1, fm, local, acc2)
  }

  /** The second pass of `generate_diagrams_with_config`, file by file. */
  function DiagramExtractFiles(files: seq<Entry>, dir: string, local: set<string>, acc: DiagramProject): DiagramProject
    requires AllReadable(files) && FilesWellNamed(files)
  {
    if files == [] then acc
    else
      var e := files[0];
      DiagramExtractFiles(files[1..], dir, local, DiagramWalk(e.tree.value, 0, ModuleOf(e, dir), local, acc))
  }

  /** Both passes of `generate_diagrams_with_config`; no model when some Rust file cannot be read. */
  function DiagramModel(dir: string, entries: seq<Entry>): (r: Option<DiagramProject>)
    requires FilesWellNamed(RustFiles(entries))
    ensures r.None? <==> exists e :: e in entries && IsRustFile(e.path) && e.tree.None?
  {
    var files := RustFiles(entries);
    if !AllReadable(files) then None
    else Some(DiagramExtractFiles(files, dir, LocalTypes(files), EmptyProject()))
  }

  // ---------------------------------------------------------------------------
  // Cutting the parser's records down
  // ---------------------------------------------------------------------------

  function Summary(f: FunctionInfo): FunctionSummary {
    FunctionSummary(f.name, f.doc)
  }

  function SummarizeSeq(fs: seq<FunctionInfo>): seq<FunctionSummary> {
    seq(|fs|, i requires 0 <= i < |fs| => Summary(fs[i]))
  }

  function SummarizeMap(m: map<string, seq<FunctionInfo>>): map<string, seq<FunctionSummary>> {
    map k | k in m :: SummarizeSeq(m[k])
  }

  /** The parser's model with each function record cut down to name and doc. */
  function Summarize(p: ParsedProject): DiagramProject {
    Project(p.classes, SummarizeMap(p.main), SummarizeMap(p.tests))
  }

  /** Cutting down commutes with filing one more record. */
  lemma SummarizePush(m: map<string, seq<FunctionInfo>>, k: string, f: FunctionInfo)
    ensures SummarizeMap(Push(m, k, f)) == Push(SummarizeMap(m), k, Summary(f))
  {
    var l := SummarizeMap(Push(m, k, f));
    var r := Push(SummarizeMap(m), k, Summary(f));
    assert l.Keys == r.Keys;
    forall k' | k' in l
      ensures l[k'] == r[k']
    {
      if k' == k {
        assert SummarizeSeq(Get(m, k) + [f]) == SummarizeSeq(Get(m, k)) + [Summary(f)];
      }
    }
  }

  /** One step of the diagram builder's walk is one step of the parser's walk, cut down. */
  lemma DiagramVisitAgrees(sibs: seq<Node>, i: nat, fm: string, local: set<string>, acc: ParsedProject)
    requires i < |sibs| && ClassItemNamed(sibs[i])
    ensures DiagramVisit(sibs, i, fm, local, Summarize(acc)) == Summarize(VisitItem(sibs, i, fm, local, acc))
  {
    var c := sibs[i];
    if !IsClassItem(c) && c.kind == "function_item" && NameOf(c).Some? {
      var info := FunctionRecord(sibs, i);
      assert Summary(info) == FunctionSummary(NameOf(c).value, LeadingDocComment(sibs, i));
      if HasTestAttribute(sibs, i) {
        SummarizePush(acc.tests, fm, info);
      } else {
        SummarizePush(acc.main, fm, info);
      }
    }
  }

  /** The diagram builder's walk computes the parser's walk, cut down. */
  lemma {:induction false} DiagramWalkAgrees(n: Node, i: nat, fm: string, local: set<string>, acc: ParsedProject)
    requires i <= |n.children| && NamedFrom(n, i)
    ensures DiagramWalk(n, i, fm, local, Summarize(acc)) == Summarize(Walk(n, i, fm, local, acc))
    decreases n, |n.children| - i
  {
    if i < |n.children| {
      var acc1 := VisitItem(n.children, i, fm, local, acc);
      var acc2 := Walk(n.children[i], 0, fm, local, acc1);
      DiagramVisitAgrees(n.children, i, fm, local, acc);
      DiagramWalkAgrees(n.children[i], 0, fm, local, acc1);
      DiagramWalkAgrees(n, i + 1, fm, local, acc2);
    }
  }

  lemma {:induction false} DiagramExtractFilesAgrees(files: seq<Entry>, dir: string, local: set<string>, acc: ParsedProject)
    requires AllReadable(files) && FilesWellNamed(files)
    ensures DiagramExtractFiles(files, dir, local, Summarize(acc)) == Summarize(ExtractFiles(files, dir, local, acc))
  {
    if files != [] {
      var e := files[0];
      DiagramWalkAgrees(e.tree.value, 0, ModuleOf(e, dir), local, acc);
      DiagramExtractFilesAgrees(files[1..], dir, local, ExtractItems(e.tree.value, ModuleOf(e, dir), local, acc));
    }
  }

  /** The diagram builder's model is the parser's model with every function
      record cut down to name and doc: the same classes under the same
      names, and under every module the same functions, in the same order,
      in the same test or main group. */
  lemma DiagramModelAgrees(dir: string, entries: seq<Entry>)
    requires FilesWellNamed(RustFiles(entries))
    ensures DiagramModel(dir, entries).None? <==> ParseProject(dir, entries).None?
    ensures DiagramModel(dir, entries).Some? ==>
      DiagramModel(dir, entries).value == Summarize(ParseProject(dir, entries).value)
  {
    var files := RustFiles(entries);
    if AllReadable(files) {
      var empty: ParsedProject := EmptyProject();
      assert Summarize(empty) == EmptyProject();
      DiagramExtractFilesAgrees(files, dir, LocalTypes(files), empty);
    }
  }
}

=== FILE: extract.dfy ===
/**
 The second pass of the extractor (`extract_items`): a walk over every node
 of a file's tree that records structs and enums as classes (with their
 fields and the edges their field types induce) and named functions as
 function records. The class steps here are shared by both copies of the
 walk in the source; the function step and the walk itself belong to the
 project parser.
 */
module Extract {
  import opened Wrappers
  import opened SyntaxTree
  import opened Scans
  import opened Signatures
  import opened ClassModel

  // ---------------------------------------------------------------------------
  // Edges induced by one field's type
  // ---------------------------------------------------------------------------

  /** Where a field sits: directly in a struct, or in a variant of an enum. */
  datatype Site =
    | StructField(fieldName: Option<string>)
    | VariantField(variantName: Option<string>, fieldName: Option<string>)

  /** `"o--"` (aggregation) for a reference type, `"*--"` (composition) otherwise. */
  function EdgeType(ftype: Node): string {
    if ftype.kind == "reference_type" then "o--" else "*--"
  }

  /** The label of an edge to `ty` from a field at `site`. */
  function Label(ty: string, site: Site): Option<string> {
    match site
    case StructField(f) =>
      if f.Some? then Some(ty + " " + f.value) else None
    case VariantField(v, f) =>
      if v.Some? && f.Some? then Some(ty + " " + v.value + "::" + f.value)
      else if v.Some? then Some(ty + " " + v.value)
      else None
  }

  /** The `for ty in extract_type_identifiers(ftype)` loop: one edge per local type. */
  function EdgesFor(source: string, tys: seq<string>, edge: string, site: Site, local: set<string>): set<Relationship> {
    if tys == [] then {}
    else
      var here := if tys[0] in local then {Relationship(source, tys[0], edge, Label(tys[0], site))} else {};
      here + EdgesFor(source, tys[1..], edge, site, local)
  }

  function FieldEdges(source: string, ftype: Node, site: Site, local: set<string>): set<Relationship> {
    EdgesFor(source, ExtractTypeIdentifiers(ftype), EdgeType(ftype), site, local)
  }

  // ---------------------------------------------------------------------------
  // Struct and enum bodies
  // ---------------------------------------------------------------------------

  /** One child of a struct body: a `field_declaration` appends its name
      (if any) and adds the edges of its type (if any). */
  function StructMember(cls: Class, field: Node, local: set<string>): Class {
    if field.kind != "field_declaration" then cls
    else
      var fname := NameOf(field);
      var cls1 := if fname.Some? then cls.(fields := cls.fields + [fname.value]) else cls;
      match ChildByField(field, "type")
      case Some(ftype) =>
        cls1.(relationships := cls1.relationships + FieldEdges(cls1.name, ftype, StructField(fname), local))
      case None => cls1
  }

  function StructBody(cls: Class, members: seq<Node>, local: set<string>): Class
    decreases |members|
  {
    if members == [] then cls
    else StructBody(StructMember(cls, members[0], local), members[1..], local)
  }

  /** One child of a variant's body: a `field_declaration` adds the edges of
      its type, labelled with the variant; its name is not recorded. */
  function VariantMember(cls: Class, vname: Option<string>, field: Node, local: set<string>): Class {
    if field.kind != "field_declaration" then cls
    else
      match ChildByField(field, "type")
      case Some(ftype) =>
        cls.(relationships := cls.relationships + FieldEdges(cls.name, ftype, VariantField(vname, NameOf(field)), local))
      case None => cls
  }

  function VariantBody(cls: Class, vname: Option<string>, members: seq<Node>, local: set<string>): Class
    decreases |members|
  {
    if members == [] then cls
    else VariantBody(VariantMember(cls, vname, members[0], local), vname, members[1..], local)
  }

  /** One child of an enum body: an `enum_variant` appends its name (if any)
      and walks its body (if any). */
  function EnumMember(cls: Class, variant: Node, local: set<string>): Class {
    if variant.kind != "enum_variant" then cls
    else
      var vname := NameOf(variant);
      var cls1 := if vname.Some? then cls.(fields := cls.fields + [vname.value]) else cls;
      match ChildByField(variant, "body")
      case Some(vbody) => VariantBody(cls1, vname, vbody.children, local)
      case None => cls1
  }

  function EnumBody(cls: Class, members: seq<Node>, local: set<string>): Class
    decreases |members|
  {
    if members == [] then cls
    else EnumBody(EnumMember(cls, members[0], local), members[1..], local)
  }

  // ---------------------------------------------------------------------------
  // Items
  // ---------------------------------------------------------------------------

  predicate IsClassItem(n: Node) {
    n.kind == "struct_item" || n.kind == "enum_item"
  }

  /** The name `extract_items` unwraps: a struct or enum always has one. */
  predicate ClassItemNamed(n: Node) {
    IsClassItem(n) ==> NameOf(n).Some?
  }

  /** Every struct and enum from child `i` of `n` down has a name field. */
  predicate NamedFrom(n: Node, i: nat)
    requires i <= |n.children|
    decreases n, |n.children| - i
  {
    i == |n.children| ||
    (ClassItemNamed(n.children[i]) && NamedFrom(n.children[i], 0) && NamedFrom(n, i + 1))
  }

  predicate WellNamed(n: Node) {
    NamedFrom(n, 0)
  }

  function Stereotype(item: Node): string {
    if item.kind == "struct_item" then "struct" else "enum"
  }

  /** The struct or enum arm of `extract_items`: fetch the entry by name or
      create it with this declaration's file, stereotype and doc, then walk
      the body into it. */
  function AddClass(classes: map<string, Class>, item: Node, doc: Option<string>, fm: string, local: set<string>): map<string, Class>
    requires IsClassItem(item) && NameOf(item).Some?
  {
    var name := NameOf(item).value;
    var cls := if name in classes then classes[name] else NewClass(name, fm, Stereotype(item), doc);
    classes[name := DeclareBody(cls, item, local)]
  }

  /** The walk over a declaration's body: its fields for a struct, its
      variants for an enum, nothing without a body. */
  function DeclareBody(cls: Class, item: Node, local: set<string>): Class {
    match ChildByField(item, "body")
    case Some(body) =>
      if item.kind == "struct_item" then StructBody(cls, body.children, local)
      else EnumBody(cls, body.children, local)
    case None => cls
  }

  /** The record of the named function at `sibs[i]`. */
  function FunctionRecord(sibs: seq<Node>, i: nat): FunctionInfo
    requires i < |sibs| && NameOf(sibs[i]).Some?
  {
    var f := sibs[i];
    FunctionInfo(NameOf(f).value, LeadingDocComment(sibs, i), ExtractFunctionParams(f), ExtractFunctionReturnType(f))
  }

  /** What `extract_items` does with the child at `sibs[i]`, before descending into it. */
  function VisitItem(sibs: seq<Node>, i: nat, fm: string, local: set<string>, acc: ParsedProject): ParsedProject
    requires i < |sibs| && ClassItemNamed(sibs[i])
  {
    var c := sibs[i];
    if IsClassItem(c) then
      acc.(classes := AddClass(acc.classes, c, LeadingDocComment(sibs, i), fm, local))
    else if c.kind == "function_item" && NameOf(c).Some? then
      var info := FunctionRecord(sibs, i);
      if HasTestAttribute(sibs, i) then acc.(tests := Push(acc.tests, fm, info))
      else acc.(main := Push(acc.main, fm, info))
    else acc
  }

  /** `extract_items` over child `i` onward of `n`: each child is visited,
      then its own children, then the next child. */
  function Walk(n: Node, i: nat, fm: string, local: set<string>, acc: ParsedProject): ParsedProject
    requires i <= |n.children| && NamedFrom(n, i)
    decreases n, |n.children| - i
  {
    if i == |n.children| then acc
    else
      var acc1 := VisitItem(n.children, i, fm, local, acc);
      var acc2 := Walk(n.children[i], 0, fm, local, acc1);
      Walk(n, i + 1, fm, local, acc2)
  }

  /** `extract_items(root, …, file_module, local_types, …)` */
  function ExtractItems(root: Node, fm: string, local: set<string>, acc: ParsedProject): ParsedProject
    requires WellNamed(root)
  {
    Walk(root, 0, fm, local, acc)
  }
}

=== FILE: extract_props.dfy ===
/**
 What the extraction pass guarantees: which edges a field produces, what a
 struct or enum declaration does to its entry (first insertion wins for the
 metadata, later declarations only append), and what a whole walk does to
 the project model.
 */
module ExtractProps {
  import opened Wrappers
  import opened Strings
  import opened SyntaxTree
  import opened Scans
  import opened Signatures
  import opened TypeUniverse
  import opened ClassModel
  import opened Extract

  // ---------------------------------------------------------------------------
  // Edges of one field
  // ---------------------------------------------------------------------------

  lemma {:induction false} EdgesForSpec(source: string, tys: seq<string>, edge: string, site: Site, local: set<string>, r: Relationship)
    ensures r in EdgesFor(source, tys, edge, site, local) <==>
      && r.source == source
      && r.target in tys
      && r.target in local
      && r.edgeType == edge
      && r.edgeLabel == Label(r.target, site)
  {
    if tys != [] {
      EdgesForSpec(source, tys[1..], edge, site, local, r);
      assert tys == [tys[0]] + tys[1..];
    }
  }

  /** A field's type yields exactly one edge per local type identifier found
      strictly below its type node: from the enclosing class, aggregation
      (`o--`) exactly when the type node itself is a reference type and
      composition (`*--`) otherwise, labelled after the field's site. Types
      outside the universe yield nothing. */
  lemma FieldEdgesSpec(source: string, ftype: Node, site: Site, local: set<string>, r: Relationship)
    ensures r in FieldEdges(source, ftype, site, local) <==>
      && r.source == source
      && r.target in local
      && (exists d :: d in Descendants(ftype) && d.kind == "type_identifier" && d.text == r.target)
      && (r.edgeType == "o--" <==> ftype.kind == "reference_type")
      && (r.edgeType == "o--" || r.edgeType == "*--")
      && r.edgeLabel == Label(r.target, site)
  {
    EdgesForSpec(source, ExtractTypeIdentifiers(ftype), EdgeType(ftype), site, local, r);
    TypeIdentifiersPreOrder(ftype);
  }

  lemma FieldEdgesLocal(source: string, ftype: Node, site: Site, local: set<string>)
    ensures forall r :: r in FieldEdges(source, ftype, site, local) ==> RelOk(r, source, local)
  {
    forall r | r in FieldEdges(source, ftype, site, local)
      ensures RelOk(r, source, local)
    {
      EdgesForSpec(source, ExtractTypeIdentifiers(ftype), EdgeType(ftype), site, local, r);
    }
  }

  /** A struct field's label is present exactly when the field is named; an
      enum field's exactly when its variant is named. Splitting a label at its
      first space gives back the target type and the field (`ty f`), the
      variant and field (`ty V::f`), or the variant alone (`ty V`). */
  lemma LabelSpec(ty: string, site: Site)
    requires ' ' !in ty
    ensures site.StructField? ==> (Label(ty, site).Some? <==> site.fieldName.Some?)
    ensures site.VariantField? ==> (Label(ty, site).Some? <==> site.variantName.Some?)
    ensures Label(ty, site).Some? ==>
      var l := Label(ty, site).value;
      && IndexOf(l, ' ') == Some(|ty|)
      && l[..|ty|] == ty
      && l[|ty| + 1..] ==
        match site
        case StructField(f) => f.value
        case VariantField(v, f) => if f.Some? then v.value + "::" + f.value else v.value
  {
    if Label(ty, site).Some? {
      var l := Label(ty, site).value;
      var rest := l[|ty| + 1..];
      assert l == ty + [' '] + rest;
      IndexOfAfter(ty, ' ', rest);
    }
  }

  // ---------------------------------------------------------------------------
  // Struct and enum bodies
  // ---------------------------------------------------------------------------

  /** The names of the named `field_declaration`s among `members`, in order. */
  ghost function FieldNames(members: seq<Node>): seq<string> {
    if members == [] then []
    else
      (if members[0].kind == "field_declaration" && NameOf(members[0]).Some? then [NameOf(members[0]).value] else [])
      + FieldNames(members[1..])
  }

  /** The names of the named `enum_variant`s among `members`, in order. */
  ghost function VariantNames(members: seq<Node>): seq<string> {
    if members == [] then []
    else
      (if members[0].kind == "enum_variant" && NameOf(members[0]).Some? then [NameOf(members[0]).value] else [])
      + VariantNames(members[1..])
  }

  /** The edges one member of a body gives the class `name`: those of its
      type at `site` when it is a `field_declaration` with a type, none
      otherwise. */
  ghost function DeclEdges(name: string, m: Node, site: Site, local: set<string>): set<Relationship> {
    if m.kind != "field_declaration" then {}
    else
      match ChildByField(m, "type")
      case Some(ftype) => FieldEdges(name, ftype, site, local)
      case None => {}
  }

  /** The union of the edges of a struct body's fields, each at its own name. */
  ghost function StructEdges(name: string, members: seq<Node>, local: set<string>): set<Relationship> {
    if members == [] then {}
    else DeclEdges(name, members[0], StructField(NameOf(members[0])), local) + StructEdges(name, members[1..], local)
  }

  /** The union of the edges of a variant body's fields, each at the variant and its own name. */
  ghost function VariantEdges(name: string, vname: Option<string>, members: seq<Node>, local: set<string>): set<Relationship> {
    if members == [] then {}
    else DeclEdges(name, members[0], VariantField(vname, NameOf(members[0])), local) + VariantEdges(name, vname, members[1..], local)
  }

  /** The edges one member of an enum body gives: those of its variant body, if any. */
  ghost function VariantDeclEdges(name: string, m: Node, local: set<string>): set<Relationship> {
    if m.kind != "enum_variant" then {}
    else
      match ChildByField(m, "body")
      case Some(vbody) => VariantEdges(name, NameOf(m), vbody.children, local)
      case None => {}
  }

  /** The union of the edges of every variant of an enum body. */
  ghost function EnumEdges(name: string, members: seq<Node>, local: set<string>): set<Relationship> {
    if members == [] then {}
    else VariantDeclEdges(name, members[0], local) + EnumEdges(name, members[1..], local)
  }

  /** The edges a declaration's body gives the class `name`. */
  ghost function BodyEdges(name: string, item: Node, local: set<string>): set<Relationship> {
    match ChildByField(item, "body")
    case Some(body) =>
      if item.kind == "struct_item" then StructEdges(name, body.children, local) else EnumEdges(name, body.children, local)
    case None => {}
  }

  /** An edge comes from a struct body exactly when it comes from one of its fields. */
  lemma {:induction false} StructEdgesMember(name: string, members: seq<Node>, local: set<string>, r: Relationship)
    ensures r in StructEdges(name, members, local) <==>
      exists j :: 0 <= j < |members| && r in DeclEdges(name, members[j], StructField(NameOf(members[j])), local)
  {
    if members != [] {
      StructEdgesMember(name, members[1..], local, r);
      if exists j :: 0 <= j < |members| && r in DeclEdges(name, members[j], StructField(NameOf(members[j])), local) {
        var j :| 0 <= j < |members| && r in DeclEdges(name, members[j], StructField(NameOf(members[j])), local);
        if j > 0 {
          assert members[1..][j - 1] == members[j];
        }
      }
      if exists j :: 0 <= j < |members| - 1 && r in DeclEdges(name, members[1..][j], StructField(NameOf(members[1..][j])), local) {
        var j :| 0 <= j < |members| - 1 && r in DeclEdges(name, members[1..][j], StructField(NameOf(members[1..][j])), local);
        assert members[1..][j] == members[j + 1];
      }
    }
  }

  /** An edge comes from an enum body exactly when it comes from one of its variants. */
  lemma {:induction false} EnumEdgesMember(name: string, members: seq<Node>, local: set<string>, r: Relationship)
    ensures r in EnumEdges(name, members, local) <==>
      exists j :: 0 <= j < |members| && r in VariantDeclEdges(name, members[j], local)
  {
    if members != [] {
      EnumEdgesMember(name, members[1..], local, r);
      if exists j :: 0 <= j < |members| && r in VariantDeclEdges(name, members[j], local) {
        var j :| 0 <= j < |members| && r in VariantDeclEdges(name, members[j], local);
        if j > 0 {
          assert members[1..][j - 1] == members[j];
        }
      }
      if exists j :: 0 <= j < |members| - 1 && r in VariantDeclEdges(name, members[1..][j], local) {
        var j :| 0 <= j < |members| - 1 && r in VariantDeclEdges(name, members[1..][j], local);
        assert members[1..][j] == members[j + 1];
      }
    }
  }

  lemma FieldNamesCons(members: seq<Node>)
    requires members != []
    ensures FieldNames(members) == FieldNames([members[0]]) + FieldNames(members[1..])
  {
    assert [members[0]][1..] == [];
  }

  /** One struct member appends its name when it is a named field and adds
      exactly the edges of its type. */
  lemma StructMemberSpec(cls: Class, m: Node, local: set<string>)
    ensures var r := StructMember(cls, m, local);
      && Extends(cls, r, local)
      && r.fields == cls.fields + FieldNames([m])
      && r.relationships == cls.relationships + DeclEdges(cls.name, m, StructField(NameOf(m)), local)
  {
    assert [m][1..] == [];
    if m.kind == "field_declaration" {
      var fname := NameOf(m);
      var cls1 := if fname.Some? then cls.(fields := cls.fields + [fname.value]) else cls;
      match ChildByField(m, "type")
      case Some(ftype) =>
        FieldEdgesLocal(cls1.name, ftype, StructField(fname), local);
      case None =>
    }
  }

  /** Walking a struct body appends exactly the body's named fields, in
      order, and adds exactly the edges of its fields; the class's name,
      file, stereotype and doc are untouched. */
  lemma {:induction false} StructBodySpec(cls: Class, members: seq<Node>, local: set<string>)
    ensures var r := StructBody(cls, members, local);
      && Extends(cls, r, local)
      && r.fields == cls.fields + FieldNames(members)
      && r.relationships == cls.relationships + StructEdges(cls.name, members, local)
    decreases |members|
  {
    if members != [] {
      var cls1 := StructMember(cls, members[0], local);
      StructMemberSpec(cls, members[0], local);
      StructBodySpec(cls1, members[1..], local);
      FieldNamesCons(members);
      ComposeMembers(cls, cls1, StructBody(cls1, members[1..], local), local,
                     FieldNames([members[0]]), FieldNames(members[1..]),
                     DeclEdges(cls.name, members[0], StructField(NameOf(members[0])), local), StructEdges(cls.name, members[1..], local));
    }
  }

  /** Two member steps in a row extend the class by both steps' names and edges. */
  lemma ComposeMembers(cls: Class, cls1: Class, res: Class, local: set<string>,
                       n0: seq<string>, n1: seq<string>, e0: set<Relationship>, e1: set<Relationship>)
    requires Extends(cls, cls1, local) && Extends(cls1, res, local)
    requires cls1.fields == cls.fields + n0 && res.fields == cls1.fields + n1
    requires cls1.relationships == cls.relationships + e0 && res.relationships == cls1.relationships + e1
    ensures Extends(cls, res, local)
    ensures res.fields == cls.fields + (n0 + n1)
    ensures res.relationships == cls.relationships + (e0 + e1)
  {
    ExtendsTransitive(cls, cls1, res, local);
  }

  /** Walking a variant's body records no names and adds exactly the edges
      of its fields, labelled with the variant. */
  lemma {:induction false} VariantBodySpec(cls: Class, vname: Option<string>, members: seq<Node>, local: set<string>)
    ensures var r := VariantBody(cls, vname, members, local);
      && Extends(cls, r, local)
      && r.fields == cls.fields
      && r.relationships == cls.relationships + VariantEdges(cls.name, vname, members, local)
    decreases |members|
  {
    if members != [] {
      var m := members[0];
      var cls1 := VariantMember(cls, vname, m, local);
      if m.kind == "field_declaration" {
        match ChildByField(m, "type")
        case Some(ftype) =>
          FieldEdgesLocal(cls.name, ftype, VariantField(vname, NameOf(m)), local);
        case None =>
      }
      assert Extends(cls, cls1, local);
      assert cls1.relationships == cls.relationships + DeclEdges(cls.name, m, VariantField(vname, NameOf(m)), local);
      VariantBodySpec(cls1, vname, members[1..], local);
      ExtendsTransitive(cls, cls1, VariantBody(cls1, vname, members[1..], local), local);
    }
  }

  lemma VariantNamesCons(members: seq<Node>)
    requires members != []
    ensures VariantNames(members) == VariantNames([members[0]]) + VariantNames(members[1..])
  {
    assert [members[0]][1..] == [];
  }

  /** One enum member appends its name when it is a named variant and adds
      exactly the edges of the variant's fields. */
  lemma EnumMemberSpec(cls: Class, m: Node, local: set<string>)
    ensures var r := EnumMember(cls, m, local);
      && Extends(cls, r, local)
      && r.fields == cls.fields + VariantNames([m])
      && r.relationships == cls.relationships + VariantDeclEdges(cls.name, m, local)
  {
    assert [m][1..] == [];
    if m.kind == "enum_variant" {
      var vname := NameOf(m);
      var cls1 := if vname.Some? then cls.(fields := cls.fields + [vname.value]) else cls;
      match ChildByField(m, "body")
      case Some(vbody) =>
        VariantBodySpec(cls1, vname, vbody.children, local);
        ExtendsTransitive(cls, cls1, VariantBody(cls1, vname, vbody.children, local), local);
      case None =>
    }
  }

  /** Walking an enum body appends exactly the body's named variants, in
      order (never the names of their fields), and adds exactly the edges of
      every variant's fields. */
  lemma {:induction false} EnumBodySpec(cls: Class, members: seq<Node>, local: set<string>)
    ensures var r := EnumBody(cls, members, local);
      && Extends(cls, r, local)
      && r.fields == cls.fields + VariantNames(members)
      && r.relationships == cls.relationships + EnumEdges(cls.name, members, local)
    decreases |members|
  {
    if members != [] {
      var cls1 := EnumMember(cls, members[0], local);
      EnumMemberSpec(cls, members[0], local);
      EnumBodySpec(cls1, members[1..], local);
      VariantNamesCons(members);
      ComposeMembers(cls, cls1, EnumBody(cls1, members[1..], local), local,
                     VariantNames([members[0]]), VariantNames(members[1..]),
                     VariantDeclEdges(cls.name, members[0], local), EnumEdges(cls.name, members[1..], local));
    }
  }

  /** The member names a declaration contributes to its entry. */
  ghost function BodyNames(item: Node): seq<string> {
    match ChildByField(item, "body")
    case Some(body) => if item.kind == "struct_item" then FieldNames(body.children) else VariantNames(body.children)
    case None => []
  }

  lemma ExtendsKeepsOk(k: string, c: Class, c': Class, local: set<string>)
    requires ClassOk(k, c, local) && Extends(c, c', local)
    ensures ClassOk(k, c', local)
  {
  }

  /** What one struct or enum declaration does to the class map. Its name
      becomes a key and no other entry changes. An existing entry keeps its
      file, stereotype and doc and gains exactly the declaration's member
      names and edges; a new entry takes this declaration's file, stereotype
      and doc, and holds exactly its member names and edges. */
  ghost predicate ClassDeclared(classes: map<string, Class>, r: map<string, Class>, item: Node, doc: Option<string>, fm: string, local: set<string>)
    requires IsClassItem(item) && NameOf(item).Some?
  {
    var name := NameOf(item).value;
    && r.Keys == classes.Keys + {name}
    && (forall k :: k in classes && k != name ==> r[k] == classes[k])
    && (name in classes ==>
          && Extends(classes[name], r[name], local)
          && r[name].fields == classes[name].fields + BodyNames(item)
          && r[name].relationships == classes[name].relationships + BodyEdges(classes[name].name, item, local))
    && (name !in classes ==>
          r[name] == Class(name, fm, Some(Stereotype(item)), doc, BodyNames(item), [], BodyEdges(name, item, local), {}))
  }

  /** Walking a declaration's body extends the class by exactly the body's
      member names and edges. */
  lemma DeclareBodySpec(cls: Class, item: Node, local: set<string>)
    ensures var r := DeclareBody(cls, item, local);
      && Extends(cls, r, local)
      && r.fields == cls.fields + BodyNames(item)
      && r.relationships == cls.relationships + BodyEdges(cls.name, item, local)
  {
    match ChildByField(item, "body")
    case Some(body) =>
      if item.kind == "struct_item" {
        StructBodySpec(cls, body.children, local);
      } else {
        EnumBodySpec(cls, body.children, local);
      }
    case None =>
      assert cls.fields + [] == cls.fields;
  }

  /** One struct or enum declaration, as `ClassDeclared` describes; a new
      entry is well formed, and a well-formed map stays well formed. */
  lemma AddClassSpec(classes: map<string, Class>, item: Node, doc: Option<string>, fm: string, local: set<string>)
    requires IsClassItem(item) && NameOf(item).Some?
    ensures var r := AddClass(classes, item, doc, fm, local);
      && ClassDeclared(classes, r, item, doc, fm, local)
      && (NameOf(item).value !in classes ==> ClassOk(NameOf(item).value, r[NameOf(item).value], local))
      && ((forall k :: k in classes ==> ClassOk(k, classes[k], local)) ==>
            forall k :: k in r ==> ClassOk(k, r[k], local))
  {
    var name := NameOf(item).value;
    var cls := if name in classes then classes[name] else NewClass(name, fm, Stereotype(item), doc);
    DeclareBodySpec(cls, item, local);
    var r := AddClass(classes, item, doc, fm, local);
    assert r == classes[name := DeclareBody(cls, item, local)];
    if name !in classes {
      assert [] + BodyNames(item) == BodyNames(item);
      assert {} + BodyEdges(name, item, local) == BodyEdges(name, item, local);
    }
  }

  // ---------------------------------------------------------------------------
  // One visited node
  // ---------------------------------------------------------------------------

  /** `res` is `acc` with the record of the named function at `sibs[i]`
      appended under `fm`: to the test group when a test attribute precedes
      the function, to the main group otherwise, never to both. The classes
      and every other module's records are untouched. */
  ghost predicate FunctionFiled(sibs: seq<Node>, i: nat, fm: string, acc: ParsedProject, res: ParsedProject)
    requires i < |sibs| && NameOf(sibs[i]).Some?
  {
    var info := FunctionRecord(sibs, i);
    && res.classes == acc.classes
    && res.main.Keys <= acc.main.Keys + {fm} && res.tests.Keys <= acc.tests.Keys + {fm}
    && (HasTestAttribute(sibs, i) ==>
          Get(res.tests, fm) == Get(acc.tests, fm) + [info] && res.main == acc.main)
    && (!HasTestAttribute(sibs, i) ==>
          Get(res.main, fm) == Get(acc.main, fm) + [info] && res.tests == acc.tests)
    && (forall m :: m != fm ==> Get(res.tests, m) == Get(acc.tests, m) && Get(res.main, m) == Get(acc.main, m))
  }

  /** A named function is filed as `FunctionFiled` describes. */
  lemma FunctionRouting(sibs: seq<Node>, i: nat, fm: string, local: set<string>, acc: ParsedProject)
    requires i < |sibs| && sibs[i].kind == "function_item" && NameOf(sibs[i]).Some?
    ensures FunctionFiled(sibs, i, fm, acc, VisitItem(sibs, i, fm, local, acc))
  {
  }

  /** The record carries the function's name; its doc summary is the topmost
      `///` line of the run above the function, or none without such a run;
      its parameters are one rendering per renderable child of the
      parameter list, in order; its return type, when present, is non-empty
      and trimmed, and is absent without a `return_type` field. */
  lemma FunctionRecordSpec(sibs: seq<Node>, i: nat)
    requires i < |sibs| && NameOf(sibs[i]).Some?
    ensures var r := FunctionRecord(sibs, i);
      && r.name == NameOf(sibs[i]).value
      && (r.doc.None? <==> !HasDocRun(sibs, i))
      && (r.doc.Some? ==> exists l :: TopmostDoc(sibs, l, i) && r.doc.value == DocText(sibs[l]))
      && (ChildByField(sibs[i], "parameters").None? ==> r.params == [])
      && (ChildByField(sibs[i], "parameters").Some? ==>
            var cs := ChildByField(sibs[i], "parameters").value.children;
            && |r.params| == CountRenderable(cs)
            && forall j :: 0 <= j < |cs| && Renderable(cs[j]) ==>
                 CountRenderable(cs[..j]) < |r.params| && r.params[CountRenderable(cs[..j])] == RenderParameter(cs[j]).value)
      && (r.ret.Some? ==> r.ret.value != [] && IsTrimmed(r.ret.value))
      && (ChildByField(sibs[i], "return_type").None? ==> r.ret.None?)
  {
    LeadingDocCommentSpec(sibs, i);
    match ChildByField(sibs[i], "parameters")
    case Some(list) => FunctionParamsSpec(sibs[i], list);
    case None =>
  }

  /** A visited child changes the model exactly as its kind dictates: a
      struct or enum goes through `ClassDeclared` and leaves the function
      records alone, a named function is filed as `FunctionFiled`
      describes, and any other node leaves the model unchanged. */
  lemma VisitItemSpec(sibs: seq<Node>, i: nat, fm: string, local: set<string>, acc: ParsedProject)
    requires i < |sibs| && ClassItemNamed(sibs[i])
    ensures var c := sibs[i];
      var res := VisitItem(sibs, i, fm, local, acc);
      && (IsClassItem(c) ==>
            && res.main == acc.main && res.tests == acc.tests
            && ClassDeclared(acc.classes, res.classes, c, LeadingDocComment(sibs, i), fm, local))
      && (c.kind == "function_item" && NameOf(c).Some? ==> FunctionFiled(sibs, i, fm, acc, res))
      && (!IsClassItem(c) && !(c.kind == "function_item" && NameOf(c).Some?) ==> res == acc)
  {
    var c := sibs[i];
    if IsClassItem(c) {
      VisitClassItem(sibs, i, fm, local, acc);
    } else if c.kind == "function_item" && NameOf(c).Some? {
      FunctionRouting(sibs, i, fm, local, acc);
    }
  }

  /** A struct or enum leaves the function records alone and changes the
      classes as `ClassDeclared` describes, with the doc summary found above
      it. */
  lemma VisitClassItem(sibs: seq<Node>, i: nat, fm: string, local: set<string>, acc: ParsedProject)
    requires i < |sibs| && IsClassItem(sibs[i]) && NameOf(sibs[i]).Some?
    ensures var res := VisitItem(sibs, i, fm, local, acc);
      && res.main == acc.main && res.tests == acc.tests
      && ClassDeclared(acc.classes, res.classes, sibs[i], LeadingDocComment(sibs, i), fm, local)
  {
    AddClassSpec(acc.classes, sibs[i], LeadingDocComment(sibs, i), fm, local);
  }

  // ---------------------------------------------------------------------------
  // The walk: classes
  // ---------------------------------------------------------------------------

  /** The names of the structs and enums among `ds`. */
  ghost function ClassNames(ds: seq<Node>): set<string> {
    set d | d in ds && IsClassItem(d) && NameOf(d).Some? :: NameOf(d).value
  }

  lemma ClassNamesConcat(a: seq<Node>, b: seq<Node>)
    ensures ClassNames(a + b) == ClassNames(a) + ClassNames(b)
  {
    forall t | t in ClassNames(a + b)
      ensures t in ClassNames(a) + ClassNames(b)
    {
      var d :| d in a + b && IsClassItem(d) && NameOf(d).Some? && NameOf(d).value == t;
      if d in a {
        assert t in ClassNames(a);
      } else {
        assert t in ClassNames(b);
      }
    }
    forall t | t in ClassNames(a) + ClassNames(b)
      ensures t in ClassNames(a + b)
    {
      if t in ClassNames(a) {
        var d :| d in a && IsClassItem(d) && NameOf(d).Some? && NameOf(d).value == t;
        assert d in a + b;
      } else {
        var d :| d in b && IsClassItem(d) && NameOf(d).Some? && NameOf(d).value == t;
        assert d in a + b;
      }
    }
  }

  /** What walking the nodes `ds` does to the classes: entries already
      present are extended, the new keys are the names of the structs and
      enums among `ds`, and every new entry is filed under `fm`. */
  ghost predicate ClassEffect(ds: seq<Node>, fm: string, local: set<string>, acc: ParsedProject, res: ParsedProject) {
    && FirstWins(acc, res, local)
    && res.classes.Keys == acc.classes.Keys + ClassNames(ds)
    && (forall k :: k in res.classes && k !in acc.classes ==> res.classes[k].file == fm)
  }

  lemma VisitClasses(sibs: seq<Node>, i: nat, fm: string, local: set<string>, acc: ParsedProject)
    requires i < |sibs| && ClassItemNamed(sibs[i])
    ensures var res := VisitItem(sibs, i, fm, local, acc);
      && ClassEffect([sibs[i]], fm, local, acc, res)
      && (ModelOk(acc, local) ==> ModelOk(res, local))
  {
    var c := sibs[i];
    var res := VisitItem(sibs, i, fm, local, acc);
    if IsClassItem(c) {
      VisitClassItem(sibs, i, fm, local, acc);
      AddClassSpec(acc.classes, c, LeadingDocComment(sibs, i), fm, local);
      DeclaredEffect(acc, res, c, LeadingDocComment(sibs, i), fm, local);
    } else {
      if c.kind == "function_item" && NameOf(c).Some? {
        FunctionRouting(sibs, i, fm, local, acc);
      }
      assert res.classes == acc.classes;
      assert ClassNames([c]) == {};
    }
  }

  /** One declaration, as `ClassDeclared` describes, is a class effect of one node. */
  lemma DeclaredEffect(acc: ParsedProject, res: ParsedProject, item: Node, doc: Option<string>, fm: string, local: set<string>)
    requires IsClassItem(item) && NameOf(item).Some?
    requires ClassDeclared(acc.classes, res.classes, item, doc, fm, local)
    requires NameOf(item).value !in acc.classes ==> ClassOk(NameOf(item).value, res.classes[NameOf(item).value], local)
    ensures ClassEffect([item], fm, local, acc, res)
    ensures ModelOk(acc, local) ==> ModelOk(res, local)
  {
    var name := NameOf(item).value;
    assert ClassNames([item]) == {name} by {
      assert item in [item];
    }
    if ModelOk(acc, local) && name in acc.classes {
      ExtendsKeepsOk(name, acc.classes[name], res.classes[name], local);
    }
  }

  lemma ComposeClasses(c: Node, ds: seq<Node>, rest: seq<Node>, fm: string, local: set<string>,
                       acc: ParsedProject, acc1: ParsedProject, acc2: ParsedProject, res: ParsedProject)
    requires ClassEffect([c], fm, local, acc, acc1)
    requires ClassEffect(ds, fm, local, acc1, acc2)
    requires ClassEffect(rest, fm, local, acc2, res)
    ensures ClassEffect([c] + ds + rest, fm, local, acc, res)
  {
    FirstWinsTransitive(acc, acc1, acc2, local);
    FirstWinsTransitive(acc, acc2, res, local);
    ClassNamesConcat([c] + ds, rest);
    ClassNamesConcat([c], ds);
    ComposeKeys(acc.classes.Keys, acc1.classes.Keys, acc2.classes.Keys, res.classes.Keys,
                ClassNames([c]), ClassNames(ds), ClassNames(rest), ClassNames([c] + ds + rest));
    ComposeFiles(fm, local, acc, acc1, acc2, res);
  }

  lemma ComposeKeys(a: set<string>, b: set<string>, c: set<string>, d: set<string>,
                    x: set<string>, y: set<string>, z: set<string>, all: set<string>)
    requires b == a + x && c == b + y && d == c + z && all == x + y + z
    ensures d == a + all
  {
  }

  lemma ComposeFiles(fm: string, local: set<string>, acc: ParsedProject, acc1: ParsedProject, acc2: ParsedProject, res: ParsedProject)
    requires FirstWins(acc, acc1, local) && FirstWins(acc1, acc2, local)
    requires forall k :: k in acc1.classes && k !in acc.classes ==> acc1.classes[k].file == fm
    requires forall k :: k in acc2.classes && k !in acc1.classes ==> acc2.classes[k].file == fm
    requires forall k :: k in res.classes && k !in acc2.classes ==> res.classes[k].file == fm
    requires FirstWins(acc2, res, local)
    ensures forall k :: k in res.classes && k !in acc.classes ==> res.classes[k].file == fm
  {
    forall k | k in res.classes && k !in acc.classes
      ensures res.classes[k].file == fm
    {
      if k in acc2.classes {
        assert res.classes[k].file == acc2.classes[k].file;
        if k in acc1.classes {
          assert acc2.classes[k].file == acc1.classes[k].file;
        }
      }
    }
  }

  lemma {:induction false} WalkClasses(n: Node, i: nat, fm: string, local: set<string>, acc: ParsedProject)
    requires i <= |n.children| && NamedFrom(n, i)
    ensures ClassEffect(DescendantsFrom(n, i), fm, local, acc, Walk(n, i, fm, local, acc))
    decreases n, |n.children| - i
  {
    if i == |n.children| {
      assert ClassNames([]) == {};
    } else {
      var c := n.children[i];
      var acc1 := VisitItem(n.children, i, fm, local, acc);
      var acc2 := Walk(c, 0, fm, local, acc1);
      VisitClasses(n.children, i, fm, local, acc);
      WalkClasses(c, 0, fm, local, acc1);
      WalkClasses(n, i + 1, fm, local, acc2);
      ComposeClasses(c, DescendantsFrom(c, 0), DescendantsFrom(n, i + 1), fm, local, acc, acc1, acc2, Walk(n, i + 1, fm, local, acc2));
    }
  }

  lemma {:induction false} WalkOk(n: Node, i: nat, fm: string, local: set<string>, acc: ParsedProject)
    requires i <= |n.children| && NamedFrom(n, i) && ModelOk(acc, local)
    ensures ModelOk(Walk(n, i, fm, local, acc), local)
    decreases n, |n.children| - i
  {
    if i < |n.children| {
      var c := n.children[i];
      var acc1 := VisitItem(n.children, i, fm, local, acc);
      VisitClasses(n.children, i, fm, local, acc);
      WalkOk(c, 0, fm, local, acc1);
      WalkOk(n, i + 1, fm, local, Walk(c, 0, fm, local, acc1));
    }
  }

  // ---------------------------------------------------------------------------
  // The walk: the first declaration of a name
  // ---------------------------------------------------------------------------

  /** The node at `p` is a struct or enum named `k`. */
  ghost predicate Declares(p: Pos, k: string) {
    p.at < |p.sibs| && IsClassItem(p.sibs[p.at]) && NameOf(p.sibs[p.at]) == Some(k)
  }

  /** The first of `ps` that declares a struct or enum named `k`. */
  ghost function FirstDecl(ps: seq<Pos>, k: string): (r: Option<Pos>)
    ensures r.Some? ==> Declares(r.value, k)
  {
    if ps == [] then None else if Declares(ps[0], k) then Some(ps[0]) else FirstDecl(ps[1..], k)
  }

  lemma {:induction false} FirstDeclConcat(a: seq<Pos>, b: seq<Pos>, k: string)
    ensures FirstDecl(a + b, k) == if FirstDecl(a, k).Some? then FirstDecl(a, k) else FirstDecl(b, k)
  {
    if a == [] {
      assert a + b == b;
    } else {
      assert (a + b)[1..] == a[1..] + b;
      FirstDeclConcat(a[1..], b, k);
    }
  }

  /** Entry `c` carries the file `fm` and the stereotype and doc summary of
      the declaration at `p`. */
  ghost predicate MetadataFrom(c: Class, p: Pos, fm: string) {
    && p.at < |p.sibs|
    && c.file == fm
    && c.stereotype == Some(Stereotype(p.sibs[p.at]))
    && c.doc == LeadingDocComment(p.sibs, p.at)
  }

  /** Walking the positions `ps` from `acc` to `res`: every name declared at
      one of them is a key of `res`, and every new entry carries the file
      `fm` and the stereotype and doc of the first of them that declares
      its name. */
  ghost predicate FirstDeclWins(ps: seq<Pos>, fm: string, acc: ParsedProject, res: ParsedProject) {
    && (forall k :: FirstDecl(ps, k).Some? ==> k in res.classes)
    && (forall k :: k in res.classes && k !in acc.classes ==>
          FirstDecl(ps, k).Some? && MetadataFrom(res.classes[k], FirstDecl(ps, k).value, fm))
  }

  lemma VisitFirstDecl(sibs: seq<Node>, i: nat, fm: string, local: set<string>, acc: ParsedProject)
    requires i < |sibs| && ClassItemNamed(sibs[i])
    ensures FirstDeclWins([Pos(sibs, i)], fm, acc, VisitItem(sibs, i, fm, local, acc))
  {
    var p := Pos(sibs, i);
    forall k
      ensures FirstDecl([p], k) == if Declares(p, k) then Some(p) else None
    {
      assert [p][1..] == [];
    }
    if IsClassItem(sibs[i]) {
      VisitClassItem(sibs, i, fm, local, acc);
    }
  }

  lemma ComposeFirstDeclKeys(x: seq<Pos>, a: seq<Pos>, b: seq<Pos>, fm: string, local: set<string>,
                             acc: ParsedProject, acc1: ParsedProject, acc2: ParsedProject, res: ParsedProject)
    requires FirstDeclWins(x, fm, acc, acc1) && FirstDeclWins(a, fm, acc1, acc2) && FirstDeclWins(b, fm, acc2, res)
    requires FirstWins(acc1, acc2, local) && FirstWins(acc2, res, local)
    ensures forall k :: FirstDecl(x + a + b, k).Some? ==> k in res.classes
  {
    forall k | FirstDecl(x + a + b, k).Some?
      ensures k in res.classes
    {
      FirstDeclConcat(x + a, b, k);
      FirstDeclConcat(x, a, k);
    }
  }

  lemma ComposeFirstDeclEntries(x: seq<Pos>, a: seq<Pos>, b: seq<Pos>, fm: string, local: set<string>,
                                acc: ParsedProject, acc1: ParsedProject, acc2: ParsedProject, res: ParsedProject)
    requires FirstDeclWins(x, fm, acc, acc1) && FirstDeclWins(a, fm, acc1, acc2) && FirstDeclWins(b, fm, acc2, res)
    requires FirstWins(acc1, acc2, local) && FirstWins(acc2, res, local)
    ensures forall k :: k in res.classes && k !in acc.classes ==>
      FirstDecl(x + a + b, k).Some? && MetadataFrom(res.classes[k], FirstDecl(x + a + b, k).value, fm)
  {
    forall k | k in res.classes && k !in acc.classes
      ensures FirstDecl(x + a + b, k).Some? && MetadataFrom(res.classes[k], FirstDecl(x + a + b, k).value, fm)
    {
      FirstDeclConcat(x + a, b, k);
      FirstDeclConcat(x, a, k);
      if k in acc1.classes {
        assert Extends(acc1.classes[k], acc2.classes[k], local);
        assert Extends(acc2.classes[k], res.classes[k], local);
      } else if k in acc2.classes {
        assert FirstDecl(x, k).None?;
        assert Extends(acc2.classes[k], res.classes[k], local);
      } else {
        assert FirstDecl(x, k).None?;
        assert FirstDecl(a, k).None?;
      }
    }
  }

  lemma {:induction false} WalkFirstDecl(n: Node, i: nat, fm: string, local: set<string>, acc: ParsedProject)
    requires i <= |n.children| && NamedFrom(n, i)
    ensures FirstDeclWins(PositionsFrom(n, i), fm, acc, Walk(n, i, fm, local, acc))
    decreases n, |n.children| - i
  {
    if i < |n.children| {
      var c := n.children[i];
      var acc1 := VisitItem(n.children, i, fm, local, acc);
      var acc2 := Walk(c, 0, fm, local, acc1);
      var res := Walk(n, i + 1, fm, local, acc2);
      VisitFirstDecl(n.children, i, fm, local, acc);
      WalkFirstDecl(c, 0, fm, local, acc1);
      WalkFirstDecl(n, i + 1, fm, local, acc2);
      WalkClasses(c, 0, fm, local, acc1);
      WalkClasses(n, i + 1, fm, local, acc2);
      var x, a, b := [Pos(n.children, i)], PositionsFrom(c, 0), PositionsFrom(n, i + 1);
      ComposeFirstDeclKeys(x, a, b, fm, local, acc, acc1, acc2, res);
      ComposeFirstDeclEntries(x, a, b, fm, local, acc, acc1, acc2, res);
    }
  }

  // ---------------------------------------------------------------------------
  // The walk: class contents
  // ---------------------------------------------------------------------------

  /** The member names of entry `k`; none when there is no such entry. */
  function FieldsOf(classes: map<string, Class>, k: string): seq<string> {
    if k in classes then classes[k].fields else []
  }

  /** The edges of entry `k`; none when there is no such entry. */
  function EdgesOf(classes: map<string, Class>, k: string): set<Relationship> {
    if k in classes then classes[k].relationships else {}
  }

  /** The name the edges of entry `k` start from: the entry's own name, or
      `k` for an entry not made yet. */
  function SourceOf(classes: map<string, Class>, k: string): string {
    if k in classes then classes[k].name else k
  }

  /** The member names the declaration at `p` adds to `k`. */
  ghost function NamesAt(p: Pos, k: string): seq<string> {
    if Declares(p, k) then BodyNames(p.sibs[p.at]) else []
  }

  /** The edges from `src` the declaration at `p` adds to `k`. */
  ghost function EdgesAt(p: Pos, k: string, src: string, local: set<string>): set<Relationship> {
    if Declares(p, k) then BodyEdges(src, p.sibs[p.at], local) else {}
  }

  /** The member names of every declaration of `k` among `ps`, in order. */
  ghost function DeclaredNames(ps: seq<Pos>, k: string): seq<string> {
    if ps == [] then [] else NamesAt(ps[0], k) + DeclaredNames(ps[1..], k)
  }

  /** The edges from `src` of every declaration of `k` among `ps`. */
  ghost function DeclaredEdges(ps: seq<Pos>, k: string, src: string, local: set<string>): set<Relationship> {
    if ps == [] then {} else EdgesAt(ps[0], k, src, local) + DeclaredEdges(ps[1..], k, src, local)
  }

  lemma {:induction false} DeclaredNamesConcat(a: seq<Pos>, b: seq<Pos>, k: string)
    ensures DeclaredNames(a + b, k) == DeclaredNames(a, k) + DeclaredNames(b, k)
  {
    if a == [] {
      assert a + b == b;
    } else {
      assert (a + b)[1..] == a[1..] + b;
      DeclaredNamesConcat(a[1..], b, k);
      AppendAssoc(NamesAt(a[0], k), DeclaredNames(a[1..], k), DeclaredNames(b, k));
    }
  }

  lemma {:induction false} DeclaredEdgesConcat(a: seq<Pos>, b: seq<Pos>, k: string, src: string, local: set<string>)
    ensures DeclaredEdges(a + b, k, src, local) == DeclaredEdges(a, k, src, local) + DeclaredEdges(b, k, src, local)
  {
    if a == [] {
      assert a + b == b;
    } else {
      assert (a + b)[1..] == a[1..] + b;
      DeclaredEdgesConcat(a[1..], b, k, src, local);
    }
  }

  /** What `ContentsAdded` says of one entry. */
  ghost predicate EntryAdded(ps: seq<Pos>, local: set<string>, before: map<string, Class>, after: map<string, Class>, k: string) {
    && SourceOf(after, k) == SourceOf(before, k)
    && FieldsOf(after, k) == FieldsOf(before, k) + DeclaredNames(ps, k)
    && EdgesOf(after, k) == EdgesOf(before, k) + DeclaredEdges(ps, k, SourceOf(before, k), local)
  }

  /** Walking the positions `ps` takes the classes from `before` to `after`:
      every entry keeps the name its edges start from, its member names
      grow by exactly those of the declarations of its name among `ps`, in
      order, and its edges by exactly theirs. A name nothing declares keeps
      its entry, or its absence. */
  ghost predicate ContentsAdded(ps: seq<Pos>, local: set<string>, before: map<string, Class>, after: map<string, Class>) {
    forall k :: EntryAdded(ps, local, before, after, k)
  }

  lemma DeclaredAt(p: Pos, k: string, src: string, local: set<string>)
    ensures DeclaredNames([p], k) == NamesAt(p, k)
    ensures DeclaredEdges([p], k, src, local) == EdgesAt(p, k, src, local)
  {
    assert [p][1..] == [];
  }

  /** One declaration, as `ClassDeclared` describes, adds exactly its body to
      the entry of its name. */
  lemma DeclaredContents(classes: map<string, Class>, r: map<string, Class>, p: Pos, doc: Option<string>, fm: string, local: set<string>)
    requires p.at < |p.sibs| && IsClassItem(p.sibs[p.at]) && NameOf(p.sibs[p.at]).Some?
    requires ClassDeclared(classes, r, p.sibs[p.at], doc, fm, local)
    ensures ContentsAdded([p], local, classes, r)
  {
    var name := NameOf(p.sibs[p.at]).value;
    forall k
      ensures EntryAdded([p], local, classes, r, k)
    {
      DeclaredAt(p, k, SourceOf(classes, k), local);
      if k == name {
        DeclaredOwnEntry(classes, r, p, doc, fm, local);
      } else {
        DeclaredOtherEntry(classes, r, p, doc, fm, local, k);
      }
    }
  }

  /** The declared name's entry gains exactly the body. */
  lemma DeclaredOwnEntry(classes: map<string, Class>, r: map<string, Class>, p: Pos, doc: Option<string>, fm: string, local: set<string>)
    requires p.at < |p.sibs| && IsClassItem(p.sibs[p.at]) && NameOf(p.sibs[p.at]).Some?
    requires ClassDeclared(classes, r, p.sibs[p.at], doc, fm, local)
    ensures var name := NameOf(p.sibs[p.at]).value;
      && SourceOf(r, name) == SourceOf(classes, name)
      && FieldsOf(r, name) == FieldsOf(classes, name) + NamesAt(p, name)
      && EdgesOf(r, name) == EdgesOf(classes, name) + EdgesAt(p, name, SourceOf(classes, name), local)
  {
    var name := NameOf(p.sibs[p.at]).value;
    assert Declares(p, name);
    if name in classes {
      assert Extends(classes[name], r[name], local);
    }
  }

  /** Every other entry is left as it was. */
  lemma DeclaredOtherEntry(classes: map<string, Class>, r: map<string, Class>, p: Pos, doc: Option<string>, fm: string, local: set<string>, k: string)
    requires p.at < |p.sibs| && IsClassItem(p.sibs[p.at]) && NameOf(p.sibs[p.at]).Some?
    requires ClassDeclared(classes, r, p.sibs[p.at], doc, fm, local)
    requires k != NameOf(p.sibs[p.at]).value
    ensures && SourceOf(r, k) == SourceOf(classes, k)
            && FieldsOf(r, k) == FieldsOf(classes, k) + NamesAt(p, k)
            && EdgesOf(r, k) == EdgesOf(classes, k) + EdgesAt(p, k, SourceOf(classes, k), local)
  {
    assert !Declares(p, k);
    assert k in r <==> k in classes;
    assert FieldsOf(classes, k) + [] == FieldsOf(classes, k);
  }

  lemma VisitContents(sibs: seq<Node>, i: nat, fm: string, local: set<string>, acc: ParsedProject)
    requires i < |sibs| && ClassItemNamed(sibs[i])
    ensures ContentsAdded([Pos(sibs, i)], local, acc.classes, VisitItem(sibs, i, fm, local, acc).classes)
  {
    var p := Pos(sibs, i);
    var res := VisitItem(sibs, i, fm, local, acc);
    if IsClassItem(sibs[i]) {
      VisitClassItem(sibs, i, fm, local, acc);
      DeclaredContents(acc.classes, res.classes, p, LeadingDocComment(sibs, i), fm, local);
    } else {
      if sibs[i].kind == "function_item" && NameOf(sibs[i]).Some? {
        FunctionRouting(sibs, i, fm, local, acc);
      }
      assert res.classes == acc.classes;
      forall k
        ensures EntryAdded([p], local, acc.classes, res.classes, k)
      {
        DeclaredAt(p, k, SourceOf(acc.classes, k), local);
        assert FieldsOf(acc.classes, k) + [] == FieldsOf(acc.classes, k);
      }
    }
  }

  lemma ChainEntry(x: seq<Pos>, a: seq<Pos>, local: set<string>,
                   m0: map<string, Class>, m1: map<string, Class>, m2: map<string, Class>, k: string)
    requires EntryAdded(x, local, m0, m1, k) && EntryAdded(a, local, m1, m2, k)
    ensures EntryAdded(x + a, local, m0, m2, k)
  {
    DeclaredNamesConcat(x, a, k);
    DeclaredEdgesConcat(x, a, k, SourceOf(m0, k), local);
    AppendAssoc(FieldsOf(m0, k), DeclaredNames(x, k), DeclaredNames(a, k));
  }

  /** Walking `x` and then `a` is walking `x + a`. */
  lemma ChainContents(x: seq<Pos>, a: seq<Pos>, local: set<string>,
                      m0: map<string, Class>, m1: map<string, Class>, m2: map<string, Class>)
    requires ContentsAdded(x, local, m0, m1) && ContentsAdded(a, local, m1, m2)
    ensures ContentsAdded(x + a, local, m0, m2)
  {
    forall k
      ensures EntryAdded(x + a, local, m0, m2, k)
    {
      assert EntryAdded(x, local, m0, m1, k);
      assert EntryAdded(a, local, m1, m2, k);
      ChainEntry(x, a, local, m0, m1, m2, k);
    }
  }

  /** Walking from child `i` of `n` adds to each entry exactly the member
      names and edges of the declarations of its name below, in pre-order. */
  lemma {:induction false} WalkContents(n: Node, i: nat, fm: string, local: set<string>, acc: ParsedProject)
    requires i <= |n.children| && NamedFrom(n, i)
    ensures ContentsAdded(PositionsFrom(n, i), local, acc.classes, Walk(n, i, fm, local, acc).classes)
    decreases n, |n.children| - i
  {
    if i == |n.children| {
      assert PositionsFrom(n, i) == [];
      forall k
        ensures EntryAdded([], local, acc.classes, acc.classes, k)
      {
        assert FieldsOf(acc.classes, k) + [] == FieldsOf(acc.classes, k);
      }
    } else {
      var c := n.children[i];
      var acc1 := VisitItem(n.children, i, fm, local, acc);
      var acc2 := Walk(c, 0, fm, local, acc1);
      var res := Walk(n, i + 1, fm, local, acc2);
      VisitContents(n.children, i, fm, local, acc);
      WalkContents(c, 0, fm, local, acc1);
      WalkContents(n, i + 1, fm, local, acc2);
      var x, a, b := [Pos(n.children, i)], PositionsFrom(c, 0), PositionsFrom(n, i + 1);
      ChainContents(x, a, local, acc.classes, acc1.classes, acc2.classes);
      ChainContents(x + a, b, local, acc.classes, acc2.classes, res.classes);
    }
  }

  // ---------------------------------------------------------------------------
  // The walk: function records
  // ---------------------------------------------------------------------------

  /** The node at `p` is a named function. */
  ghost predicate NamedFunctionAt(p: Pos) {
    p.at < |p.sibs| && p.sibs[p.at].kind == "function_item" && NameOf(p.sibs[p.at]).Some?
  }

  /** The records of the named functions at `ps`, in order, keeping those
      with a test attribute when `test` holds and those without otherwise. */
  ghost function Records(ps: seq<Pos>, test: bool): seq<FunctionInfo> {
    if ps == [] then []
    else
      var p := ps[0];
      RecordAt(p, test)
      + Records(ps[1..], test)
  }

  /** The record one position contributes to the group `test` selects. */
  ghost function RecordAt(p: Pos, test: bool): seq<FunctionInfo> {
    if NamedFunctionAt(p) && HasTestAttribute(p.sibs, p.at) == test then [FunctionRecord(p.sibs, p.at)] else []
  }

  lemma {:induction false} RecordsConcat(a: seq<Pos>, b: seq<Pos>, test: bool)
    ensures Records(a + b, test) == Records(a, test) + Records(b, test)
  {
    if a == [] {
      assert a + b == b;
    } else {
      assert (a + b)[1..] == a[1..] + b;
      RecordsConcat(a[1..], b, test);
    }
  }

  /** Walking the positions `ps` under module `fm`: the test group of `fm`
      gains exactly the records of the test functions among `ps`, in order,
      its main group exactly those of the other named functions, and no
      other module's records change. */
  ghost predicate FunctionsAdded(acc: ParsedProject, res: ParsedProject, fm: string, ps: seq<Pos>) {
    && res.main.Keys <= acc.main.Keys + {fm}
    && res.tests.Keys <= acc.tests.Keys + {fm}
    && (forall m :: m != fm ==> Get(res.main, m) == Get(acc.main, m) && Get(res.tests, m) == Get(acc.tests, m))
    && Get(res.tests, fm) == Get(acc.tests, fm) + Records(ps, true)
    && Get(res.main, fm) == Get(acc.main, fm) + Records(ps, false)
  }

  lemma FunctionsAddedTransitive(a: ParsedProject, b: ParsedProject, c: ParsedProject, fm: string, x: seq<Pos>, y: seq<Pos>)
    requires FunctionsAdded(a, b, fm, x) && FunctionsAdded(b, c, fm, y)
    ensures FunctionsAdded(a, c, fm, x + y)
  {
    RecordsConcat(x, y, true);
    RecordsConcat(x, y, false);
    AppendAssoc(Get(a.tests, fm), Records(x, true), Records(y, true));
    AppendAssoc(Get(a.main, fm), Records(x, false), Records(y, false));
  }

  lemma VisitFunctions(sibs: seq<Node>, i: nat, fm: string, local: set<string>, acc: ParsedProject)
    requires i < |sibs| && ClassItemNamed(sibs[i])
    ensures FunctionsAdded(acc, VisitItem(sibs, i, fm, local, acc), fm, [Pos(sibs, i)])
  {
    var c := sibs[i];
    var res := VisitItem(sibs, i, fm, local, acc);
    if c.kind == "function_item" && NameOf(c).Some? {
      FunctionRouting(sibs, i, fm, local, acc);
      FiledIsAdded(sibs, i, fm, acc, res);
    } else {
      NothingAdded(sibs, i, fm, local, acc);
    }
  }

  lemma FiledIsAdded(sibs: seq<Node>, i: nat, fm: string, acc: ParsedProject, res: ParsedProject)
    requires i < |sibs| && sibs[i].kind == "function_item" && NameOf(sibs[i]).Some?
    requires FunctionFiled(sibs, i, fm, acc, res)
    ensures FunctionsAdded(acc, res, fm, [Pos(sibs, i)])
  {
    var p := Pos(sibs, i);
    assert Records([p], true) == RecordAt(p, true) by { assert [p][1..] == []; }
    assert Records([p], false) == RecordAt(p, false) by { assert [p][1..] == []; }
  }

  lemma NothingAdded(sibs: seq<Node>, i: nat, fm: string, local: set<string>, acc: ParsedProject)
    requires i < |sibs| && ClassItemNamed(sibs[i])
    requires !(sibs[i].kind == "function_item" && NameOf(sibs[i]).Some?)
    ensures FunctionsAdded(acc, VisitItem(sibs, i, fm, local, acc), fm, [Pos(sibs, i)])
  {
    var p := Pos(sibs, i);
    var res := VisitItem(sibs, i, fm, local, acc);
    assert res.main == acc.main && res.tests == acc.tests;
    assert Records([p], true) == [] && Records([p], false) == [] by { assert [p][1..] == []; }
    assert Get(acc.tests, fm) + [] == Get(acc.tests, fm) && Get(acc.main, fm) + [] == Get(acc.main, fm);
  }

  lemma {:induction false} WalkFunctions(n: Node, i: nat, fm: string, local: set<string>, acc: ParsedProject)
    requires i <= |n.children| && NamedFrom(n, i)
    ensures FunctionsAdded(acc, Walk(n, i, fm, local, acc), fm, PositionsFrom(n, i))
    decreases n, |n.children| - i
  {
    if i == |n.children| {
      assert Get(acc.tests, fm) + [] == Get(acc.tests, fm);
      assert Get(acc.main, fm) + [] == Get(acc.main, fm);
    } else {
      var c := n.children[i];
      var acc1 := VisitItem(n.children, i, fm, local, acc);
      var acc2 := Walk(c, 0, fm, local, acc1);
      var res := Walk(n, i + 1, fm, local, acc2);
      var x, a, b := [Pos(n.children, i)], PositionsFrom(c, 0), PositionsFrom(n, i + 1);
      VisitFunctions(n.children, i, fm, local, acc);
      WalkFunctions(c, 0, fm, local, acc1);
      WalkFunctions(n, i + 1, fm, local, acc2);
      FunctionsAddedTransitive(acc, acc1, acc2, fm, x, a);
      FunctionsAddedTransitive(acc, acc2, res, fm, x + a, b);
    }
  }

  // ---------------------------------------------------------------------------
  // A whole file
  // ---------------------------------------------------------------------------

  /** `extract_items` over a whole file. Entries already present keep their
      file, stereotype and doc and only gain fields and edges; the new keys
      are exactly the names of the structs and enums anywhere in the tree,
      and every new entry is filed under this module with the stereotype
      and doc of the first declaration of its name in pre-order; every edge
      starts at its own class and ends at a local type. Each entry gains
      exactly the member names of the declarations of its name in the tree,
      in pre-order, and exactly their edges. Under this module
      the test group gains the records of the test functions anywhere in the
      tree (impl methods included), in pre-order, and the main group those
      of the other named functions; no other module changes. */
  lemma ExtractItemsSpec(root: Node, fm: string, local: set<string>, acc: ParsedProject)
    requires WellNamed(root)
    ensures var res := ExtractItems(root, fm, local, acc);
      && FirstWins(acc, res, local)
      && res.classes.Keys == acc.classes.Keys + ClassNames(Descendants(root))
      && FirstDeclWins(Positions(root), fm, acc, res)
      && (ModelOk(acc, local) ==> ModelOk(res, local))
      && FunctionsAdded(acc, res, fm, Positions(root))
      && ContentsAdded(Positions(root), local, acc.classes, res.classes)
  {
    ExtractItemsClasses(root, fm, local, acc);
    WalkFunctions(root, 0, fm, local, acc);
    WalkContents(root, 0, fm, local, acc);
    if ModelOk(acc, local) {
      WalkOk(root, 0, fm, local, acc);
    }
  }

  /** The class half of `ExtractItemsSpec`. */
  lemma ExtractItemsClasses(root: Node, fm: string, local: set<string>, acc: ParsedProject)
    requires WellNamed(root)
    ensures var res := ExtractItems(root, fm, local, acc);
      && FirstWins(acc, res, local)
      && res.classes.Keys == acc.classes.Keys + ClassNames(Descendants(root))
      && FirstDeclWins(Positions(root), fm, acc, res)
  {
    WalkClasses(root, 0, fm, local, acc);
    WalkFirstDecl(root, 0, fm, local, acc);
  }

  /** Every entry the walk creates is a name the first pass collected from
      the same tree. */
  lemma ExtractedClassesAreCollected(root: Node, fm: string, local: set<string>, acc: ParsedProject)
    requires WellNamed(root)
    ensures ExtractItems(root, fm, local, acc).classes.Keys <= acc.classes.Keys + CollectTypeNames(root)
  {
    ExtractItemsSpec(root, fm, local, acc);
    forall t | t in ClassNames(Descendants(root))
      ensures t in CollectTypeNames(root)
    {
      var d :| d in Descendants(root) && IsClassItem(d) && NameOf(d).Some? && NameOf(d).value == t;
      assert IsTypeDecl(d);
      CollectTypeNamesSpec(root, t);
    }
  }

  // ---------------------------------------------------------------------------
  // Worked examples
  // ---------------------------------------------------------------------------

  function VecOfB(): Node {
    Node("generic_type", "Vec<B>", Some("type"),
      [Node("type_identifier", "Vec", Some("type"), []),
       Node("type_arguments", "<B>", Some("type_arguments"), [Node("type_identifier", "B", None, [])])])
  }

  lemma VecOfBIdentifiers()
    ensures ExtractTypeIdentifiers(VecOfB()) == ["Vec", "B"]
  {
    var gty := VecOfB();
    var args := gty.children[1];
    assert IdentsFrom(args.children[0], 0) == [] && IdentsFrom(gty.children[0], 0) == [];
    assert IdentsFrom(args, 1) == [];
    assert IdentsFrom(args, 0) == ["B"] + [] + [];
    assert IdentsFrom(gty, 2) == [];
    assert IdentsFrom(gty, 1) == [] + ["B"] + [];
    assert IdentsFrom(gty, 0) == ["Vec"] + [] + ["B"];
  }

  lemma VecOfBEdges()
    ensures FieldEdges("A", VecOfB(), StructField(Some("v")), {"A", "B"}) == {Relationship("A", "B", "*--", Some("B v"))}
  {
    VecOfBIdentifiers();
    assert "B" + " " + "v" == "B v";
    assert Label("B", StructField(Some("v"))) == Some("B v");
    assert ["B"][1..] == [];
    assert ["Vec", "B"][1..] == ["B"];
  }

  /** `struct A { b: B, v: Vec<B> }` with `A` and `B` local: both field names
      are recorded, but only the generic field yields an edge. The bare
      field's type node is itself the `type_identifier`, and only the nodes
      below a type node are inspected. */
  lemma BareFieldHasNoEdge()
    ensures
      var bare := Node("field_declaration", "b: B", None,
        [Node("field_identifier", "b", Some("name"), []), Node("type_identifier", "B", Some("type"), [])]);
      var vec := Node("field_declaration", "v: Vec<B>", None, [Node("field_identifier", "v", Some("name"), []), VecOfB()]);
      StructBody(NewClass("A", "m", "struct", None), [bare, vec], {"A", "B"})
        == Class("A", "m", Some("struct"), None, ["b", "v"], [], {Relationship("A", "B", "*--", Some("B v"))}, {})
  {
    var bty := Node("type_identifier", "B", Some("type"), []);
    var bare := Node("field_declaration", "b: B", None, [Node("field_identifier", "b", Some("name"), []), bty]);
    var vec := Node("field_declaration", "v: Vec<B>", None, [Node("field_identifier", "v", Some("name"), []), VecOfB()]);
    var local: set<string> := {"A", "B"};
    var c0 := NewClass("A", "m", "struct", None);
    assert ChildByField(bare, "type") == Some(bty);
    var c1 := StructMember(c0, bare, local);
    assert c1 == c0.(fields := ["b"]);
    assert ChildByField(vec, "type") == Some(VecOfB());
    VecOfBEdges();
    var c2 := StructMember(c1, vec, local);
    assert c2 == c1.(fields := ["b", "v"], relationships := {Relationship("A", "B", "*--", Some("B v"))});
    assert StructBody(c0, [bare, vec], local) == StructBody(c1, [vec], local);
    assert StructBody(c1, [vec], local) == StructBody(c2, [], local);
  }

  /** A method inside an `impl` block is filed as a free function of its
      module, like any other named function in the tree. */
  lemma ImplMethodIsRecordedAsFunction()
    ensures
      var f := Node("function_item", "fn run() {}", None, [Node("identifier", "run", Some("name"), [])]);
      var root := Node("source_file", "", None,
        [Node("impl_item", "", None, [Node("declaration_list", "", Some("body"), [f])])]);
      WellNamed(root) &&
      Get(ExtractItems(root, "lib", {}, EmptyProject()).main, "lib") == [FunctionInfo("run", None, [], None)]
  {
  }
}

=== FILE: paths.dfy ===
/**
 The path arithmetic of the project parser: which walked entries are Rust
 sources (`rust_files` keeps an entry whose extension is `rs`), the path of a
 file relative to the source directory, and the module name a file is filed
 under (the relative path with its extension removed).

 Paths are plain strings with `/` as the only separator, as the directory
 walk produces them: the directory, then one `/` per level.
 */
module Paths {
  import opened Wrappers
  import opened Strings

  /** The position of the last `c` in `s`. */
  function LastIndexOf(s: string, c: char): (r: Option<nat>)
    ensures r.Some? ==> r.value < |s| && s[r.value] == c && c !in s[r.value + 1..]
    ensures r.None? ==> c !in s
  {
    if s == [] then None
    else if s[|s| - 1] == c then Some(|s| - 1)
    else
      var r := LastIndexOf(s[..|s| - 1], c);
      if r.Some? then
        assert s[r.value + 1..] == s[..|s| - 1][r.value + 1..] + [s[|s| - 1]];
        r
      else
        assert s == s[..|s| - 1] + [s[|s| - 1]];
        r
  }

  /** Text after `c` never moves the last `c` of what precedes it. */
  lemma {:induction false} LastIndexOfAppend(a: string, b: string, c: char)
    requires c !in b
    ensures LastIndexOf(a + b, c) == LastIndexOf(a, c)
    decreases |b|
  {
    if b != [] {
      var ab := a + b;
      assert ab[..|ab| - 1] == a + b[..|b| - 1];
      LastIndexOfAppend(a, b[..|b| - 1], c);
    } else {
      assert a + b == a;
    }
  }

  lemma SplitAround(p: string, k: nat)
    requires k < |p|
    ensures p[..k] + [p[k]] + p[k + 1..] == p
  {
  }

  /** The last component of `p`. */
  function FileName(p: string): (r: string)
    ensures '/' !in r
  {
    match LastIndexOf(p, '/')
    case Some(k) => p[k + 1..]
    case None => p
  }

  /** The file name is the end of the path. */
  lemma FileNameSuffix(p: string)
    ensures |FileName(p)| <= |p| && FileName(p) == p[|p| - |FileName(p)|..]
  {
    if LastIndexOf(p, '/').None? {
      assert p == p[0..];
    }
  }


  /** The extension of a file name: the text after its last `.`, unless that
      dot opens the name or the name is `..`. */
  function NameExtension(n: string): (r: Option<string>)
    ensures r.Some? ==> '.' !in r.value && |r.value| < |n| && n[|n| - |r.value| - 1] == '.'
    ensures r.Some? ==> r.value == n[|n| - |r.value|..]
  {
    if n == ".." then None
    else
      match LastIndexOf(n, '.')
      case Some(k) => if k == 0 then None else Some(n[k + 1..])
      case None => None
  }

  /** A suffix of a suffix of `p` is a suffix of `p`, with the same character before it. */
  lemma SuffixTransfer(p: string, n: string, e: string)
    requires |n| <= |p| && n == p[|p| - |n|..]
    requires |e| < |n| && e == n[|n| - |e|..]
    ensures p[|p| - |e| - 1] == n[|n| - |e| - 1]
    ensures e == p[|p| - |e|..]
  {
  }

  /** `Path::extension`: the extension of the path's file name. */
  function Extension(p: string): Option<string> {
    NameExtension(FileName(p))
  }

  /** An extension, when there is one, ends the path, holds no dot, and
      follows a dot. */
  lemma ExtensionSpec(p: string)
    ensures var r := Extension(p);
      r.Some? ==> '.' !in r.value && '/' !in r.value && |r.value| < |p| && p[|p| - |r.value| - 1] == '.' && r.value == p[|p| - |r.value|..]
    ensures var n := FileName(p);
      Extension(p).None? <==> n == ".." || n == [] || '.' !in n[1..]
  {
    if Extension(p).Some? {
      ExtensionPlace(p);
      NoSlashInSuffix(FileName(p), Extension(p).value);
    }
    NameExtensionNone(FileName(p));
  }

  lemma ExtensionPlace(p: string)
    requires Extension(p).Some?
    ensures var e := Extension(p).value;
      '.' !in e && |e| < |p| && p[|p| - |e| - 1] == '.' && e == p[|p| - |e|..]
  {
    FileNameSuffix(p);
    SuffixTransfer(p, FileName(p), Extension(p).value);
  }

  lemma NoSlashInSuffix(n: string, e: string)
    requires '/' !in n && |e| <= |n| && e == n[|n| - |e|..]
    ensures '/' !in e
  {
  }

  /** A name has no extension exactly when it is `..`, is empty, or has no
      dot after its first character. */
  lemma NameExtensionNone(n: string)
    ensures NameExtension(n).None? <==> n == ".." || n == [] || '.' !in n[1..]
  {
    if n != ".." && n != [] {
      match LastIndexOf(n, '.')
      case Some(k) =>
        if k == 0 {
          assert '.' !in n[1..];
        } else {
          assert n[1..][k - 1] == '.';
        }
      case None =>
    }
  }

  /** The filter of `rust_files`. */
  predicate IsRustFile(p: string) {
    Extension(p) == Some("rs")
  }

  /** `Path::with_extension("")`: the path without its extension and dot. */
  function FileModule(p: string): string {
    match Extension(p)
    case Some(e) =>
      ExtensionSpec(p);
      p[..|p| - |e| - 1]
    case None => p
  }

  /** The module name followed by a dot and the extension gives back the
      path; a path without an extension is its own module name. */
  lemma FileModuleSpec(p: string)
    ensures Extension(p).Some? ==> FileModule(p) + "." + Extension(p).value == p
    ensures Extension(p).None? ==> FileModule(p) == p
  {
    match Extension(p)
    case Some(e) =>
      ExtensionSpec(p);
      var k := |p| - |e| - 1;
      assert FileModule(p) == p[..k];
      SplitAround(p, k);
      assert [p[k]] == ".";
    case None =>
  }

  /** `file.strip_prefix(src_dir).unwrap_or(&file)`. */
  function RelPath(file: string, dir: string): (r: string)
    ensures StartsWith(file, dir + "/") ==> dir + "/" + r == file
    ensures file != dir && !StartsWith(file, dir + "/") ==> r == file
  {
    if file == dir then ""
    else
      match StripPrefix(file, dir + "/")
      case Some(rest) => rest
      case None => file
  }

  lemma FileNameNonEmpty(p: string)
    requires p != [] && p[|p| - 1] != '/'
    ensures FileName(p) != []
  {
  }

  lemma FileNameAppend(p: string, s: string)
    requires '/' !in s
    ensures FileName(p + s) == FileName(p) + s
  {
    LastIndexOfAppend(p, s, '/');
    var r := LastIndexOf(p, '/');
    if r.Some? {
      var k := r.value;
      assert FileName(p) == p[k + 1..];
      assert FileName(p + s) == (p + s)[k + 1..];
      assert (p + s)[k + 1..] == p[k + 1..] + s;
    }
  }

  /** The last dot of `n.` is its last character. */
  lemma LastDot(n: string)
    ensures LastIndexOf(n + ".", '.') == Some(|n|)
  {
    var s := n + ".";
    assert s[|s| - 1] == '.';
  }

  /** A non-empty file name followed by `.rs` has the extension `rs`. */
  lemma NameRs(n: string)
    requires n != []
    ensures NameExtension(n + ".rs") == Some("rs")
  {
    var s := n + ".rs";
    assert s == (n + ".") + "rs";
    assert '.' !in "rs";
    LastIndexOfAppend(n + ".", "rs", '.');
    LastDot(n);
    assert LastIndexOf(s, '.') == Some(|n|);
    assert |s| > 2;
    assert s[|n| + 1..] == "rs";
  }

  /** `m.rs` has the extension `rs` when its file name before `.rs` is not empty. */
  lemma RsExtension(m: string)
    requires FileName(m) != []
    ensures Extension(m + ".rs") == Some("rs")
  {
    assert '/' !in ".rs";
    FileNameAppend(m, ".rs");
    NameRs(FileName(m));
  }

  /** Equal paths with equal extensions have equal module names. */
  lemma DotSuffixCancel(a: string, b: string, e: string)
    requires a + "." + e == b + "." + e
    ensures a == b
  {
    assert a == (a + "." + e)[..|a|];
    assert b == (b + "." + e)[..|b|];
  }

  /** A file `m.rs` is a Rust source and is filed under `m`, whatever `m`'s
      directories, provided the file name before `.rs` is not empty. */
  lemma ModuleRoundTrip(m: string)
    requires FileName(m) != []
    ensures IsRustFile(m + ".rs")
    ensures FileModule(m + ".rs") == m
  {
    RsExtension(m);
    FileModuleSpec(m + ".rs");
    assert m + ".rs" == m + "." + "rs";
    DotSuffixCancel(FileModule(m + ".rs"), m, "rs");
  }

  /** Distinct Rust files are filed under distinct modules. */
  lemma ModuleInjective(p: string, q: string)
    requires IsRustFile(p) && IsRustFile(q) && FileModule(p) == FileModule(q)
    ensures p == q
  {
    FileModuleSpec(p);
    FileModuleSpec(q);
  }

  /** The file `dir/m.rs` found below the source directory `dir` is filed
      under `m`. */
  lemma WalkedFileModule(dir: string, m: string)
    requires m != [] && m[|m| - 1] != '/'
    ensures IsRustFile(dir + "/" + m + ".rs")
    ensures FileModule(RelPath(dir + "/" + m + ".rs", dir)) == m
  {
    var file := dir + "/" + m + ".rs";
    assert file == (dir + "/") + (m + ".rs");
    assert StartsWith(file, dir + "/");
    assert file != dir;
    assert RelPath(file, dir) == m + ".rs";
    FileNameNonEmpty(m);
    ModuleRoundTrip(m);
    FileNameNonEmpty(dir + "/" + m);
    ModuleRoundTrip(dir + "/" + m);
  }
}

=== FILE: project.dfy ===
/**
 `parse_project`: the two passes over every Rust file below the source
 directory. The first pass collects the type universe from all files; the
 second extracts classes and functions from each file in turn, filing each
 under its module and keeping only edges to types in the universe.

 The directory walk, the file reads and the parser are outside the model:
 the walk's entries arrive as a sequence in the walk's order, each with its
 tree, or with no tree when the file cannot be read as text, which makes
 the whole parse fail.
 */
module ProjectParser {
  import opened Wrappers
  import opened Strings
  import opened SyntaxTree
  import opened TypeUniverse
  import opened ClassModel
  import opened Extract
  import opened ExtractProps
  import opened Paths

  /** One entry of the directory walk. */
  datatype Entry = Entry(path: string, tree: Option<Node>)

  /** `rust_files`: the entries with extension `rs`, in walk order. */
  function RustFiles(entries: seq<Entry>): (r: seq<Entry>)
    ensures forall e :: e in r <==> e in entries && IsRustFile(e.path)
    ensures |r| <= |entries|
  {
    if entries == [] then []
    else
      var rest := RustFiles(entries[1..]);
      assert forall e :: e in entries <==> e == entries[0] || e in entries[1..];
      if IsRustFile(entries[0].path) then [entries[0]] + rest else rest
  }

  /** Filtering two stretches of the walk is filtering each in turn. */
  lemma {:induction false} RustFilesConcat(a: seq<Entry>, b: seq<Entry>)
    ensures RustFiles(a + b) == RustFiles(a) + RustFiles(b)
  {
    if a == [] {
      assert a + b == b;
    } else {
      assert (a + b)[1..] == a[1..] + b;
      RustFilesConcat(a[1..], b);
    }
  }

  /** How many Rust files come before position `i` of the walk. */
  ghost function RustBefore(entries: seq<Entry>, i: nat): nat
    requires i <= |entries|
  {
    if i == 0 then 0
    else (if IsRustFile(entries[0].path) then 1 else 0) + RustBefore(entries[1..], i - 1)
  }

  /** The Rust file at position `i` of the walk is at position
      `RustBefore(entries, i)` of the filtered list. */
  lemma RustFilesPlaces(entries: seq<Entry>, i: nat)
    requires i < |entries| && IsRustFile(entries[i].path)
    ensures RustBefore(entries, i) < |RustFiles(entries)| && RustFiles(entries)[RustBefore(entries, i)] == entries[i]
  {
    var keep := (e: Entry) => IsRustFile(e.path);
    KeptIsRustFiles(entries);
    KeptBeforeIsRustBefore(entries, i);
    KeptPlaces(entries, keep, i);
  }

  /** An earlier Rust file gets an earlier place. */
  lemma RustBeforeOrder(entries: seq<Entry>, i: nat, j: nat)
    requires i < j <= |entries| && IsRustFile(entries[i].path)
    ensures RustBefore(entries, i) < RustBefore(entries, j)
  {
    var keep := (e: Entry) => IsRustFile(e.path);
    KeptBeforeIsRustBefore(entries, i);
    KeptBeforeIsRustBefore(entries, j);
    KeptOrder(entries, keep, i, j);
  }

  /** The filtered list is as long as the count of Rust files in the whole walk. */
  lemma {:induction false} RustFilesLength(entries: seq<Entry>)
    ensures |RustFiles(entries)| == RustBefore(entries, |entries|)
  {
    if entries != [] {
      RustFilesLength(entries[1..]);
    }
  }

  // The same facts for any filter, proved once with the filter left abstract.

  ghost function Kept(es: seq<Entry>, keep: Entry -> bool): seq<Entry> {
    if es == [] then [] else (if keep(es[0]) then [es[0]] else []) + Kept(es[1..], keep)
  }

  ghost function KeptBefore(es: seq<Entry>, keep: Entry -> bool, i: nat): nat
    requires i <= |es|
  {
    if i == 0 then 0 else (if keep(es[0]) then 1 else 0) + KeptBefore(es[1..], keep, i - 1)
  }

  lemma {:induction false} KeptIsRustFiles(entries: seq<Entry>)
    ensures RustFiles(entries) == Kept(entries, (e: Entry) => IsRustFile(e.path))
  {
    if entries != [] {
      KeptIsRustFiles(entries[1..]);
    }
  }

  lemma {:induction false} KeptBeforeIsRustBefore(entries: seq<Entry>, i: nat)
    requires i <= |entries|
    ensures RustBefore(entries, i) == KeptBefore(entries, (e: Entry) => IsRustFile(e.path), i)
  {
    if i > 0 {
      KeptBeforeIsRustBefore(entries[1..], i - 1);
    }
  }

  lemma {:induction false} KeptPlaces(es: seq<Entry>, keep: Entry -> bool, i: nat)
    requires i < |es| && keep(es[i])
    ensures KeptBefore(es, keep, i) < |Kept(es, keep)| && Kept(es, keep)[KeptBefore(es, keep, i)] == es[i]
  {
    if i > 0 {
      assert es[1..][i - 1] == es[i];
      KeptPlaces(es[1..], keep, i - 1);
    }
  }

  lemma {:induction false} KeptOrder(es: seq<Entry>, keep: Entry -> bool, i: nat, j: nat)
    requires i < j <= |es| && keep(es[i])
    ensures KeptBefore(es, keep, i) < KeptBefore(es, keep, j)
  {
    if i > 0 {
      assert es[1..][i - 1] == es[i];
      KeptOrder(es[1..], keep, i - 1, j - 1);
    }
  }

  predicate AllReadable(files: seq<Entry>) {
    forall e :: e in files ==> e.tree.Some?
  }

  /** Every struct and enum in every readable tree has a name. */
  predicate FilesWellNamed(files: seq<Entry>) {
    forall e :: e in files && e.tree.Some? ==> WellNamed(e.tree.value)
  }

  /** First pass: the union of the names collected from every file. */
  function LocalTypes(files: seq<Entry>): set<string>
    requires AllReadable(files)
  {
    if files == [] then {} else CollectTypeNames(files[0].tree.value) + LocalTypes(files[1..])
  }

  /** The module a file is filed under. */
  function ModuleOf(e: Entry, dir: string): string {
    FileModule(RelPath(e.path, dir))
  }

  /** Second pass: `extract_items` on each file in walk order, threading the model through. */
  function ExtractFiles(files: seq<Entry>, dir: string, local: set<string>, acc: ParsedProject): ParsedProject
    requires AllReadable(files) && FilesWellNamed(files)
  {
    if files == [] then acc
    else
      var e := files[0];
      ExtractFiles(files[1..], dir, local, ExtractItems(e.tree.value, ModuleOf(e, dir), local, acc))
  }

  /** `parse_project(dir)`: fails exactly when some Rust file cannot be read. */
  function ParseProject(dir: string, entries: seq<Entry>): (r: Option<ParsedProject>)
    requires FilesWellNamed(RustFiles(entries))
    ensures r.None? <==> exists e :: e in entries && IsRustFile(e.path) && e.tree.None?
  {
    var files := RustFiles(entries);
    if !AllReadable(files) then None
    else Some(ExtractFiles(files, dir, LocalTypes(files), EmptyProject()))
  }

  // ---------------------------------------------------------------------------
  // The type universe
  // ---------------------------------------------------------------------------

  /** `e`'s tree declares a struct, enum or trait named `t` somewhere. */
  ghost predicate DeclaresType(e: Entry, t: string) {
    e.tree.Some? && exists d :: d in Descendants(e.tree.value) && IsTypeDecl(d) && NameOf(d) == Some(t)
  }

  /** A name is in the universe exactly when some file declares a type of that name. */
  lemma {:induction false} LocalTypesSpec(files: seq<Entry>, t: string)
    requires AllReadable(files)
    ensures t in LocalTypes(files) <==> exists e :: e in files && DeclaresType(e, t)
  {
    if files != [] {
      LocalTypesSpec(files[1..], t);
      CollectTypeNamesSpec(files[0].tree.value, t);
      if exists e :: e in files && DeclaresType(e, t) {
        var e :| e in files && DeclaresType(e, t);
        if e != files[0] {
          assert e in files[1..];
        }
      }
    }
  }

  /** The universe does not depend on the order the walk yields files in. */
  lemma LocalTypesOrderFree(a: seq<Entry>, b: seq<Entry>)
    requires AllReadable(a) && AllReadable(b)
    requires multiset(a) == multiset(b)
    ensures LocalTypes(a) == LocalTypes(b)
  {
    forall t
      ensures t in LocalTypes(a) <==> t in LocalTypes(b)
    {
      LocalTypesSpec(a, t);
      LocalTypesSpec(b, t);
      assert forall e :: e in a <==> e in multiset(a);
      assert forall e :: e in b <==> e in multiset(b);
    }
  }

  // ---------------------------------------------------------------------------
  // The second pass
  // ---------------------------------------------------------------------------

  /** The names of the structs and enums declared in any of `files`. */
  ghost function FilesClassNames(files: seq<Entry>): set<string> {
    if files == [] then {}
    else
      (match files[0].tree case Some(root) => ClassNames(Descendants(root)) case None => {})
      + FilesClassNames(files[1..])
  }

  /** Where a declaration sits: the module of its file and its position in that file's tree. */
  datatype Origin = Origin(file: string, pos: Pos)

  /** The first declaration of a struct or enum named `k`: in the first file,
      in walk order, that declares one, the first in pre-order. */
  ghost function FirstOrigin(files: seq<Entry>, dir: string, k: string): (r: Option<Origin>)
    ensures r.Some? ==> Declares(r.value.pos, k)
  {
    if files == [] then None
    else if files[0].tree.Some? && FirstDecl(Positions(files[0].tree.value), k).Some? then
      Some(Origin(ModuleOf(files[0], dir), FirstDecl(Positions(files[0].tree.value), k).value))
    else FirstOrigin(files[1..], dir, k)
  }

  /** The records of the named functions of the files filed under `m`, in
      walk order and pre-order within a file: those with a test attribute
      when `test` holds, the others otherwise. */
  ghost function FileRecords(files: seq<Entry>, dir: string, m: string, test: bool): seq<FunctionInfo> {
    if files == [] then []
    else
      (match files[0].tree
       case Some(root) => if ModuleOf(files[0], dir) == m then Records(Positions(root), test) else []
       case None => [])
      + FileRecords(files[1..], dir, m, test)
  }

  lemma {:induction false} ExtractFilesClasses(files: seq<Entry>, dir: string, local: set<string>, acc: ParsedProject)
    requires AllReadable(files) && FilesWellNamed(files)
    ensures var res := ExtractFiles(files, dir, local, acc);
      && FirstWins(acc, res, local)
      && res.classes.Keys == acc.classes.Keys + FilesClassNames(files)
      && (forall k :: k in res.classes && k !in acc.classes ==>
            FirstOrigin(files, dir, k).Some? &&
            MetadataFrom(res.classes[k], FirstOrigin(files, dir, k).value.pos, FirstOrigin(files, dir, k).value.file))
  {
    if files != [] {
      var e := files[0];
      var root := e.tree.value;
      var acc1 := ExtractItems(root, ModuleOf(e, dir), local, acc);
      var res := ExtractFiles(files[1..], dir, local, acc1);
      ExtractItemsClasses(root, ModuleOf(e, dir), local, acc);
      ExtractFilesClasses(files[1..], dir, local, acc1);
      FirstWinsTransitive(acc, acc1, res, local);
      forall k | k in res.classes && k !in acc.classes
        ensures FirstOrigin(files, dir, k).Some? &&
          MetadataFrom(res.classes[k], FirstOrigin(files, dir, k).value.pos, FirstOrigin(files, dir, k).value.file)
      {
        OriginStep(files, dir, local, acc, acc1, res, k);
      }
    }
  }

  /** One key through one file: created there, or left to the later files. */
  lemma OriginStep(files: seq<Entry>, dir: string, local: set<string>, acc: ParsedProject, acc1: ParsedProject, res: ParsedProject, k: string)
    requires files != [] && files[0].tree.Some?
    requires FirstDeclWins(Positions(files[0].tree.value), ModuleOf(files[0], dir), acc, acc1)
    requires FirstWins(acc1, res, local)
    requires forall k :: k in res.classes && k !in acc1.classes ==>
      FirstOrigin(files[1..], dir, k).Some? &&
      MetadataFrom(res.classes[k], FirstOrigin(files[1..], dir, k).value.pos, FirstOrigin(files[1..], dir, k).value.file)
    requires k in res.classes && k !in acc.classes
    ensures FirstOrigin(files, dir, k).Some? &&
      MetadataFrom(res.classes[k], FirstOrigin(files, dir, k).value.pos, FirstOrigin(files, dir, k).value.file)
  {
    if k in acc1.classes {
      assert Extends(acc1.classes[k], res.classes[k], local);
    } else {
      assert FirstDecl(Positions(files[0].tree.value), k).None?;
    }
  }

  /** The positions of every node of every file, in walk order and then
      pre-order. */
  ghost function FilePositions(files: seq<Entry>): seq<Pos> {
    if files == [] then []
    else
      (match files[0].tree
       case Some(root) => Positions(root)
       case None => [])
      + FilePositions(files[1..])
  }

  /** Across the files, each entry gains exactly the member names of the
      declarations of its name, in walk order and then pre-order, and
      exactly their edges. */
  lemma {:induction false} ExtractFilesContents(files: seq<Entry>, dir: string, local: set<string>, acc: ParsedProject)
    requires AllReadable(files) && FilesWellNamed(files)
    ensures ContentsAdded(FilePositions(files), local, acc.classes, ExtractFiles(files, dir, local, acc).classes)
  {
    if files == [] {
      forall k
        ensures EntryAdded([], local, acc.classes, acc.classes, k)
      {
        assert FieldsOf(acc.classes, k) + [] == FieldsOf(acc.classes, k);
      }
    } else {
      var e := files[0];
      var root := e.tree.value;
      var acc1 := ExtractItems(root, ModuleOf(e, dir), local, acc);
      var res := ExtractFiles(files[1..], dir, local, acc1);
      WalkContents(root, 0, ModuleOf(e, dir), local, acc);
      ExtractFilesContents(files[1..], dir, local, acc1);
      assert FilePositions(files) == Positions(root) + FilePositions(files[1..]);
      ChainContents(Positions(root), FilePositions(files[1..]), local, acc.classes, acc1.classes, res.classes);
    }
  }

  lemma {:induction false} ExtractFilesOk(files: seq<Entry>, dir: string, local: set<string>, acc: ParsedProject)
    requires AllReadable(files) && FilesWellNamed(files) && ModelOk(acc, local)
    ensures ModelOk(ExtractFiles(files, dir, local, acc), local)
  {
    if files != [] {
      var e := files[0];
      ExtractItemsSpec(e.tree.value, ModuleOf(e, dir), local, acc);
      ExtractFilesOk(files[1..], dir, local, ExtractItems(e.tree.value, ModuleOf(e, dir), local, acc));
    }
  }

  lemma {:induction false} ExtractFilesFunctions(files: seq<Entry>, dir: string, local: set<string>, acc: ParsedProject, m: string)
    requires AllReadable(files) && FilesWellNamed(files)
    ensures var res := ExtractFiles(files, dir, local, acc);
      && Get(res.tests, m) == Get(acc.tests, m) + FileRecords(files, dir, m, true)
      && Get(res.main, m) == Get(acc.main, m) + FileRecords(files, dir, m, false)
  {
    if files == [] {
      assert Get(acc.tests, m) + [] == Get(acc.tests, m);
      assert Get(acc.main, m) + [] == Get(acc.main, m);
    } else {
      var e := files[0];
      var fm := ModuleOf(e, dir);
      var acc1 := ExtractItems(e.tree.value, fm, local, acc);
      WalkFunctions(e.tree.value, 0, fm, local, acc);
      ExtractFilesFunctions(files[1..], dir, local, acc1, m);
      var res := ExtractFiles(files[1..], dir, local, acc1);
      assert ExtractFiles(files, dir, local, acc) == res;
      FileRecordsStep(files, dir, m, true, Get(acc.tests, m), Get(acc1.tests, m), Get(res.tests, m));
      FileRecordsStep(files, dir, m, false, Get(acc.main, m), Get(acc1.main, m), Get(res.main, m));
    }
  }

  /** One file's records followed by the rest's. */
  lemma FileRecordsStep(files: seq<Entry>, dir: string, m: string, test: bool,
                        before: seq<FunctionInfo>, mid: seq<FunctionInfo>, after: seq<FunctionInfo>)
    requires files != [] && files[0].tree.Some?
    requires ModuleOf(files[0], dir) == m ==> mid == before + Records(Positions(files[0].tree.value), test)
    requires ModuleOf(files[0], dir) != m ==> mid == before
    requires after == mid + FileRecords(files[1..], dir, m, test)
    ensures after == before + FileRecords(files, dir, m, test)
  {
    var own := if ModuleOf(files[0], dir) == m then Records(Positions(files[0].tree.value), test) else [];
    var rest := FileRecords(files[1..], dir, m, test);
    assert FileRecords(files, dir, m, test) == own + rest;
    assert mid == before + own;
    assert after == before + own + rest;
    AppendAssoc(before, own, rest);
  }

  lemma {:induction false} FilesClassNamesCollected(files: seq<Entry>, dir: string, local: set<string>)
    requires AllReadable(files) && FilesWellNamed(files)
    ensures FilesClassNames(files) <= LocalTypes(files)
  {
    if files != [] {
      var root := files[0].tree.value;
      ExtractedClassesAreCollected(root, "", local, EmptyProject());
      ExtractItemsSpec(root, "", local, EmptyProject());
      FilesClassNamesCollected(files[1..], dir, local);
    }
  }

  /** What `parse_project` returns, when it succeeds. Every entry is a struct
      or enum named after its key and declared in some Rust file, so in the
      type universe; its file is the module of the first declaration of its
      name, in walk order and then pre-order, and its stereotype and doc are
      that declaration's; its member names are those of every declaration
      of its name, in walk order and then pre-order, and its edges exactly
      theirs, starting at the key and all ending at types of the universe.
      Under each module the test group holds exactly the records of the test
      functions of the files filed there, in order, and the main group
      exactly those of the other named functions. */
  lemma ParseProjectSpec(dir: string, entries: seq<Entry>)
    requires FilesWellNamed(RustFiles(entries))
    requires ParseProject(dir, entries).Some?
    ensures var files := RustFiles(entries);
      var p := ParseProject(dir, entries).value;
      && AllReadable(files)
      && ModelOk(p, LocalTypes(files))
      && p.classes.Keys == FilesClassNames(files)
      && p.classes.Keys <= LocalTypes(files)
      && (forall k :: k in p.classes ==>
            FirstOrigin(files, dir, k).Some? &&
            MetadataFrom(p.classes[k], FirstOrigin(files, dir, k).value.pos, FirstOrigin(files, dir, k).value.file))
      && (forall k :: k in p.classes ==>
            && p.classes[k].fields == DeclaredNames(FilePositions(files), k)
            && p.classes[k].relationships == DeclaredEdges(FilePositions(files), k, k, LocalTypes(files)))
      && (forall m :: Get(p.tests, m) == FileRecords(files, dir, m, true) && Get(p.main, m) == FileRecords(files, dir, m, false))
  {
    ParseProjectKeys(dir, entries);
    ParseProjectContents(dir, entries);
    ParseProjectOk(dir, entries);
    ParseProjectOrigins(dir, entries);
    ParseProjectFunctions(dir, entries);
  }

  lemma ParseProjectKeys(dir: string, entries: seq<Entry>)
    requires FilesWellNamed(RustFiles(entries))
    requires ParseProject(dir, entries).Some?
    ensures var files := RustFiles(entries);
      var p := ParseProject(dir, entries).value;
      && AllReadable(files)
      && p.classes.Keys == FilesClassNames(files)
      && p.classes.Keys <= LocalTypes(files)
  {
    var files := RustFiles(entries);
    assert AllReadable(files);
    FilesKeys(files, dir);
  }

  lemma FilesKeys(files: seq<Entry>, dir: string)
    requires AllReadable(files) && FilesWellNamed(files)
    ensures var p := ExtractFiles(files, dir, LocalTypes(files), EmptyProject());
      p.classes.Keys == FilesClassNames(files) && p.classes.Keys <= LocalTypes(files)
  {
    ExtractFilesClasses(files, dir, LocalTypes(files), EmptyProject());
    FilesClassNamesCollected(files, dir, LocalTypes(files));
  }

  lemma ParseProjectOk(dir: string, entries: seq<Entry>)
    requires FilesWellNamed(RustFiles(entries))
    requires ParseProject(dir, entries).Some?
    ensures ModelOk(ParseProject(dir, entries).value, LocalTypes(RustFiles(entries)))
  {
    var files := RustFiles(entries);
    var local := LocalTypes(files);
    var empty: ParsedProject := EmptyProject();
    assert ParseProject(dir, entries).value == ExtractFiles(files, dir, local, empty);
    ExtractFilesOk(files, dir, local, empty);
  }

  lemma ParseProjectOrigins(dir: string, entries: seq<Entry>)
    requires FilesWellNamed(RustFiles(entries))
    requires ParseProject(dir, entries).Some?
    ensures var files := RustFiles(entries);
      var p := ParseProject(dir, entries).value;
      forall k :: k in p.classes ==>
        FirstOrigin(files, dir, k).Some? &&
        MetadataFrom(p.classes[k], FirstOrigin(files, dir, k).value.pos, FirstOrigin(files, dir, k).value.file)
  {
    var files := RustFiles(entries);
    var local := LocalTypes(files);
    var empty: ParsedProject := EmptyProject();
    assert ParseProject(dir, entries).value == ExtractFiles(files, dir, local, empty);
    ExtractFilesClasses(files, dir, local, empty);
  }

  lemma ParseProjectContents(dir: string, entries: seq<Entry>)
    requires FilesWellNamed(RustFiles(entries))
    requires ParseProject(dir, entries).Some?
    ensures var files := RustFiles(entries);
      var p := ParseProject(dir, entries).value;
      forall k :: k in p.classes ==>
        && p.classes[k].fields == DeclaredNames(FilePositions(files), k)
        && p.classes[k].relationships == DeclaredEdges(FilePositions(files), k, k, LocalTypes(files))
  {
    var files := RustFiles(entries);
    assert AllReadable(files);
    FilesContents(files, dir);
  }

  lemma FilesContents(files: seq<Entry>, dir: string)
    requires AllReadable(files) && FilesWellNamed(files)
    ensures var p := ExtractFiles(files, dir, LocalTypes(files), EmptyProject());
      forall k :: k in p.classes ==>
        && p.classes[k].fields == DeclaredNames(FilePositions(files), k)
        && p.classes[k].relationships == DeclaredEdges(FilePositions(files), k, k, LocalTypes(files))
  {
    var local := LocalTypes(files);
    var empty: ParsedProject := EmptyProject();
    var p := ExtractFiles(files, dir, local, empty);
    ExtractFilesContents(files, dir, local, empty);
    forall k | k in p.classes
      ensures && p.classes[k].fields == DeclaredNames(FilePositions(files), k)
              && p.classes[k].relationships == DeclaredEdges(FilePositions(files), k, k, local)
    {
      assert EntryAdded(FilePositions(files), local, empty.classes, p.classes, k);
    }
  }

  lemma ParseProjectFunctions(dir: string, entries: seq<Entry>)
    requires FilesWellNamed(RustFiles(entries))
    requires ParseProject(dir, entries).Some?
    ensures var files := RustFiles(entries);
      var p := ParseProject(dir, entries).value;
      forall m :: Get(p.tests, m) == FileRecords(files, dir, m, true) && Get(p.main, m) == FileRecords(files, dir, m, false)
  {
    var files := RustFiles(entries);
    var local := LocalTypes(files);
    var empty: ParsedProject := EmptyProject();
    var p := ExtractFiles(files, dir, local, empty);
    assert ParseProject(dir, entries).value == p;
    forall m
      ensures Get(p.tests, m) == FileRecords(files, dir, m, true) && Get(p.main, m) == FileRecords(files, dir, m, false)
    {
      ExtractFilesFunctions(files, dir, local, empty, m);
      assert Get(empty.tests, m) == [] && Get(empty.main, m) == [];
    }
  }
}

=== FILE: rendering.dfy ===
/**
 The text the diagram builder emits for classes and edges: the class block
 and optional note of `Class::render`, one line per relationship or trait
 implementation, the per-diagram sets those lines are collected into (which
 drop duplicates), and the ascending order in which a set is written out.
 */
module Rendering {
  import opened Wrappers
  import opened Strings
  import opened ClassModel
  import opened Routing

  // ---------------------------------------------------------------------------
  // Lines
  // ---------------------------------------------------------------------------

  /** `ls` written one per line, each followed by a newline. */
  function JoinLines(ls: seq<string>): string {
    if ls == [] then "" else ls[0] + "\n" + JoinLines(ls[1..])
  }

  predicate NoNewlines(ls: seq<string>) {
    forall i :: 0 <= i < |ls| ==> '\n' !in ls[i]
  }

  /** Lines without newlines are read back exactly. */
  lemma {:induction false} SplitJoin(ls: seq<string>)
    requires NoNewlines(ls)
    ensures SplitLines(JoinLines(ls)) == ls
  {
    if ls != [] {
      SplitLinesCons(ls[0], JoinLines(ls[1..]));
      SplitJoin(ls[1..]);
    }
  }

  lemma {:induction false} JoinAppend(a: seq<string>, b: seq<string>)
    ensures JoinLines(a + b) == JoinLines(a) + JoinLines(b)
  {
    if a == [] {
      assert a + b == b;
    } else {
      assert (a + b)[1..] == a[1..] + b;
      JoinAppend(a[1..], b);
    }
  }

  // ---------------------------------------------------------------------------
  // Class blocks
  // ---------------------------------------------------------------------------

  const Indent := "            "

  /** The field lines of a class block, in order. */
  function FieldLines(fs: seq<string>): string {
    if fs == [] then "" else Indent + fs[0] + "\n" + FieldLines(fs[1..])
  }

  /** The method lines of a class block, in order. */
  function MethodLines(ms: seq<string>): string {
    if ms == [] then "" else Indent + ms[0] + "()\n" + MethodLines(ms[1..])
  }

  /** The header row of a class block. */
  function HeaderRow(c: Class): string {
    "        class `" + c.name + "` {"
  }

  /** The row naming the class's file module. */
  function FileRow(c: Class): string {
    Indent + "<<" + c.file + ">>"
  }

  /** The row closing a class block. */
  const Closing := "        }"

  /** The stereotype row, when the class has a stereotype. */
  function StereoLines(c: Class): seq<string> {
    match c.stereotype case Some(st) => [Indent + "<<" + st + ">>"] case None => []
  }

  /** The stereotype line, when the class has a stereotype. */
  function StereoText(c: Class): string {
    match c.stereotype case Some(st) => Indent + "<<" + st + ">>\n" case None => ""
  }

  /** `Class::render`: the class block, and a note exactly when the class has a doc. */
  function RenderClass(c: Class): (r: (string, Option<string>))
    ensures r.1.Some? <==> c.doc.Some?
  {
    var block := (HeaderRow(c) + "\n") + StereoText(c) + (FileRow(c) + "\n")
      + FieldLines(c.fields) + MethodLines(c.methods) + (Closing + "\n");
    var note := match c.doc case Some(d) => Some("note for `" + c.name + "` \"" + d + "\"\n") case None => None;
    (block, note)
  }

  /** One row per field, indented. */
  function FieldRows(fs: seq<string>): seq<string> {
    seq(|fs|, i requires 0 <= i < |fs| => Indent + fs[i])
  }

  /** One row per method, indented, with `()`. */
  function MethodRows(ms: seq<string>): seq<string> {
    seq(|ms|, i requires 0 <= i < |ms| => Indent + ms[i] + "()")
  }

  /** The lines of a class block, in order: the header, the stereotype when
      there is one, the file, each field, each method with `()`, and the
      closing brace. */
  ghost function ClassLines(c: Class): seq<string> {
    [HeaderRow(c)] + StereoLines(c) + [FileRow(c)] + FieldRows(c.fields) + MethodRows(c.methods) + [Closing]
  }

  /** Nothing the block shows contains a line break. */
  predicate Printable(c: Class) {
    && '\n' !in c.name
    && '\n' !in c.file
    && (c.stereotype.Some? ==> '\n' !in c.stereotype.value)
    && NoNewlines(c.fields)
    && NoNewlines(c.methods)
  }

  lemma {:induction false} FieldLinesJoin(fs: seq<string>)
    ensures FieldLines(fs) == JoinLines(FieldRows(fs))
  {
    if fs != [] {
      FieldLinesJoin(fs[1..]);
      var ls := FieldRows(fs);
      assert ls[1..] == FieldRows(fs[1..]);
      assert Indent + fs[0] + "\n" + FieldLines(fs[1..]) == ls[0] + "\n" + JoinLines(ls[1..]);
    }
  }

  lemma {:induction false} MethodLinesJoin(ms: seq<string>)
    ensures MethodLines(ms) == JoinLines(MethodRows(ms))
  {
    if ms != [] {
      MethodLinesJoin(ms[1..]);
      var ls := MethodRows(ms);
      assert ls[1..] == MethodRows(ms[1..]);
      assert Indent + ms[0] + "()\n" == ls[0] + "\n";
      assert Indent + ms[0] + "()\n" + MethodLines(ms[1..]) == ls[0] + "\n" + JoinLines(ls[1..]);
    }
  }

  lemma JoinOne(s: string)
    ensures JoinLines([s]) == s + "\n"
  {
    assert [s][1..] == [];
  }

  lemma ClassLinesJoin(c: Class)
    ensures JoinLines(ClassLines(c)) ==
      JoinLines([HeaderRow(c)]) + JoinLines(StereoLines(c)) + JoinLines([FileRow(c)])
      + JoinLines(FieldRows(c.fields)) + JoinLines(MethodRows(c.methods)) + JoinLines([Closing])
  {
    var head := [HeaderRow(c)];
    var stereo := StereoLines(c);
    var file := [FileRow(c)];
    var fields := FieldRows(c.fields);
    var methods := MethodRows(c.methods);
    var tail := [Closing];
    assert ClassLines(c) == head + stereo + file + fields + methods + tail;
    JoinAppend(head + stereo + file + fields + methods, tail);
    JoinAppend(head + stereo + file + fields, methods);
    JoinAppend(head + stereo + file, fields);
    JoinAppend(head + stereo, file);
    JoinAppend(head, stereo);
  }

  lemma StereoJoin(c: Class)
    ensures JoinLines(StereoLines(c)) == StereoText(c)
  {
    if c.stereotype.Some? {
      JoinOne(Indent + "<<" + c.stereotype.value + ">>");
    }
  }

  lemma ClassBlockJoin(c: Class)
    ensures RenderClass(c).0 == JoinLines(ClassLines(c))
  {
    ClassLinesJoin(c);
    FieldLinesJoin(c.fields);
    MethodLinesJoin(c.methods);
    JoinOne(HeaderRow(c));
    JoinOne(FileRow(c));
    JoinOne(Closing);
    StereoJoin(c);
  }

  /** The block reads back as exactly the class's lines: one header, one
      stereotype line only when there is a stereotype, one file line, one
      line per field and per method in order, and the closing brace. */
  lemma RenderClassLines(c: Class)
    requires Printable(c)
    ensures SplitLines(RenderClass(c).0) == ClassLines(c)
    ensures |SplitLines(RenderClass(c).0)| == 3 + (if c.stereotype.Some? then 1 else 0) + |c.fields| + |c.methods|
  {
    ClassBlockJoin(c);
    var ls := ClassLines(c);
    assert NoNewlines(ls) by {
      forall i | 0 <= i < |ls|
        ensures '\n' !in ls[i]
      {
        LinesOfClassHaveNoNewline(c, i);
      }
    }
    SplitJoin(ls);
  }

  lemma NoNewlineConcat(a: string, b: string)
    requires '\n' !in a && '\n' !in b
    ensures '\n' !in a + b
  {
  }

  lemma LinesOfClassHaveNoNewline(c: Class, i: int)
    requires Printable(c) && 0 <= i < |ClassLines(c)|
    ensures '\n' !in ClassLines(c)[i]
  {
    var k := if c.stereotype.Some? then 1 else 0;
    var ls := ClassLines(c);
    if i == 0 {
      NoNewlineConcat("        class `" + c.name, "` {");
    } else if i < 1 + k {
      NoNewlineConcat(Indent + "<<" + c.stereotype.value, ">>");
    } else if i == 1 + k {
      NoNewlineConcat(Indent + "<<" + c.file, ">>");
    } else if i < 2 + k + |c.fields| {
      assert ls[i] == Indent + c.fields[i - 2 - k];
    } else if i < 2 + k + |c.fields| + |c.methods| {
      var m := c.methods[i - 2 - k - |c.fields|];
      assert ls[i] == Indent + m + "()";
    }
  }

  // ---------------------------------------------------------------------------
  // Namespace blocks
  // ---------------------------------------------------------------------------

  /** The class blocks of `cs`, one after another. */
  function Blocks(cs: seq<Class>): string {
    if cs == [] then "" else RenderClass(cs[0]).0 + Blocks(cs[1..])
  }

  /** The notes of `cs`, in order, for the classes that have one. */
  function Notes(cs: seq<Class>): seq<string> {
    if cs == [] then []
    else (match RenderClass(cs[0]).1 case Some(n) => [n] case None => []) + Notes(cs[1..])
  }

  /** One namespace of a diagram: its block, and the notes it defers to the end. */
  function NamespaceBlock(m: string, cs: seq<Class>): (string, seq<string>) {
    (NamespaceOpen(m) + "\n" + Blocks(cs) + "    }\n", Notes(cs))
  }

  /** The lines of the classes of `cs`, class after class. */
  ghost function AllClassLines(cs: seq<Class>): seq<string> {
    if cs == [] then [] else ClassLines(cs[0]) + AllClassLines(cs[1..])
  }

  /** The classes of `cs` that carry a doc, in order. */
  ghost function Documented(cs: seq<Class>): seq<Class> {
    if cs == [] then [] else (if cs[0].doc.Some? then [cs[0]] else []) + Documented(cs[1..])
  }

  lemma {:induction false} BlocksJoin(cs: seq<Class>)
    ensures Blocks(cs) == JoinLines(AllClassLines(cs))
  {
    if cs != [] {
      BlocksJoin(cs[1..]);
      ClassBlockJoin(cs[0]);
      JoinAppend(ClassLines(cs[0]), AllClassLines(cs[1..]));
    }
  }

  lemma {:induction false} AllClassLinesPrintable(cs: seq<Class>)
    requires forall c :: c in cs ==> Printable(c)
    ensures NoNewlines(AllClassLines(cs))
  {
    if cs != [] {
      AllClassLinesPrintable(cs[1..]);
      var ls := ClassLines(cs[0]);
      var rest := AllClassLines(cs[1..]);
      forall i | 0 <= i < |ls + rest|
        ensures '\n' !in (ls + rest)[i]
      {
        if i < |ls| {
          LinesOfClassHaveNoNewline(cs[0], i);
        } else {
          assert (ls + rest)[i] == rest[i - |ls|];
        }
      }
    }
  }

  /** The opening line of the namespace of module `m`. */
  function NamespaceOpen(m: string): string {
    "    namespace `" + m + ".rs` {"
  }

  lemma NamespaceJoin(m: string, cs: seq<Class>)
    ensures NamespaceBlock(m, cs).0 == JoinLines([NamespaceOpen(m)] + AllClassLines(cs) + ["    }"])
  {
    var open := NamespaceOpen(m);
    var body := AllClassLines(cs);
    BlocksJoin(cs);
    JoinOne(open);
    JoinOne("    }");
    JoinAppend([open] + body, ["    }"]);
    JoinAppend([open], body);
    assert NamespaceBlock(m, cs).0 == (open + "\n") + JoinLines(body) + "    }\n";
  }

  lemma NamespaceNoNewlines(m: string, cs: seq<Class>)
    requires '\n' !in m
    requires forall c :: c in cs ==> Printable(c)
    ensures NoNewlines([NamespaceOpen(m)] + AllClassLines(cs) + ["    }"])
  {
    var body := AllClassLines(cs);
    var ls := [NamespaceOpen(m)] + body + ["    }"];
    AllClassLinesPrintable(cs);
    NoNewlineConcat("    namespace `" + m, ".rs` {");
    forall i | 0 <= i < |ls|
      ensures '\n' !in ls[i]
    {
      if 0 < i < |ls| - 1 {
        assert ls[i] == body[i - 1];
      }
    }
  }

  /** A namespace reads back as its opening line, the lines of each class
      block in the order the classes come, and the closing brace. */
  lemma NamespaceLines(m: string, cs: seq<Class>)
    requires '\n' !in m
    requires forall c :: c in cs ==> Printable(c)
    ensures SplitLines(NamespaceBlock(m, cs).0) == [NamespaceOpen(m)] + AllClassLines(cs) + ["    }"]
  {
    NamespaceJoin(m, cs);
    NamespaceNoNewlines(m, cs);
    SplitJoin([NamespaceOpen(m)] + AllClassLines(cs) + ["    }"]);
  }

  /** One note per documented class, in the order the classes come. */
  lemma {:induction false} NotesSpec(cs: seq<Class>)
    ensures |Notes(cs)| == |Documented(cs)|
    ensures forall j :: 0 <= j < |Notes(cs)| ==>
      && Documented(cs)[j].doc.Some?
      && Notes(cs)[j] == "note for `" + Documented(cs)[j].name + "` \"" + Documented(cs)[j].doc.value + "\"\n"
  {
    if cs != [] {
      NotesSpec(cs[1..]);
    }
  }

  // ---------------------------------------------------------------------------
  // Edge lines
  // ---------------------------------------------------------------------------

  /** The line of one relationship, with ` : label` only when it has a label. */
  function EdgeLine(r: Relationship): string {
    "    " + r.source + " " + r.edgeType + " " + r.target
    + (match r.edgeLabel case Some(l) => " : " + l case None => "") + "\n"
  }

  /** The line of one trait implementation. */
  function TraitLine(t: string, name: string): string {
    "    " + t + " <|.. " + name + "\n"
  }

  /** A word of a line: no space, no line break. */
  predicate Token(s: string) {
    forall i :: 0 <= i < |s| ==> s[i] != ' ' && s[i] != '\n'
  }

  predicate Delimited(x: string) {
    x != [] && (x[0] == ' ' || x[0] == '\n')
  }

  /** A word followed by a delimiter comes off the front of a line unambiguously. */
  lemma SplitToken(a: string, x: string, a': string, x': string)
    requires Token(a) && Token(a') && Delimited(x) && Delimited(x')
    requires a + x == a' + x'
    ensures a == a' && x == x'
  {
    FirstDelimToken(a, x);
    FirstDelimToken(a', x');
    assert a == (a + x)[..|a|];
    assert a' == (a' + x')[..|a'|];
    assert x == (a + x)[|a|..];
    assert x' == (a' + x')[|a'|..];
  }

  /** The position of the first space or line break of `s`, or its length. */
  function FirstDelim(s: string): nat {
    if s == [] then 0 else if s[0] == ' ' || s[0] == '\n' then 0 else 1 + FirstDelim(s[1..])
  }

  lemma {:induction false} FirstDelimToken(a: string, x: string)
    requires Token(a) && Delimited(x)
    ensures FirstDelim(a + x) == |a|
    decreases |a|
  {
    if a != [] {
      assert (a + x)[1..] == a[1..] + x;
      FirstDelimToken(a[1..], x);
    }
  }

  lemma DropPrefix(p: string, x: string, y: string)
    requires p + x == p + y
    ensures x == y
  {
    assert x == (p + x)[|p|..];
    assert y == (p + y)[|p|..];
  }

  function LabelTail(l: Option<string>): string {
    (match l case Some(s) => " : " + s case None => "") + "\n"
  }

  lemma LabelTailInjective(l: Option<string>, l': Option<string>)
    requires LabelTail(l) == LabelTail(l')
    ensures l == l'
  {
    match (l, l')
    case (Some(s), Some(s')) =>
      assert |s| == |s'|;
      assert s == LabelTail(l)[3..3 + |s|];
      assert s' == LabelTail(l')[3..3 + |s'|];
    case _ =>
  }

  lemma EdgeLineShape(r: Relationship)
    ensures EdgeLine(r) == "    " + (r.source + (" " + (r.edgeType + (" " + (r.target + LabelTail(r.edgeLabel))))))
  {
  }

  /** Two relationships whose names and edge kind are words share a line
      only when they are the same relationship, so collecting lines into a
      set merges exactly the identical relationships. */
  lemma EdgeLineInjective(r: Relationship, r': Relationship)
    requires Token(r.source) && Token(r.edgeType) && Token(r.target)
    requires Token(r'.source) && Token(r'.edgeType) && Token(r'.target)
    requires EdgeLine(r) == EdgeLine(r')
    ensures r == r'
  {
    EdgeLineShape(r);
    EdgeLineShape(r');
    var t1 := r.target + LabelTail(r.edgeLabel);
    var t1' := r'.target + LabelTail(r'.edgeLabel);
    var e1 := r.edgeType + (" " + t1);
    var e1' := r'.edgeType + (" " + t1');
    DropPrefix("    ", r.source + (" " + e1), r'.source + (" " + e1'));
    SplitToken(r.source, " " + e1, r'.source, " " + e1');
    DropPrefix(" ", e1, e1');
    SplitToken(r.edgeType, " " + t1, r'.edgeType, " " + t1');
    DropPrefix(" ", t1, t1');
    assert Delimited(LabelTail(r.edgeLabel));
    assert Delimited(LabelTail(r'.edgeLabel));
    SplitToken(r.target, LabelTail(r.edgeLabel), r'.target, LabelTail(r'.edgeLabel));
    LabelTailInjective(r.edgeLabel, r'.edgeLabel);
  }

  // ---------------------------------------------------------------------------
  // Edge sets
  // ---------------------------------------------------------------------------

  /** The lines one class contributes to its diagram's edge set. */
  function ClassEdgeLines(c: Class): set<string> {
    (set r | r in c.relationships :: EdgeLine(r)) + (set t | t in c.traitImpls :: TraitLine(t, c.name))
  }

  /** The edge loop over `cs`: a class's lines join the test set when its file
      is a test module, and the main set otherwise. */
  function CollectEdges(cs: seq<Class>, main: set<string>, test: set<string>): (set<string>, set<string>)
    decreases |cs|
  {
    if cs == [] then (main, test)
    else if IsTestFile(cs[0].file) then CollectEdges(cs[1..], main, test + ClassEdgeLines(cs[0]))
    else CollectEdges(cs[1..], main + ClassEdgeLines(cs[0]), test)
  }

  /** The main and test edge sets of the classes enumerated by `cs`. */
  function EdgeSets(cs: seq<Class>): (set<string>, set<string>) {
    CollectEdges(cs, {}, {})
  }

  lemma {:induction false} CollectEdgesSpec(cs: seq<Class>, main: set<string>, test: set<string>, line: string)
    ensures line in CollectEdges(cs, main, test).0 <==>
      line in main || exists c :: c in cs && !IsTestFile(c.file) && line in ClassEdgeLines(c)
    ensures line in CollectEdges(cs, main, test).1 <==>
      line in test || exists c :: c in cs && IsTestFile(c.file) && line in ClassEdgeLines(c)
    decreases |cs|
  {
    if cs != [] {
      var c0 := cs[0];
      if IsTestFile(c0.file) {
        CollectEdgesSpec(cs[1..], main, test + ClassEdgeLines(c0), line);
      } else {
        CollectEdgesSpec(cs[1..], main + ClassEdgeLines(c0), test, line);
      }
      assert forall c :: c in cs <==> c == c0 || c in cs[1..];
    }
  }

  /** A line is in a diagram's edge set exactly when some class of that
      diagram contributes it; duplicates across classes collapse. */
  lemma EdgeSetsSpec(cs: seq<Class>, line: string)
    ensures line in EdgeSets(cs).0 <==> exists c :: c in cs && !IsTestFile(c.file) && line in ClassEdgeLines(c)
    ensures line in EdgeSets(cs).1 <==> exists c :: c in cs && IsTestFile(c.file) && line in ClassEdgeLines(c)
  {
    CollectEdgesSpec(cs, {}, {}, line);
  }

  /** The edge sets do not depend on the order the classes are enumerated in. */
  lemma EdgeSetsOrderFree(a: seq<Class>, b: seq<Class>)
    requires multiset(a) == multiset(b)
    ensures EdgeSets(a) == EdgeSets(b)
  {
    forall line
      ensures line in EdgeSets(a).0 <==> line in EdgeSets(b).0
      ensures line in EdgeSets(a).1 <==> line in EdgeSets(b).1
    {
      EdgeSetsSpec(a, line);
      EdgeSetsSpec(b, line);
      assert forall c :: c in a <==> c in multiset(a);
      assert forall c :: c in b <==> c in multiset(b);
    }
    assert EdgeSets(a).0 == EdgeSets(b).0;
    assert EdgeSets(a).1 == EdgeSets(b).1;
  }

  /** For classes the extractor produced, no trait line is ever emitted:
      every line of either set is the line of a relationship of one of the
      classes, whose edge kind is aggregation or composition. */
  lemma ExtractedEdgeLines(cs: seq<Class>, local: set<string>, line: string)
    requires forall c :: c in cs ==> ClassOk(c.name, c, local)
    requires line in EdgeSets(cs).0 || line in EdgeSets(cs).1
    ensures exists c, r ::
      && c in cs
      && r in c.relationships
      && line == EdgeLine(r)
      && (r.edgeType == "o--" || r.edgeType == "*--")
  {
    EdgeSetsSpec(cs, line);
    var c :| c in cs && line in ClassEdgeLines(c);
    assert c.traitImpls == {};
    var r :| r in c.relationships && line == EdgeLine(r);
    assert RelOk(r, c.name, local);
  }

  // ---------------------------------------------------------------------------
  // Writing a set out in order
  // ---------------------------------------------------------------------------

  /** The least line of a non-empty set. */
  method Least(s: set<string>) returns (m: string)
    requires s != {}
    ensures m in s
    ensures forall y :: y in s && y != m ==> LexLess(m, y)
  {
    m :| m in s;
    var rest := s - {m};
    while rest != {}
      invariant rest <= s && m in s && m !in rest
      invariant forall y :: y in s && y !in rest && y != m ==> LexLess(m, y)
      decreases |rest|
    {
      var y :| y in rest;
      if LexLess(y, m) {
        forall z | z in s && z !in rest && z != y
          ensures LexLess(y, z)
        {
          if z != m {
            LexLessTransitive(y, m, z);
          }
        }
        m := y;
      } else {
        LexLessTotal(y, m);
      }
      rest := rest - {y};
    }
  }

  /** The lines of `s` in the order a sorted set yields them: strictly
      ascending, so each line once, and every line of the set present. */
  method SortedLines(s: set<string>) returns (r: seq<string>)
    ensures forall i, j :: 0 <= i < j < |r| ==> LexLess(r[i], r[j])
    ensures forall x :: x in r <==> x in s
    ensures |r| == |s|
  {
    r := [];
    var rest := s;
    while rest != {}
      invariant rest <= s
      invariant forall x :: x in r <==> x in s && x !in rest
      invariant forall i, j :: 0 <= i < j < |r| ==> LexLess(r[i], r[j])
      invariant forall i, y :: 0 <= i < |r| && y in rest ==> LexLess(r[i], y)
      invariant |r| + |rest| == |s|
      decreases |rest|
    {
      var m := Least(rest);
      r := r + [m];
      rest := rest - {m};
    }
  }
}

=== FILE: routing.dfy ===
/**
 The diagram builder's split of classes between the two diagrams: a class
 whose file module looks like a test module (`is_test_file`) goes to the
 test diagram, every other class to the main diagram, and within each
 diagram the classes are grouped into one namespace per file module.

 The builder walks `classes.values()`, a hash map's values in an order the
 program does not fix; the walk is modelled as an arbitrary enumeration
 `cs` of the classes, and nothing below depends on which one.
 */
module Routing {
  import opened Strings
  import opened ClassModel

  /** `is_test_file` */
  predicate IsTestFile(m: string) {
    StartsWith(m, "tests") || Contains(m, "/tests/") || EndsWith(m, "_test") || EndsWith(m, "_tests")
  }

  /** A module is a test module exactly when its name starts with `tests`,
      has `/tests/` somewhere in it, or ends with `_test` or `_tests`. */
  lemma IsTestFileSpec(m: string)
    ensures IsTestFile(m) <==>
      || (|m| >= 5 && m[..5] == "tests")
      || (exists k :: OccursAt(m, "/tests/", k))
      || (|m| >= 5 && m[|m| - 5..] == "_test")
      || (|m| >= 6 && m[|m| - 6..] == "_tests")
  {
    ContainsIff(m, "/tests/");
  }

  /** Modules under a `tests` directory and modules named with a `_test` or
      `_tests` suffix are test modules; so is anything whose name merely
      starts with `tests`, such as `testsuite`. */
  lemma TestFileShapes(m: string, r: string)
    ensures IsTestFile("tests" + r)
    ensures IsTestFile(m + "/tests/" + r)
    ensures IsTestFile(m + "_test") && IsTestFile(m + "_tests")
  {
    assert ("tests" + r)[..5] == "tests";
    var n := m + "/tests/" + r;
    assert n[|m|..|m| + 7] == "/tests/";
    assert OccursAt(n, "/tests/", |m|);
    ContainsIff(n, "/tests/");
    assert (m + "_test")[|m + "_test"| - 5..] == "_test";
    assert (m + "_tests")[|m + "_tests"| - 6..] == "_tests";
  }

  /** A name ending in `test` without the underscore is not a test module. */
  lemma ContestIsNotTest()
    ensures !IsTestFile("contest")
  {
    var m := "contest";
    IsTestFileSpec(m);
    assert m[0] != '/' && m[1] != '/' && m[2] != '/';
    assert forall k :: 0 <= k && k + 7 <= |m| ==> m[k..k + 7][0] == m[k];
    assert m[..5] != "tests" by { assert m[0] != 't'; }
    assert m[2..] != "_test" by { assert m[2] != '_'; }
    assert m[1..] != "_tests" by { assert m[1] != '_'; }
  }

  /** A `tests` module that is a file of its own (`parse/tests.rs`) is not a
      test module. */
  lemma NestedTestsFileIsNotTest()
    ensures !IsTestFile("parse/tests")
  {
    var m := "parse/tests";
    IsTestFileSpec(m);
    assert m[0] != '/' && m[1] != '/' && m[2] != '/' && m[3] != '/' && m[4] != '/';
    assert forall k :: 0 <= k && k + 7 <= |m| ==> m[k..k + 7][0] == m[k];
    assert m[..5] != "tests" by { assert m[0] != 't'; }
    assert m[6..] != "_test" by { assert m[6] != '_'; }
    assert m[5..] != "_tests" by { assert m[5] != '_'; }
  }

  /** The namespace groups of the two diagrams, by file module. */
  datatype Groups = Groups(main: map<string, seq<Class>>, test: map<string, seq<Class>>)

  /** The routing loop over `cs`, starting from the groups `g`. */
  function Route(cs: seq<Class>, g: Groups): Groups
    decreases |cs|
  {
    if cs == [] then g else Route(cs[1..], Step(cs[0], g))
  }

  /** One class routed: appended to its file's group in the diagram its file selects. */
  function Step(c: Class, g: Groups): Groups {
    if IsTestFile(c.file) then g.(test := Push(g.test, c.file, c)) else g.(main := Push(g.main, c.file, c))
  }

  /** Routing of the classes enumerated by `cs` into empty groups. */
  function RouteClasses(cs: seq<Class>): Groups {
    Route(cs, Groups(map[], map[]))
  }

  /** The classes of `cs` filed under `f`, in enumeration order. */
  ghost function WithFile(cs: seq<Class>, f: string): seq<Class> {
    if cs == [] then []
    else (if cs[0].file == f then [cs[0]] else []) + WithFile(cs[1..], f)
  }

  lemma {:induction false} WithFileMember(cs: seq<Class>, f: string, c: Class)
    ensures c in WithFile(cs, f) <==> c in cs && c.file == f
  {
    if cs != [] {
      WithFileMember(cs[1..], f, c);
      assert c in cs <==> c == cs[0] || c in cs[1..];
    }
  }

  lemma StepMain(c: Class, g: Groups, f: string)
    ensures Get(Step(c, g).main, f) == Get(g.main, f) + (if !IsTestFile(f) && c.file == f then [c] else [])
    ensures f in Step(c, g).main <==> f in g.main || (!IsTestFile(f) && c.file == f)
  {
  }

  lemma StepTest(c: Class, g: Groups, f: string)
    ensures Get(Step(c, g).test, f) == Get(g.test, f) + (if IsTestFile(f) && c.file == f then [c] else [])
    ensures f in Step(c, g).test <==> f in g.test || (IsTestFile(f) && c.file == f)
  {
  }

  lemma {:induction false} RouteMain(cs: seq<Class>, g: Groups, f: string)
    ensures Get(Route(cs, g).main, f) == Get(g.main, f) + (if IsTestFile(f) then [] else WithFile(cs, f))
    decreases |cs|
  {
    if cs != [] {
      var c := cs[0];
      var rest := WithFile(cs[1..], f);
      StepMain(c, g, f);
      RouteMain(cs[1..], Step(c, g), f);
      var w := if c.file == f then [c] else [];
      assert WithFile(cs, f) == w + rest;
      if !IsTestFile(f) {
        AppendAssoc(Get(g.main, f), w, rest);
      }
    }
  }

  lemma {:induction false} RouteTest(cs: seq<Class>, g: Groups, f: string)
    ensures Get(Route(cs, g).test, f) == Get(g.test, f) + (if IsTestFile(f) then WithFile(cs, f) else [])
    decreases |cs|
  {
    if cs != [] {
      var c := cs[0];
      var rest := WithFile(cs[1..], f);
      StepTest(c, g, f);
      RouteTest(cs[1..], Step(c, g), f);
      var w := if c.file == f then [c] else [];
      assert WithFile(cs, f) == w + rest;
      if IsTestFile(f) {
        AppendAssoc(Get(g.test, f), w, rest);
      }
    }
  }

  lemma {:induction false} RouteKeys(cs: seq<Class>, g: Groups, f: string)
    ensures f in Route(cs, g).main <==> f in g.main || (!IsTestFile(f) && exists c :: c in cs && c.file == f)
    ensures f in Route(cs, g).test <==> f in g.test || (IsTestFile(f) && exists c :: c in cs && c.file == f)
    decreases |cs|
  {
    if cs != [] {
      StepMain(cs[0], g, f);
      StepTest(cs[0], g, f);
      RouteKeys(cs[1..], Step(cs[0], g), f);
      assert forall c :: c in cs <==> c == cs[0] || c in cs[1..];
    }
  }

  /** Every enumerated class lands in exactly one group: the test group of
      its file when that file is a test module, the main group of its file
      otherwise. Each group holds exactly the classes of its file, in
      enumeration order, and a group exists only when it is not empty. */
  lemma RouteClassesSpec(cs: seq<Class>, f: string)
    ensures Get(RouteClasses(cs).main, f) == if IsTestFile(f) then [] else WithFile(cs, f)
    ensures Get(RouteClasses(cs).test, f) == if IsTestFile(f) then WithFile(cs, f) else []
    ensures f in RouteClasses(cs).main <==> !IsTestFile(f) && exists c :: c in cs && c.file == f
    ensures f in RouteClasses(cs).test <==> IsTestFile(f) && exists c :: c in cs && c.file == f
    ensures forall c :: c in cs && c.file == f ==>
      && (c in Get(RouteClasses(cs).test, f) <==> IsTestFile(f))
      && (c in Get(RouteClasses(cs).main, f) <==> !IsTestFile(f))
  {
    RouteMain(cs, Groups(map[], map[]), f);
    RouteTest(cs, Groups(map[], map[]), f);
    RouteKeys(cs, Groups(map[], map[]), f);
    forall c | true
      ensures c in WithFile(cs, f) <==> c in cs && c.file == f
    {
      WithFileMember(cs, f, c);
    }
  }
}

=== FILE: scans.dfy ===
/**
 The two backward scans over the siblings that precede an item:
 `has_test_attribute`, which decides whether a function is a test, and
 `leading_doc_comment`, which picks the item's one-line doc summary.
 Both take the item's siblings and the item's index among them.
 */
module Scans {
  import opened Wrappers
  import opened Strings
  import opened SyntaxTree

  predicate IsAttribute(n: Node) {
    n.kind == "attribute_item" || n.kind == "attribute"
  }

  predicate IsComment(n: Node) {
    n.kind == "line_comment" || n.kind == "block_comment"
  }

  /** The attribute text test: `#[test]` or, more loosely, anything ending a bracket after `test`. */
  predicate IsTestMarker(text: string) {
    Contains(text, "#[test]") || Contains(text, "test]")
  }

  /** Sibling at index `j` and everything before it, walking backward. */
  function TestScan(sibs: seq<Node>, j: nat): bool
    requires j < |sibs|
    decreases j
  {
    var cur := sibs[j];
    if IsAttribute(cur) && IsTestMarker(cur.text) then true
    else if !IsAttribute(cur) && !IsComment(cur) && !IsBlank(cur.text) then false
    else if j == 0 then false
    else TestScan(sibs, j - 1)
  }

  /** `has_test_attribute` for the item at index `i` of `sibs`. */
  function HasTestAttribute(sibs: seq<Node>, i: nat): bool
    requires i < |sibs|
  {
    if i == 0 then false else TestScan(sibs, i - 1)
  }

  /** An attribute marking a test. */
  predicate IsTestAttr(n: Node) {
    IsAttribute(n) && IsTestMarker(n.text)
  }

  /** What the test scan walks past: another attribute, a comment, or a blank node. */
  predicate TestTransparent(n: Node) {
    (IsAttribute(n) && !IsTestMarker(n.text)) || IsComment(n) || (!IsAttribute(n) && IsBlank(n.text))
  }

  /** Every sibling strictly between `k` and `j` (inclusive of `j`) can be walked past. */
  ghost predicate TestClear(sibs: seq<Node>, k: int, j: int)
    requires j < |sibs|
  {
    forall m :: k < m <= j && 0 <= m ==> TestTransparent(sibs[m])
  }

  ghost predicate TestAttrReachable(sibs: seq<Node>, j: int)
    requires j < |sibs|
  {
    exists k :: 0 <= k <= j && IsTestAttr(sibs[k]) && TestClear(sibs, k, j)
  }

  lemma {:induction false} TestScanSpec(sibs: seq<Node>, j: nat)
    requires j < |sibs|
    ensures TestScan(sibs, j) <==> TestAttrReachable(sibs, j)
    decreases j
  {
    var cur := sibs[j];
    if IsAttribute(cur) && IsTestMarker(cur.text) {
      assert TestClear(sibs, j, j);
    } else if !IsAttribute(cur) && !IsComment(cur) && !IsBlank(cur.text) {
      assert !TestTransparent(cur);
    } else if j == 0 {
      assert !IsTestAttr(cur);
    } else {
      assert TestTransparent(cur);
      TestScanSpec(sibs, j - 1);
      if TestAttrReachable(sibs, j - 1) {
        var k :| 0 <= k <= j - 1 && IsTestAttr(sibs[k]) && TestClear(sibs, k, j - 1);
        assert TestClear(sibs, k, j);
      }
      if TestAttrReachable(sibs, j) {
        var k :| 0 <= k <= j && IsTestAttr(sibs[k]) && TestClear(sibs, k, j);
        assert k != j;
        assert TestClear(sibs, k, j - 1);
      }
    }
  }

  /** A function is a test exactly when some test attribute precedes it and
      everything between the two is another attribute, a comment or a blank
      node; with no preceding sibling it is never a test. */
  lemma HasTestAttributeSpec(sibs: seq<Node>, i: nat)
    requires i < |sibs|
    ensures i == 0 ==> !HasTestAttribute(sibs, i)
    ensures HasTestAttribute(sibs, i) <==>
      exists k :: 0 <= k < i && IsTestAttr(sibs[k]) && TestClear(sibs, k, i - 1)
  {
    if i > 0 {
      TestScanSpec(sibs, i - 1);
    }
  }

  /** A `///` line comment. */
  predicate IsDocLine(n: Node) {
    n.kind == "line_comment" && StartsWith(n.text, "///")
  }

  /** The summary a doc line contributes: its text after `///`, trimmed. */
  function DocText(n: Node): string
    requires IsDocLine(n)
  {
    Trim(n.text[3..])
  }

  /** What the doc scan walks past: a doc line, or a blank node that is not a line comment. */
  predicate DocTransparent(n: Node) {
    IsDocLine(n) || (n.kind != "line_comment" && IsBlank(n.text))
  }

  /** Siblings `k` up to (but excluding) `i` form an unbroken run the doc scan walks through. */
  ghost predicate DocRun(sibs: seq<Node>, k: int, i: int)
    requires i <= |sibs|
  {
    forall m :: k <= m < i && 0 <= m ==> DocTransparent(sibs[m])
  }

  /** Sibling at index `j` and everything before it; `last` is the most recent doc line seen. */
  function DocScan(sibs: seq<Node>, j: nat, last: Option<string>): Option<string>
    requires j < |sibs|
    decreases j
  {
    var cur := sibs[j];
    if cur.kind == "line_comment" then
      match StripPrefix(cur.text, "///")
      case Some(stripped) =>
        var last' := Some(Trim(stripped));
        if j == 0 then last' else DocScan(sibs, j - 1, last')
      case None => last
    else if !IsBlank(cur.text) then last
    else if j == 0 then last
    else DocScan(sibs, j - 1, last)
  }

  /** `leading_doc_comment` for the item at index `i` of `sibs`. */
  function LeadingDocComment(sibs: seq<Node>, i: nat): Option<string>
    requires i < |sibs|
  {
    if i == 0 then None else DocScan(sibs, i - 1, None)
  }

  /** `l` is the topmost doc line of the run of doc-transparent siblings ending at `i`. */
  ghost predicate TopmostDoc(sibs: seq<Node>, l: int, i: int)
    requires i <= |sibs|
  {
    && 0 <= l < i
    && IsDocLine(sibs[l])
    && DocRun(sibs, l, i)
    && forall l' :: 0 <= l' < l && DocRun(sibs, l', i) ==> !IsDocLine(sibs[l'])
  }

  ghost predicate HasDocRun(sibs: seq<Node>, i: int)
    requires i <= |sibs|
  {
    exists l :: 0 <= l < i && IsDocLine(sibs[l]) && DocRun(sibs, l, i)
  }

  /** Below a doc-transparent sibling `j`, a run reaching `j` is a run reaching `j + 1`. */
  lemma DocRunStep(sibs: seq<Node>, j: nat)
    requires j < |sibs| && DocTransparent(sibs[j])
    ensures forall l' :: 0 <= l' <= j ==> (DocRun(sibs, l', j + 1) <==> DocRun(sibs, l', j))
  {
  }

  /** A sibling the doc scan cannot walk past leaves no run above it. */
  lemma DocRunBroken(sibs: seq<Node>, j: nat)
    requires j < |sibs| && !DocTransparent(sibs[j])
    ensures !HasDocRun(sibs, j + 1)
  {
  }

  ghost predicate DocScanResult(sibs: seq<Node>, j: nat, last: Option<string>, r: Option<string>)
    requires j < |sibs|
  {
    && (!HasDocRun(sibs, j + 1) ==> r == last)
    && (HasDocRun(sibs, j + 1) ==> exists l :: TopmostDoc(sibs, l, j + 1) && r == Some(DocText(sibs[l])))
  }

  /** Passing a doc line: it becomes the topmost unless one further up takes over. */
  lemma DocScanAtDocLine(sibs: seq<Node>, j: nat, last: Option<string>, r: Option<string>)
    requires 0 < j < |sibs| && IsDocLine(sibs[j])
    requires DocScanResult(sibs, j - 1, Some(DocText(sibs[j])), r)
    ensures DocScanResult(sibs, j, last, r)
  {
    DocRunStep(sibs, j);
    assert DocRun(sibs, j, j + 1);
    if HasDocRun(sibs, j) {
      var l :| TopmostDoc(sibs, l, j) && r == Some(DocText(sibs[l]));
      assert TopmostDoc(sibs, l, j + 1);
    } else {
      forall l' | 0 <= l' < j && DocRun(sibs, l', j + 1)
        ensures !IsDocLine(sibs[l'])
      {
        assert DocRun(sibs, l', j);
      }
      assert TopmostDoc(sibs, j, j + 1);
    }
  }

  /** Passing a blank node changes nothing. */
  lemma DocScanAtBlank(sibs: seq<Node>, j: nat, last: Option<string>, r: Option<string>)
    requires 0 < j < |sibs| && DocTransparent(sibs[j]) && !IsDocLine(sibs[j])
    requires DocScanResult(sibs, j - 1, last, r)
    ensures DocScanResult(sibs, j, last, r)
  {
    DocRunStep(sibs, j);
    if HasDocRun(sibs, j + 1) {
      var l :| 0 <= l < j + 1 && IsDocLine(sibs[l]) && DocRun(sibs, l, j + 1);
      assert l < j;
      assert HasDocRun(sibs, j);
      var l2 :| TopmostDoc(sibs, l2, j) && r == Some(DocText(sibs[l2]));
      assert TopmostDoc(sibs, l2, j + 1);
    }
  }

  lemma {:induction false} DocScanSpec(sibs: seq<Node>, j: nat, last: Option<string>)
    requires j < |sibs|
    ensures DocScanResult(sibs, j, last, DocScan(sibs, j, last))
    decreases j, 1
  {
    if !DocTransparent(sibs[j]) {
      DocRunBroken(sibs, j);
    } else if IsDocLine(sibs[j]) {
      DocScanDocCase(sibs, j, last);
    } else {
      DocScanBlankCase(sibs, j, last);
    }
  }

  lemma {:induction false} DocScanDocCase(sibs: seq<Node>, j: nat, last: Option<string>)
    requires j < |sibs| && IsDocLine(sibs[j])
    ensures DocScanResult(sibs, j, last, DocScan(sibs, j, last))
    decreases j, 0
  {
    var cur := sibs[j];
    assert DocScan(sibs, j, last) == if j == 0 then Some(DocText(cur)) else DocScan(sibs, j - 1, Some(DocText(cur)));
    if j == 0 {
      assert DocRun(sibs, 0, 1);
      assert TopmostDoc(sibs, 0, 1);
    } else {
      var r := DocScan(sibs, j - 1, Some(DocText(cur)));
      DocScanSpec(sibs, j - 1, Some(DocText(cur)));
      DocScanAtDocLine(sibs, j, last, r);
    }
  }

  lemma {:induction false} DocScanBlankCase(sibs: seq<Node>, j: nat, last: Option<string>)
    requires j < |sibs| && DocTransparent(sibs[j]) && !IsDocLine(sibs[j])
    ensures DocScanResult(sibs, j, last, DocScan(sibs, j, last))
    decreases j, 0
  {
    if j == 0 {
      assert DocScan(sibs, j, last) == last;
    } else {
      var r := DocScan(sibs, j - 1, last);
      assert DocScan(sibs, j, last) == r;
      DocScanSpec(sibs, j - 1, last);
      DocScanAtBlank(sibs, j, last, r);
    }
  }

  /** The doc summary is the trimmed text of the TOPMOST `///` line in the
      unbroken run of doc lines and blank nodes directly above the item; with
      no doc line in that run there is no summary. A plain `//` comment, an
      attribute or any other non-blank node ends the run. */
  lemma LeadingDocCommentSpec(sibs: seq<Node>, i: nat)
    requires i < |sibs|
    ensures LeadingDocComment(sibs, i).None? <==> !HasDocRun(sibs, i)
    ensures LeadingDocComment(sibs, i).Some? ==>
      exists l :: TopmostDoc(sibs, l, i) && LeadingDocComment(sibs, i).value == DocText(sibs[l])
  {
    if i > 0 {
      DocScanSpec(sibs, i - 1, None);
    }
  }

  // ---------------------------------------------------------------------------
  // Examples
  // ---------------------------------------------------------------------------

  /** A `///` line gives its text after the marker, trimmed. */
  lemma DocLineText(t: string)
    ensures StartsWith("///" + t, "///")
    ensures StripPrefix("///" + t, "///") == Some(t)
  {
    assert ("///" + t)[..3] == "///";
  }

  /** Of two `///` lines directly above an item, the upper one gives the summary. */
  lemma TopmostDocLineWins(upper: string, lower: string, item: Node)
    ensures LeadingDocComment([Node("line_comment", "///" + upper, None, []), Node("line_comment", "///" + lower, None, []), item], 2)
      == Some(Trim(upper))
  {
    var sibs := [Node("line_comment", "///" + upper, None, []), Node("line_comment", "///" + lower, None, []), item];
    DocLineText(upper);
    DocLineText(lower);
    assert DocScan(sibs, 1, None) == DocScan(sibs, 0, Some(Trim(lower)));
  }

  /** A plain `//` comment between a doc line and the item hides the doc line. */
  lemma PlainCommentBreaksDoc(doc: string, note: string, item: Node)
    requires note == [] || note[0] != '/'
    ensures LeadingDocComment([Node("line_comment", "///" + doc, None, []), Node("line_comment", "//" + note, None, []), item], 2)
      == None
  {
    var t := "//" + note;
    if |t| >= 3 {
      assert t[2] == note[0];
      assert t[..3] != "///";
    }
    assert StripPrefix(t, "///").None?;
  }

  /** So does any attribute. */
  lemma AttributeBreaksDoc(doc: string, attr: Node, item: Node)
    requires IsAttribute(attr) && !IsBlank(attr.text)
    ensures LeadingDocComment([Node("line_comment", "///" + doc, None, []), attr, item], 2) == None
  {
  }

  /** `#[test]` is a test marker. */
  lemma TestMarkerExample()
    ensures IsTestMarker("#[test]")
  {
    assert StartsWith("#[test]", "#[test]");
  }

  /** A comment between a test attribute and the function does not hide the attribute. */
  lemma TestAttributeBehindComment(attr: Node, comment: Node, f: Node)
    requires IsTestAttr(attr) && IsComment(comment)
    ensures HasTestAttribute([attr, comment, f], 2)
  {
  }

  /** A statement between a test attribute and the function does. */
  lemma TestAttributeBehindStatement(attr: Node, stmt: Node, f: Node)
    requires !IsAttribute(stmt) && !IsComment(stmt) && !IsBlank(stmt.text)
    ensures !HasTestAttribute([attr, stmt, f], 2)
  {
  }
}

=== FILE: signatures.dfy ===
/**
 Helpers that read a declaration's type syntax: the type identifiers under a
 field's type (`extract_type_identifiers`), and a function's rendered
 parameter list and return type (`extract_function_params`,
 `extract_function_return_type`).
 */
module Signatures {
  import opened Wrappers
  import opened Strings
  import opened SyntaxTree

  // ---------------------------------------------------------------------------
  // Type identifiers under a field's type
  // ---------------------------------------------------------------------------

  /** Type identifiers found from child `i` of `n` onward, each child before its own descendants. */
  function IdentsFrom(n: Node, i: nat): seq<string>
    requires i <= |n.children|
    decreases n, |n.children| - i
  {
    if i == |n.children| then []
    else
      var c := n.children[i];
      (if c.kind == "type_identifier" then [c.text] else []) + IdentsFrom(c, 0) + IdentsFrom(n, i + 1)
  }

  /** `extract_type_identifiers`: only the children of `n` and their descendants are inspected. */
  function ExtractTypeIdentifiers(n: Node): seq<string> {
    IdentsFrom(n, 0)
  }

  /** The texts of the nodes of kind `k` among `ds`, in order. */
  ghost function KindTexts(ds: seq<Node>, k: string): seq<string> {
    if ds == [] then []
    else (if ds[0].kind == k then [ds[0].text] else []) + KindTexts(ds[1..], k)
  }

  lemma {:induction false} KindTextsConcat(a: seq<Node>, b: seq<Node>, k: string)
    ensures KindTexts(a + b, k) == KindTexts(a, k) + KindTexts(b, k)
  {
    if a != [] {
      assert (a + b)[1..] == a[1..] + b;
      KindTextsConcat(a[1..], b, k);
    } else {
      assert a + b == b;
    }
  }

  lemma {:induction false} KindTextsMember(ds: seq<Node>, k: string, t: string)
    ensures t in KindTexts(ds, k) <==> exists d :: d in ds && d.kind == k && d.text == t
  {
    if ds != [] {
      KindTextsMember(ds[1..], k, t);
      if exists d :: d in ds && d.kind == k && d.text == t {
        var d :| d in ds && d.kind == k && d.text == t;
        if d != ds[0] {
          assert d in ds[1..];
        }
      }
    }
  }

  lemma {:induction false} IdentsFromPreOrder(n: Node, i: nat)
    requires i <= |n.children|
    ensures IdentsFrom(n, i) == KindTexts(DescendantsFrom(n, i), "type_identifier")
    decreases n, |n.children| - i
  {
    if i < |n.children| {
      var c := n.children[i];
      IdentsFromPreOrder(c, 0);
      IdentsFromPreOrder(n, i + 1);
      KindTextsConcat([c] + DescendantsFrom(c, 0), DescendantsFrom(n, i + 1), "type_identifier");
      KindTextsConcat([c], DescendantsFrom(c, 0), "type_identifier");
      assert KindTexts([c], "type_identifier") == if c.kind == "type_identifier" then [c.text] else [];
    }
  }

  /** The identifiers are exactly the texts of the `type_identifier` nodes
      strictly below the type node, in pre-order (generic arguments
      included); the type node itself is never reported. */
  lemma TypeIdentifiersPreOrder(n: Node)
    ensures ExtractTypeIdentifiers(n) == KindTexts(Descendants(n), "type_identifier")
    ensures forall t :: t in ExtractTypeIdentifiers(n) <==>
      exists d :: d in Descendants(n) && d.kind == "type_identifier" && d.text == t
  {
    IdentsFromPreOrder(n, 0);
    forall t
      ensures t in ExtractTypeIdentifiers(n) <==>
        exists d :: d in Descendants(n) && d.kind == "type_identifier" && d.text == t
    {
      KindTextsMember(Descendants(n), "type_identifier", t);
    }
  }

  /** A bare type (`b: B`), whose type node is itself a childless
      `type_identifier`, yields no identifiers at all. */
  lemma BareTypeYieldsNothing(n: Node)
    requires n.kind == "type_identifier" && n.children == []
    ensures ExtractTypeIdentifiers(n) == []
  {
  }

  // ---------------------------------------------------------------------------
  // Parameters
  // ---------------------------------------------------------------------------

  /** The trimmed text of field `f` of `n`, if present. */
  function TrimmedField(n: Node, f: string): Option<string> {
    match ChildByField(n, f)
    case Some(c) => Some(Trim(c.text))
    case None => None
  }

  /** A child of the parameter list that produces an entry: a receiver, or a
      parameter with a pattern or a type. */
  predicate Renderable(c: Node) {
    || c.kind == "self_parameter"
    || (c.kind == "parameter" && (ChildByField(c, "pattern").Some? || ChildByField(c, "type").Some?))
  }

  /** One child of the parameter list rendered, or None when it is skipped. */
  function RenderParameter(c: Node): (r: Option<string>)
    ensures r.Some? <==> Renderable(c)
    ensures c.kind == "parameter" && ChildByField(c, "pattern").Some? && ChildByField(c, "type").None? ==>
      r == Some(Trim(ChildByField(c, "pattern").value.text))
    ensures c.kind == "parameter" && ChildByField(c, "pattern").None? && ChildByField(c, "type").Some? ==>
      r == Some(Trim(ChildByField(c, "type").value.text))
    ensures c.kind == "parameter" && ChildByField(c, "pattern").Some? && ChildByField(c, "type").Some? ==>
      r == Some(Trim(ChildByField(c, "pattern").value.text) + ": " + Trim(ChildByField(c, "type").value.text))
  {
    if c.kind == "parameter" then
      match (TrimmedField(c, "pattern"), TrimmedField(c, "type"))
      case (Some(n), Some(t)) => Some(n + ": " + t)
      case (Some(n), None) => Some(n)
      case (None, Some(t)) => Some(t)
      case (None, None) => None
    else if c.kind == "self_parameter" then Some(Trim(c.text))
    else None
  }

  function RenderParams(cs: seq<Node>): seq<string> {
    if cs == [] then []
    else
      (match RenderParameter(cs[0]) case Some(s) => [s] case None => []) + RenderParams(cs[1..])
  }

  /** `extract_function_params` */
  function ExtractFunctionParams(func: Node): seq<string> {
    match ChildByField(func, "parameters")
    case Some(list) => RenderParams(list.children)
    case None => []
  }

  function CountRenderable(cs: seq<Node>): nat {
    if cs == [] then 0 else (if Renderable(cs[0]) then 1 else 0) + CountRenderable(cs[1..])
  }

  /** One entry per renderable child and no other, in the children's order:
      the entry of child `j` sits after the entries of the renderable
      children before it. */
  lemma {:induction false} RenderParamsSpec(cs: seq<Node>)
    ensures |RenderParams(cs)| == CountRenderable(cs)
    ensures forall j :: 0 <= j < |cs| && Renderable(cs[j]) ==>
      CountRenderable(cs[..j]) < |RenderParams(cs)| &&
      RenderParams(cs)[CountRenderable(cs[..j])] == RenderParameter(cs[j]).value
  {
    if cs != [] {
      RenderParamsSpec(cs[1..]);
      var head := if Renderable(cs[0]) then 1 else 0;
      forall j | 0 <= j < |cs| && Renderable(cs[j])
        ensures CountRenderable(cs[..j]) < |RenderParams(cs)|
        ensures RenderParams(cs)[CountRenderable(cs[..j])] == RenderParameter(cs[j]).value
      {
        if j == 0 {
          assert cs[..0] == [];
        } else {
          assert cs[..j][1..] == cs[1..][..j - 1];
          assert CountRenderable(cs[..j]) == head + CountRenderable(cs[1..][..j - 1]);
          assert cs[1..][j - 1] == cs[j];
        }
      }
    }
  }

  /** `extract_function_params` keeps every receiver and every parameter
      with a pattern or a type, in order, and drops only parameters with
      neither. */
  lemma FunctionParamsSpec(func: Node, list: Node)
    requires ChildByField(func, "parameters") == Some(list)
    ensures |ExtractFunctionParams(func)| == CountRenderable(list.children)
    ensures forall j :: 0 <= j < |list.children| && Renderable(list.children[j]) ==>
      CountRenderable(list.children[..j]) < |ExtractFunctionParams(func)| &&
      ExtractFunctionParams(func)[CountRenderable(list.children[..j])] == RenderParameter(list.children[j]).value
  {
    RenderParamsSpec(list.children);
  }

  /** A parameter with both a pattern and a type renders as `pattern: type`:
      when the pattern has no colon, the first colon splits the entry back
      into the trimmed pattern and the trimmed type. */
  lemma ParameterRoundTrip(c: Node, pat: Node, ty: Node)
    requires c.kind == "parameter"
    requires ChildByField(c, "pattern") == Some(pat) && ChildByField(c, "type") == Some(ty)
    requires ':' !in Trim(pat.text)
    ensures var s := RenderParameter(c).value;
      var n := Trim(pat.text);
      IndexOf(s, ':') == Some(|n|) && s[..|n|] == n && s[|n| + 2..] == Trim(ty.text)
  {
    var n := Trim(pat.text);
    var t := Trim(ty.text);
    assert TrimmedField(c, "pattern") == Some(n);
    assert TrimmedField(c, "type") == Some(t);
    assert RenderParameter(c) == Some(n + ": " + t);
    var s := n + ": " + t;
    assert s == n + [':'] + (" " + t);
    IndexOfAfter(n, ':', " " + t);
    assert s[..|n|] == n;
    assert s[|n| + 2..] == t;
  }

  /** A receiver renders as its trimmed text. */
  lemma SelfParameterRendersTrimmed(c: Node)
    requires c.kind == "self_parameter"
    ensures RenderParameter(c) == Some(Trim(c.text))
    ensures IsTrimmed(RenderParameter(c).value)
  {
  }

  // ---------------------------------------------------------------------------
  // Return type
  // ---------------------------------------------------------------------------

  /** `extract_function_return_type`: trim, strip one leading `->`, trim again;
      nothing left means no return type. */
  function ExtractFunctionReturnType(func: Node): (r: Option<string>)
    ensures r.Some? ==> r.value != [] && IsTrimmed(r.value)
    ensures ChildByField(func, "return_type").None? ==> r.None?
  {
    match ChildByField(func, "return_type")
    case None => None
    case Some(node) =>
      var text := Trim(node.text);
      var stripped := match StripPrefix(text, "->") case Some(rest) => Trim(rest) case None => text;
      if stripped == [] then None else Some(stripped)
  }

  lemma ArrowCoreTrimmed(a: string, b: string, c: string, t: string)
    requires AllWhitespace(a) && AllWhitespace(c)
    requires IsTrimmed(t) && t != []
    ensures Trim(a + "->" + b + t + c) == "->" + b + t
  {
    var core := "->" + b + t;
    assert core[|core| - 1] == t[|t| - 1];
    assert a + "->" + b + t + c == a + core + c;
    TrimPadded(a, core, c);
  }

  /** Round trip: a return type written as `-> T` with any whitespace padding
      comes back as exactly `T`. */
  lemma ReturnTypeArrowRoundTrip(func: Node, node: Node, a: string, b: string, c: string, t: string)
    requires ChildByField(func, "return_type") == Some(node)
    requires node.text == a + "->" + b + t + c
    requires AllWhitespace(a) && AllWhitespace(b) && AllWhitespace(c)
    requires IsTrimmed(t) && t != []
    ensures ExtractFunctionReturnType(func) == Some(t)
  {
    var core := "->" + b + t;
    ArrowCoreTrimmed(a, b, c, t);
    assert core[..2] == "->" && core[2..] == b + t;
    assert StripPrefix(core, "->") == Some(b + t);
    assert b + t == b + t + [];
    TrimPadded(b, t, []);
    assert Trim(b + t) == t;
  }

  /** Round trip without the arrow: a bare `T` also comes back as `T`. */
  lemma ReturnTypeBareRoundTrip(func: Node, node: Node, a: string, c: string, t: string)
    requires ChildByField(func, "return_type") == Some(node)
    requires node.text == a + t + c
    requires AllWhitespace(a) && AllWhitespace(c)
    requires IsTrimmed(t) && t != [] && !StartsWith(t, "->")
    ensures ExtractFunctionReturnType(func) == Some(t)
  {
    TrimPadded(a, t, c);
  }

  /** An arrow with nothing after it, or a blank return type, is no return type. */
  lemma ReturnTypeEmptyIsNone(func: Node, node: Node, a: string, b: string)
    requires ChildByField(func, "return_type") == Some(node)
    requires node.text == a + "->" + b || node.text == a
    requires AllWhitespace(a) && AllWhitespace(b)
    ensures ExtractFunctionReturnType(func).None?
  {
    if node.text == a {
      TrimPadded(a, [], []);
      assert a + [] + [] == a;
    } else {
      TrimPadded(a, "->", b);
      assert StripPrefix("->", "->") == Some([]);
    }
  }
}

=== FILE: strings.dfy ===
/**
 The few operations of Rust's `str` that the extractor and the renderer use:
 `trim`, `starts_with`, `ends_with`, `contains`, `strip_prefix`, byte-wise
 ordering (the order of a `BTreeSet<String>`) and splitting a rendered
 document back into its lines.
 */
module Strings {
  import opened Wrappers

  /** Rust's `char::is_whitespace`: the Unicode White_Space property. */
  predicate IsWhitespace(c: char) {
    || ('\t' <= c <= '\r')
    || c == ' '
    || c == '\U{85}'
    || c == '\U{A0}'
    || c == '\U{1680}'
    || ('\U{2000}' <= c <= '\U{200A}')
    || c == '\U{2028}'
    || c == '\U{2029}'
    || c == '\U{202F}'
    || c == '\U{205F}'
    || c == '\U{3000}'
  }

  predicate AllWhitespace(s: string) {
    forall i :: 0 <= i < |s| ==> IsWhitespace(s[i])
  }

  /** Neither end of `s` is whitespace: what `trim` leaves behind. */
  predicate IsTrimmed(s: string) {
    s == [] || (!IsWhitespace(s[0]) && !IsWhitespace(s[|s| - 1]))
  }

  function TrimStart(s: string): (r: string)
    ensures |r| <= |s|
    ensures r == [] || !IsWhitespace(r[0])
  {
    if |s| > 0 && IsWhitespace(s[0]) then TrimStart(s[1..]) else s
  }

  function TrimEnd(s: string): (r: string)
    ensures |r| <= |s| && r == s[..|r|]
    ensures r == [] || !IsWhitespace(r[|r| - 1])
  {
    if |s| > 0 && IsWhitespace(s[|s| - 1]) then TrimEnd(s[..|s| - 1]) else s
  }

  /** Rust's `str::trim`. */
  function Trim(s: string): (r: string)
    ensures IsTrimmed(r)
    ensures |r| <= |s|
  {
    TrimEnd(TrimStart(s))
  }

  /** `text.trim().is_empty()`, which holds exactly when every character is
      whitespace (see `BlankIffTrimEmpty`). */
  predicate IsBlank(s: string) {
    AllWhitespace(s)
  }

  lemma {:induction false} TrimStartPadded(a: string, t: string)
    requires AllWhitespace(a)
    requires t == [] || !IsWhitespace(t[0])
    ensures TrimStart(a + t) == t
  {
    if |a| > 0 {
      assert (a + t)[1..] == a[1..] + t;
      TrimStartPadded(a[1..], t);
    } else {
      assert a + t == t;
    }
  }

  lemma {:induction false} TrimEndPadded(t: string, b: string)
    requires AllWhitespace(b)
    requires t == [] || !IsWhitespace(t[|t| - 1])
    ensures TrimEnd(t + b) == t
  {
    if |b| > 0 {
      assert (t + b)[..|t + b| - 1] == t + b[..|b| - 1];
      TrimEndPadded(t, b[..|b| - 1]);
    } else {
      assert t + b == t;
    }
  }

  /** Trimming removes exactly the whitespace padding around a trimmed core. */
  lemma TrimPadded(a: string, t: string, b: string)
    requires AllWhitespace(a) && AllWhitespace(b) && IsTrimmed(t)
    ensures Trim(a + t + b) == t
  {
    if t == [] {
      assert a + t + b == a + b;
      assert AllWhitespace(a + b);
      TrimStartPadded(a + b, []);
      assert a + b + [] == a + b;
    } else {
      assert a + t + b == a + (t + b);
      TrimStartPadded(a, t + b);
      TrimEndPadded(t, b);
    }
  }

  lemma {:induction false} TrimStartEmpty(s: string)
    requires TrimStart(s) == []
    ensures AllWhitespace(s)
  {
    if |s| > 0 {
      TrimStartEmpty(s[1..]);
    }
  }

  lemma {:induction false} TrimEndEmpty(s: string)
    requires TrimEnd(s) == []
    ensures AllWhitespace(s)
  {
    if |s| > 0 {
      TrimEndEmpty(s[..|s| - 1]);
    }
  }

  /** Trimming leaves nothing exactly when every character is whitespace. */
  lemma BlankIffTrimEmpty(s: string)
    ensures IsBlank(s) <==> Trim(s) == []
  {
    if Trim(s) == [] {
      TrimEndEmpty(TrimStart(s));
      TrimStartEmpty(s);
    }
    if AllWhitespace(s) {
      TrimPadded(s, [], []);
      assert s + [] + [] == s;
    }
  }

  predicate StartsWith(s: string, p: string) {
    |p| <= |s| && s[..|p|] == p
  }

  predicate EndsWith(s: string, p: string) {
    |p| <= |s| && s[|s| - |p|..] == p
  }

  /** Rust's `str::contains` for a string pattern, as a left-to-right search. */
  predicate Contains(s: string, p: string)
    decreases |s|
  {
    |p| <= |s| && (StartsWith(s, p) || (|s| > 0 && Contains(s[1..], p)))
  }

  predicate OccursAt(s: string, p: string, k: int) {
    0 <= k && k + |p| <= |s| && s[k..k + |p|] == p
  }

  /** The search finds `p` exactly when `p` occurs somewhere in `s`. */
  lemma {:induction false} ContainsIff(s: string, p: string)
    ensures Contains(s, p) <==> exists k :: OccursAt(s, p, k)
    decreases |s|
  {
    if Contains(s, p) {
      if StartsWith(s, p) {
        assert OccursAt(s, p, 0);
      } else {
        ContainsIff(s[1..], p);
        var k :| OccursAt(s[1..], p, k);
        assert s[1..][k..k + |p|] == s[k + 1..k + 1 + |p|];
        assert OccursAt(s, p, k + 1);
      }
    }
    if exists k :: OccursAt(s, p, k) {
      var k :| OccursAt(s, p, k);
      if k == 0 {
        assert StartsWith(s, p);
      } else {
        assert s[1..][k - 1..k - 1 + |p|] == s[k..k + |p|];
        assert OccursAt(s[1..], p, k - 1);
        ContainsIff(s[1..], p);
      }
    }
  }

  /** Rust's `str::strip_prefix`. */
  function StripPrefix(s: string, p: string): (r: Option<string>)
    ensures r.Some? <==> StartsWith(s, p)
    ensures r.Some? ==> s == p + r.value
  {
    if StartsWith(s, p) then Some(s[|p|..]) else None
  }

  /** Lexicographic order of `String`, as `Ord` compares them. */
  predicate LexLess(a: string, b: string)
    decreases |a|
  {
    if |a| == 0 then |b| > 0
    else if |b| == 0 then false
    else if a[0] == b[0] then LexLess(a[1..], b[1..])
    else a[0] < b[0]
  }

  lemma {:induction false} LexLessIrreflexive(a: string)
    ensures !LexLess(a, a)
    decreases |a|
  {
    if |a| > 0 {
      LexLessIrreflexive(a[1..]);
    }
  }

  lemma {:induction false} LexLessTransitive(a: string, b: string, c: string)
    requires LexLess(a, b) && LexLess(b, c)
    ensures LexLess(a, c)
    decreases |a|
  {
    if |a| > 0 && |b| > 0 && |c| > 0 && a[0] == b[0] && b[0] == c[0] {
      LexLessTransitive(a[1..], b[1..], c[1..]);
    }
  }

  lemma {:induction false} LexLessTotal(a: string, b: string)
    requires a != b
    ensures LexLess(a, b) || LexLess(b, a)
    decreases |a|
  {
    if |a| > 0 && |b| > 0 && a[0] == b[0] {
      assert a == [a[0]] + a[1..] && b == [b[0]] + b[1..];
      LexLessTotal(a[1..], b[1..]);
    }
  }

  /** Position of the first `c` in `s`. */
  function IndexOf(s: string, c: char): (r: Option<nat>)
    ensures r.Some? ==> r.value < |s| && s[r.value] == c && c !in s[..r.value]
    ensures r.None? ==> c !in s
  {
    if |s| == 0 then None
    else if s[0] == c then Some(0)
    else
      match IndexOf(s[1..], c)
      case None => None
      case Some(i) => assert s[..i + 1] == [s[0]] + s[1..][..i]; Some(i + 1)
  }

  lemma IndexOfAfter(a: string, c: char, b: string)
    requires c !in a
    ensures IndexOf(a + [c] + b, c) == Some(|a|)
  {
    var s := a + [c] + b;
    assert s[|a|] == c;
    assert s[..|a|] == a;
  }

  /** Splits a document into lines at each `'\n'`; the text after the last
      newline, if any, is a final line of its own. */
  function SplitLines(s: string): seq<string>
    decreases |s|
  {
    if s == [] then []
    else match IndexOf(s, '\n')
      case None => [s]
      case Some(i) => [s[..i]] + SplitLines(s[i + 1..])
  }

  /** One newline-terminated line comes off the front of a document intact. */
  lemma SplitLinesCons(line: string, rest: string)
    requires '\n' !in line
    ensures SplitLines(line + "\n" + rest) == [line] + SplitLines(rest)
  {
    var s := line + "\n" + rest;
    IndexOfAfter(line, '\n', rest);
    assert s[..|line|] == line;
    assert s[|line| + 1..] == rest;
  }

  lemma AppendAssoc<T>(a: seq<T>, b: seq<T>, c: seq<T>)
    ensures (a + b) + c == a + (b + c)
  {
  }
}

=== FILE: syntax_tree.dfy ===
/**
 An abstract tree-sitter syntax tree. A node has a kind, the source text it
 spans, the name of the field it occupies in its parent (if any), and its
 ordered children, named and anonymous alike. `child_by_field_name(f)` is the
 first child sitting under field `f`; a node's siblings are its parent's
 children, and a sibling is addressed by its index among them.
 */
module SyntaxTree {
  import opened Wrappers

  datatype Node = Node(kind: string, text: string, field: Option<string>, children: seq<Node>)

  /** `child_by_field_name`: the first child under field `f`, searching from index `i`. */
  function FieldFrom(cs: seq<Node>, f: string, i: nat): (r: Option<Node>)
    requires i <= |cs|
    ensures r.Some? ==> r.value in cs[i..] && r.value.field == Some(f)
    ensures r.None? ==> forall j :: i <= j < |cs| ==> cs[j].field != Some(f)
    decreases |cs| - i
  {
    if i == |cs| then None
    else if cs[i].field == Some(f) then Some(cs[i])
    else FieldFrom(cs, f, i + 1)
  }

  function ChildByField(n: Node, f: string): (r: Option<Node>)
    ensures r.Some? ==> r.value in n.children && r.value.field == Some(f)
    ensures r.None? ==> forall c :: c in n.children ==> c.field != Some(f)
  {
    FieldFrom(n.children, f, 0)
  }

  /** The text of the `name` field, when there is one. */
  function NameOf(n: Node): Option<string> {
    match ChildByField(n, "name")
    case Some(c) => Some(c.text)
    case None => None
  }

  /** The proper descendants of `n` in pre-order, starting at child `i`:
      a child comes before its own descendants, which come before its
      next sibling. */
  ghost function DescendantsFrom(n: Node, i: nat): seq<Node>
    requires i <= |n.children|
    decreases n, |n.children| - i
  {
    if i == |n.children| then []
    else [n.children[i]] + DescendantsFrom(n.children[i], 0) + DescendantsFrom(n, i + 1)
  }

  ghost function Descendants(n: Node): seq<Node> {
    DescendantsFrom(n, 0)
  }

  /** A node addressed by its siblings and its index among them, which is
      how the scans over preceding siblings see it. */
  datatype Pos = Pos(sibs: seq<Node>, at: nat)

  /** The positions of the proper descendants of `n`, starting at child `i`,
      in the same pre-order as `DescendantsFrom`. */
  ghost function PositionsFrom(n: Node, i: nat): seq<Pos>
    requires i <= |n.children|
    decreases n, |n.children| - i
  {
    if i == |n.children| then []
    else [Pos(n.children, i)] + PositionsFrom(n.children[i], 0) + PositionsFrom(n, i + 1)
  }

  ghost function Positions(n: Node): seq<Pos> {
    PositionsFrom(n, 0)
  }
}

=== FILE: type_universe.dfy ===
/**
 The first pass of the extractor: the names of every struct, enum and trait
 declared anywhere in a file (`collect_type_names`). The union of these sets
 over all files is the type universe that decides which referenced types
 are local.
 */
module TypeUniverse {
  import opened Wrappers
  import opened SyntaxTree

  /** A struct, enum or trait declaration. */
  predicate IsTypeDecl(n: Node) {
    n.kind == "struct_item" || n.kind == "enum_item" || n.kind == "trait_item"
  }

  /** Names declared by child `i` onward of `n` and everything below them. */
  function CollectFrom(n: Node, i: nat): set<string>
    requires i <= |n.children|
    decreases n, |n.children| - i
  {
    if i == |n.children| then {}
    else
      var c := n.children[i];
      var here := if IsTypeDecl(c) && NameOf(c).Some? then {NameOf(c).value} else {};
      here + CollectFrom(c, 0) + CollectFrom(n, i + 1)
  }

  /** `collect_type_names` on the tree rooted at `n`. */
  function CollectTypeNames(n: Node): set<string> {
    CollectFrom(n, 0)
  }

  /** `t` is the name of a type declaration among `ds`. */
  ghost predicate DeclaredIn(ds: seq<Node>, t: string) {
    exists d :: d in ds && IsTypeDecl(d) && NameOf(d) == Some(t)
  }

  lemma {:induction false} CollectFromSpec(n: Node, i: nat, t: string)
    requires i <= |n.children|
    ensures t in CollectFrom(n, i) <==> DeclaredIn(DescendantsFrom(n, i), t)
    decreases n, |n.children| - i
  {
    if i < |n.children| {
      var c := n.children[i];
      var ds := DescendantsFrom(n, i);
      var below := DescendantsFrom(c, 0);
      var after := DescendantsFrom(n, i + 1);
      assert ds == [c] + below + after;
      CollectFromSpec(c, 0, t);
      CollectFromSpec(n, i + 1, t);
      if DeclaredIn(ds, t) {
        var d :| d in ds && IsTypeDecl(d) && NameOf(d) == Some(t);
        if d == c {
        } else if d in below {
          assert DeclaredIn(below, t);
        } else {
          assert DeclaredIn(after, t);
        }
      }
      if t in CollectFrom(c, 0) {
        var d :| d in below && IsTypeDecl(d) && NameOf(d) == Some(t);
        assert d in ds;
      }
      if t in CollectFrom(n, i + 1) {
        var d :| d in after && IsTypeDecl(d) && NameOf(d) == Some(t);
        assert d in ds;
      }
    }
  }

  /** A name is collected exactly when some struct, enum or trait with that
      name field lies anywhere below the root; the root itself is not
      inspected, and nothing else is added. */
  lemma CollectTypeNamesSpec(n: Node, t: string)
    ensures t in CollectTypeNames(n) <==>
      exists d :: d in Descendants(n) && IsTypeDecl(d) && NameOf(d) == Some(t)
  {
    CollectFromSpec(n, 0, t);
  }
}

=== FILE: wrappers.dfy ===
/** The optional-value datatype used throughout the model, standing in for Rust's `Option`. */
module Wrappers {

  datatype Option<+T> = None | Some(value: T)
}
